=== FILE: README.md ===
# Service discovery, modelled in Dafny

This project models the core of a service-discovery library. A
*discovery* keeps a collection of *services*, each a value with a
non-empty string identifier. It emits `available`, `update`,
`unavailable` and `destroy` events as that collection changes.

The model covers these parts:

- **The registry-backed discovery** (`BasicServiceDiscovery`): a map from
  identifier to service, mutated by `updateService`, `removeService` and
  `setServices`, plus the `destroyed` flag of the abstract base.
  - `Registry` states each mutation as a function on a `Store` value: the
    new store, the events emitted and the value returned.
  - The class `BasicDiscovery.BasicServiceDiscovery` updates its fields in
    place and is proved to agree with those functions.
- **The queries every discovery inherits**: `find`, `findAll`, the
  normalisation of the argument of `map`, and `and`.
- **The manual discovery** (`add`/`remove`/`set`), which forwards to the
  registry.
- **The filtering layer**: it keeps its own registry in step with the
  parent's events. Its invariant is that the registry holds exactly the
  parent's entries that satisfy the predicate. It is proved to hold after
  construction and after every parent change.
- **The layer lifecycle**: `release` and `destroy` on a chain of layered
  discoveries, including the cascade of destroy events through the
  subscribed layers.
- **The expiring discovery**:
  - the circular doubly linked list of timer nodes behind a sentinel;
  - the timeline of expirations it holds;
  - the rescheduling of the single expiration timer;
  - the sweep of expired services.
- **The option handling of the timed discovery**: how the stale time and
  the search interval are derived from each other.
- **The `HostAndPort` value**: `fromString`, `hasPort` and `compare`.
- **The legacy JavaScript discoveries** (`lib/basic.js`, `lib/filtered.js`,
  `lib/mapped.js`): a registry that keeps the first service seen under an
  identifier, a filtered view that re-emits its parent's events, and a
  mapped view that replays its parent through a mapper.

Modelling choices that apply throughout:

- Clocks are the parameter `now`.
- Times are real numbers.
- Emitted events are appended to a `log` field, in emission order.
- An event subscription is a boolean flag.
- Structural ("deep") equality of services is datatype equality.
- Two things the code calls from other libraries become function
  parameters: the IPv6 regular expression and the decimal port parser.

## Model

| member | source | states |
|---|---|---|
| Registry.Upsert | src/discovery/BasicServiceDiscovery.ts:57-93 | A missing service or an empty identifier is refused. Otherwise the service is filed under its identifier. A new identifier is appended to the iteration order; a known one keeps its place. A well-formed store stays well formed. |
| Registry.UpsertNew | src/discovery/BasicServiceDiscovery.ts:84-92 | A new identifier appends the service to `services`, emits one `available` and returns null. |
| Registry.UpsertUnchanged | src/discovery/BasicServiceDiscovery.ts:72-75 | A structurally equal value changes nothing, emits nothing and returns null. |
| Registry.UpsertChanged | src/discovery/BasicServiceDiscovery.ts:77-83 | A changed value replaces the stored one in its place in `services`. It emits one `update(new, previous)` and returns the previous value. |
| Registry.Remove | src/discovery/BasicServiceDiscovery.ts:103-121 | A removal never adds keys and keeps the store well formed. |
| Registry.RemoveUnknown | src/discovery/BasicServiceDiscovery.ts:104-107 | A null argument or an untracked identifier changes nothing, emits nothing and returns null. |
| Registry.RemoveEntries | src/discovery/BasicServiceDiscovery.ts:106-114 | Whether or not the identifier is tracked, the entries afterwards are exactly the old ones without it. |
| Registry.RemoveKnown | src/discovery/BasicServiceDiscovery.ts:106-117 | Removing a tracked identifier (a string or a service) deletes only that key. It emits `unavailable` with the stored value, returns that value, and keeps the rest of `services` in order. |
| Registry.GetAgreesWithList | src/discovery/BasicServiceDiscovery.ts:29-31 | `get(id)` returns exactly the service that `services` lists under `id`. |
| Registry.ValuesOf | src/discovery/BasicServiceDiscovery.ts:29-31 | The values at a sequence of keys, one per key and in key order. |
| Registry.List | src/discovery/BasicServiceDiscovery.ts:29-31 | `services` lists one value per tracked key, in iteration order. |
| Registry.UpsertAll | src/discovery/BasicServiceDiscovery.ts:131-135 | The first loop of `setServices` finishes without a throw exactly when every input service has an identifier. It keeps the store well formed. |
| Registry.RemoveAbsent | src/discovery/BasicServiceDiscovery.ts:138-142 | The second loop of `setServices` never throws and keeps the store well formed. |
| Registry.RemoveAbsentSnoc | src/discovery/BasicServiceDiscovery.ts:138-142 | One more key in the second loop means one more removal after the others, unless the key is kept. |
| Registry.UpsertAllKeys | src/discovery/BasicServiceDiscovery.ts:131-135 | After the first loop, the tracked keys are the old keys plus the input identifiers. |
| Registry.UpsertAllOthers | src/discovery/BasicServiceDiscovery.ts:131-135 | The first loop leaves untouched every tracked identifier that the input does not mention. |
| Registry.UpsertAllLast | src/discovery/BasicServiceDiscovery.ts:131-135 | After the first loop, each input identifier holds the LAST input service with that identifier. |
| Registry.UpsertAllNoRemoval | src/discovery/BasicServiceDiscovery.ts:131-135 | The first loop never emits `unavailable`. |
| Registry.RemoveAbsentContents | src/discovery/BasicServiceDiscovery.ts:137-142 | After the second loop, exactly the listed keys that are not kept are gone. Every event is an `unavailable` for such a key. |
| Registry.ReconcileContents | src/discovery/BasicServiceDiscovery.ts:129-143 | `setServices` over services that all have identifiers does not throw. The tracked keys become exactly the input identifiers, each holding its last input value, and no input identifier is announced unavailable. |
| Registry.ReconcileThrows | src/discovery/BasicServiceDiscovery.ts:129-143 | `setServices` with a service that lacks an identifier throws, and nothing is announced unavailable. |
| BasicDiscovery.DestroyCount | src/discovery/AbstractServiceDiscovery.ts:133-140 | The number of destroy events in a log is zero exactly when the log holds none. |
| BasicDiscovery.DestroyCountAppend | src/discovery/AbstractServiceDiscovery.ts:133-140 | The destroy events of two logs joined are the sum of each log's. |
| BasicDiscovery.BasicServiceDiscovery.constructor | src/discovery/BasicServiceDiscovery.ts:17-21 | A new discovery is empty, has emitted nothing and is not destroyed. |
| BasicDiscovery.BasicServiceDiscovery.UpdateService | src/discovery/BasicServiceDiscovery.ts:57-93 | The fields change exactly as `Registry.Upsert` says, the result is its return value or its throw, and the destroyed flag is untouched. |
| BasicDiscovery.BasicServiceDiscovery.RemoveService | src/discovery/BasicServiceDiscovery.ts:103-121 | The fields change exactly as `Registry.Remove` says. The removed value, when there is one, was tracked and its key is the only one deleted. |
| BasicDiscovery.BasicServiceDiscovery.SetServices | src/discovery/BasicServiceDiscovery.ts:129-143 | The new store, the events and any throw are those of `Registry.Reconcile`. |
| BasicDiscovery.BasicServiceDiscovery.UpsertEach | src/discovery/BasicServiceDiscovery.ts:130-135 | The first loop gives the store, events and throw of `Registry.UpsertAll`. Without a throw, the identifiers it collected are exactly the input identifiers. |
| BasicDiscovery.BasicServiceDiscovery.UpsertNext | src/discovery/BasicServiceDiscovery.ts:132-134 | One turn of the first loop keeps the rest of the loop on course to `Registry.UpsertAll`'s result, or ends at that result's throw. |
| BasicDiscovery.BasicServiceDiscovery.RemoveAllExcept | src/discovery/BasicServiceDiscovery.ts:138-142 | The second loop gives the store and events of `Registry.RemoveAbsent` over the keys tracked when it started. |
| BasicDiscovery.BasicServiceDiscovery.Destroy | src/discovery/AbstractServiceDiscovery.ts:133-144 | The first `destroy` sets the flag and emits one destroy event; later calls do nothing. The services are kept. |
| AbstractDiscovery.Find | src/discovery/AbstractServiceDiscovery.ts:92-100 | Returns null exactly when no service satisfies the predicate. Otherwise it returns a service that satisfies it, and no earlier service in `services` does. |
| AbstractDiscovery.FindAll | src/discovery/AbstractServiceDiscovery.ts:102-111 | Returns every service of `services` that satisfies the predicate, and only those. |
| AbstractDiscovery.FindIsFirstOfFindAll | src/discovery/AbstractServiceDiscovery.ts:92-111 | `find` is the first element of `findAll`, or null when `findAll` is empty. |
| AbstractDiscovery.FindAllKeepsOrder | src/discovery/AbstractServiceDiscovery.ts:102-111 | `findAll` keeps the order of `services`: its result is a subsequence of it. |
| AbstractDiscovery.Map | src/discovery/AbstractServiceDiscovery.ts:117-127 | An advanced mapper (an object whose `create` is a function) is passed on as it is. Anything else becomes the `create` of a mapper with no `update` and no `destroy`. |
| AbstractDiscovery.MapFunctionIsCreateOnly | src/discovery/AbstractServiceDiscovery.ts:117-127 | Mapping with a function is mapping with `{ create: function }`. |
| AbstractDiscovery.And | src/discovery/AbstractServiceDiscovery.ts:129-131 | `and` never returns. It throws the merged view of the two discoveries, in that order. |
| ManualDiscovery.ManualServiceDiscovery.constructor | src/discovery/ManualServiceDiscovery.ts:9-11 | A new manual discovery is empty, has emitted nothing and is not destroyed. |
| ManualDiscovery.ManualServiceDiscovery.Add | src/discovery/ManualServiceDiscovery.ts:18-20 | `add` returns, throws and emits exactly as `updateService` (`Registry.Upsert`). |
| ManualDiscovery.ManualServiceDiscovery.Remove | src/discovery/ManualServiceDiscovery.ts:27-29 | `remove` returns and emits exactly as `removeService` (`Registry.Remove`). |
| ManualDiscovery.ManualServiceDiscovery.Set | src/discovery/ManualServiceDiscovery.ts:35-37 | `set` emits and throws exactly as `setServices` (`Registry.Reconcile`). |
| FilteredDiscovery.AvailableEvents | src/discovery/LayeredServiceDiscovery.ts:44-46 | The replay at construction hands the handler one `available` per parent service, in order. |
| FilteredDiscovery.UnsetPredicateThrows | src/discovery/FilteredServiceDiscovery.ts:36-59 | While `this.predicate` is unset, delivering an `available` or `update` throws the TypeError before the registry changes or anything is emitted. |
| FilteredDiscovery.ConstructAsWrittenThrows | src/discovery/LayeredServiceDiscovery.ts:44-46 | As written (`ConstructAsWritten`: the replay with the predicate unset, the order of src/discovery/FilteredServiceDiscovery.ts:17-19), construction over a parent that holds a service throws the TypeError, and over an empty parent gives an empty registry. With the predicate stored first, the same replay never throws. |
| FilteredDiscovery.FilteredServiceDiscovery.constructor | src/discovery/FilteredServiceDiscovery.ts:13-20 | Construction with the predicate stored before the replay: the registry holds the result of replaying every parent service through the available handler, and it mirrors the parent. |
| FilteredDiscovery.FilteredServiceDiscovery.HandleParentServiceAvailable | src/discovery/FilteredServiceDiscovery.ts:36-40 | A service that satisfies the predicate is upserted, with the upsert's events and throw. Any other service changes nothing. |
| FilteredDiscovery.FilteredServiceDiscovery.HandleParentServiceUnavailable | src/discovery/FilteredServiceDiscovery.ts:42-44 | The service is removed whatever the predicate says. |
| FilteredDiscovery.FilteredServiceDiscovery.HandleParentServiceUpdate | src/discovery/FilteredServiceDiscovery.ts:46-59 | The new value is upserted if it satisfies the predicate. Otherwise its identifier is removed. |
| FilteredDiscovery.FilteredServiceDiscovery.HandleParentEvent | src/discovery/LayeredServiceDiscovery.ts:36-38 | Each parent event reaches the handler subscribed to it. |
| FilteredDiscovery.FilteredServiceDiscovery.DeliverEach | src/discovery/LayeredServiceDiscovery.ts:44-46 | Handing events to the handlers one by one gives the store, events and throw of `DeliverAll`. |
| FilteredDiscovery.FilteredServiceDiscovery.DeliverNext | src/discovery/LayeredServiceDiscovery.ts:44-46 | One delivery keeps the rest on course to `DeliverAll`'s result, or ends at its throw. |
| FilteredDiscovery.FilteredServiceDiscovery.ParentUpdateService | src/discovery/FilteredServiceDiscovery.ts:36-59 | On an error the parent, its log and the layer's registry and log stay as they were; otherwise the parent's store and log change as `Registry.Upsert` says, the layer's store and log become what delivering exactly those new events to the handlers gives (with no error), neither is destroyed, and the layer still mirrors the parent. |
| FilteredDiscovery.FilteredServiceDiscovery.ParentRemoveService | src/discovery/FilteredServiceDiscovery.ts:42-44 | The parent's store and log change as `Registry.Remove` says, the layer's store and log become what delivering exactly those new events to the handlers gives (with no error), neither is destroyed, and the layer still mirrors the parent. |
| FilteredDiscovery.ServicesAgreeWithRegistry | src/discovery/FilteredServiceDiscovery.ts:22-25 | The filtered `services` lists exactly the values the layer's registry holds. |
| FilteredDiscovery.GetAgreesWithRegistry | src/discovery/FilteredServiceDiscovery.ts:27-34 | The filtered `get` answers exactly as the layer's registry. |
| FilteredDiscovery.AvailableAddsOnlyMatching | src/discovery/FilteredServiceDiscovery.ts:36-40 | An available service is added exactly when it satisfies the predicate; otherwise nothing changes or is emitted. |
| FilteredDiscovery.UpdateSurfaces | src/discovery/FilteredServiceDiscovery.ts:46-59 | A parent update surfaces on the layer according to whether the old and new values satisfy the predicate: both, an update; only the new one, `available`; only the old one, `unavailable` with the old value; neither, nothing. |
| FilteredDiscovery.RestrictUpdate | src/discovery/FilteredServiceDiscovery.ts:46-59 | After filing a value under an identifier, the restriction holds it there only if it satisfies the predicate. |
| FilteredDiscovery.RestrictRemove | src/discovery/FilteredServiceDiscovery.ts:42-44 | Deleting an identifier deletes it from the restriction. |
| FilteredDiscovery.DeliverOne | src/discovery/LayeredServiceDiscovery.ts:36-38 | Delivering one event is handing it to its handler. |
| FilteredDiscovery.MirrorAfterParentUpsert | src/discovery/FilteredServiceDiscovery.ts:36-59 | After a parent upsert and the delivery of its events, the layer mirrors the parent and no handler throws. |
| FilteredDiscovery.MirrorAfterParentRemove | src/discovery/FilteredServiceDiscovery.ts:42-44 | After a parent removal and the delivery of its event, the layer mirrors the parent and no handler throws. |
| FilteredDiscovery.RestrictToSnoc | src/discovery/LayeredServiceDiscovery.ts:44-46 | Listing one more key adds its entry to the restriction when the entry satisfies the predicate. |
| FilteredDiscovery.ReplayStep | src/discovery/LayeredServiceDiscovery.ts:44-46 | Replaying the parent service at position k extends the mirrored prefix of the parent by one. |
| FilteredDiscovery.ReplayFrom | src/discovery/LayeredServiceDiscovery.ts:44-46 | Replaying the parent from position k, onto a registry that mirrors the first k positions, completes the mirror without a throw. |
| FilteredDiscovery.PrefixComplete | src/discovery/LayeredServiceDiscovery.ts:44-46 | Mirroring every position of the parent's order is mirroring the parent. |
| FilteredDiscovery.ReplayMirrors | src/discovery/LayeredServiceDiscovery.ts:44-46 | Replaying the whole parent onto an empty registry mirrors the parent without a throw. |
| LayeredDiscovery.LiveCount | src/discovery/LayeredServiceDiscovery.ts:93-101 | The number of live discoveries is at most the chain's length. |
| LayeredDiscovery.LiveCountDrop | src/discovery/LayeredServiceDiscovery.ts:93-101 | Destroying one live discovery leaves one fewer alive. |
| LayeredDiscovery.LiveCountMonotone | src/discovery/LayeredServiceDiscovery.ts:93-101 | Destroying discoveries never brings one back to life. |
| LayeredDiscovery.RunStart | src/discovery/LayeredServiceDiscovery.ts:93-97 | The climb of `destroy` stops at the topmost live discovery directly above: the first discovery, or one whose parent is destroyed. |
| LayeredDiscovery.RunEnd | src/discovery/AbstractServiceDiscovery.ts:133-140 | The cascade of destroy events stops at the first destroyed discovery below, or at the end of the chain. |
| LayeredDiscovery.DestroyRange | src/discovery/AbstractServiceDiscovery.ts:133-140 | The flags afterwards: destroyed exactly where they were before or inside the range. |
| LayeredDiscovery.Range | src/discovery/LayeredServiceDiscovery.ts:93-101 | The positions of a range, one per position. |
| LayeredDiscovery.RangeInOrder | src/discovery/LayeredServiceDiscovery.ts:93-101 | The positions come top down: a parent's before its layer's. |
| LayeredDiscovery.RunEndAfter | src/discovery/LayeredServiceDiscovery.ts:78-88 | Destroying a discovery does not move where a cascade from below it stops. |
| LayeredDiscovery.DestroyRangeStep | src/discovery/AbstractServiceDiscovery.ts:133-140 | Destroying one discovery and then the run below it is destroying the run from that discovery. |
| LayeredDiscovery.ParentRun | src/discovery/LayeredServiceDiscovery.ts:93-101 | From a live layer, the climb and the cascade are its parent's when the parent is alive. When the parent is destroyed, the climb stops at the layer. |
| LayeredDiscovery.DestroyReachesRoot | src/discovery/LayeredServiceDiscovery.ts:93-101 | When every ancestor is alive, `destroy` climbs to the first discovery of the chain. |
| LayeredDiscovery.DestroyTopDown | src/discovery/LayeredServiceDiscovery.ts:93-101 | After `destroy` on a layer whose ancestors are all alive, every ancestor is destroyed, and the destroy events are emitted top down. |
| LayeredDiscovery.LayerChain.constructor | src/discovery/BasicServiceDiscovery.ts:17-21 | A chain of one live plain discovery that has emitted nothing. |
| LayeredDiscovery.LayerChain.AddLayer | src/discovery/LayeredServiceDiscovery.ts:26-47 | A new layer is alive and subscribed to its parent, whether or not the parent is destroyed. |
| LayeredDiscovery.LayerChain.BaseDestroy | src/discovery/AbstractServiceDiscovery.ts:133-140 | The base `destroy` of a destroyed discovery does nothing. Otherwise it destroys the discovery and the run of live subscribed layers below it, emitting their destroy events top down. |
| LayeredDiscovery.LayerChain.Release | src/discovery/LayeredServiceDiscovery.ts:78-88 | `release` of a destroyed layer does nothing. Otherwise it unsubscribes the layer and destroys it and the live run below it. The parent and everything above are untouched. |
| LayeredDiscovery.LayerChain.LayerDestroy | src/discovery/LayeredServiceDiscovery.ts:93-101 | `destroy` of a live layer destroys the live discoveries directly above it (parent first) and the live ones directly below, emitting their destroy events top down. A destroyed layer does nothing. |
| ExpiringDiscovery.CheckOptions | src/discovery/expiring-service-discovery.ts:68-75 | The options are accepted exactly when given with a positive `maxStaleTime`. Missing options give their own message. |
| ExpiringDiscovery.Create | src/discovery/expiring-service-discovery.ts:68-83 | The constructor throws exactly the check's error. Otherwise it gives an empty, valid discovery with the given `maxStaleTime`. |
| ExpiringDiscovery.TimerNode.constructor | src/discovery/expiring-service-discovery.ts:23-29 | A node is its own neighbour both ways and expires `maxStaleTime` after `now`. |
| ExpiringDiscovery.TimerNode.UpdateExpiration | src/discovery/expiring-service-discovery.ts:31-33 | The node now expires `maxStaleTime` after `now`. |
| ExpiringDiscovery.TimerNode.Remove | src/discovery/expiring-service-discovery.ts:35-39 | Unlinking a node leaves the ring linked without it, and the node alone. |
| ExpiringDiscovery.TimerNode.AppendToTail | src/discovery/expiring-service-discovery.ts:41-47 | Appending a node before the head leaves the ring linked with the node last. |
| ExpiringDiscovery.TimerNode.MoveToTail | src/discovery/expiring-service-discovery.ts:49-52 | Moving a node to the tail leaves the ring linked with the node taken from its place and put last. |
| ExpiringDiscovery.IdsOf | src/discovery/expiring-service-discovery.ts:150-157 | One identifier per timer. |
| ExpiringDiscovery.IdsOfAt | src/discovery/expiring-service-discovery.ts:150-157 | The identifier at a position is that timer's. |
| ExpiringDiscovery.TimelineIds | src/discovery/expiring-service-discovery.ts:85-120 | The identifiers with a timer are exactly the tracked keys. |
| ExpiringDiscovery.TimelineOrdered | src/discovery/expiring-service-discovery.ts:85-101 | Expirations rise along the ring, all within the timeline's bounds, and no identifier has two timers. |
| ExpiringDiscovery.TimelineLater | src/discovery/expiring-service-discovery.ts:85-101 | A timeline stays valid under a later upper bound. |
| ExpiringDiscovery.UnlinkAbsent | src/discovery/expiring-service-discovery.ts:103-120 | Unlinking an identifier without a timer changes nothing. |
| ExpiringDiscovery.UnlinkKeeps | src/discovery/expiring-service-discovery.ts:103-120 | Unlinking a timer keeps the timeline valid for the remaining keys. |
| ExpiringDiscovery.AppendKeeps | src/discovery/expiring-service-discovery.ts:85-101 | Appending a timer for a new key, expiring no earlier than any other, keeps the timeline valid. |
| ExpiringDiscovery.SweepUnlink | src/discovery/expiring-service-discovery.ts:150-157 | Removing the first timer of the ring unlinks exactly that timer. |
| ExpiringDiscovery.Evicted | src/discovery/expiring-service-discovery.ts:150-157 | The corrected sweep evicts at most every timer. |
| ExpiringDiscovery.EvictedGoesOn | src/discovery/expiring-service-discovery.ts:150-157 | The corrected sweep goes past a position exactly when that timer has expired. |
| ExpiringDiscovery.EvictedStopsAt | src/discovery/expiring-service-discovery.ts:150-157 | The corrected sweep stops at or before the first timer that has not expired. |
| ExpiringDiscovery.EvictedExactlyExpired | src/discovery/expiring-service-discovery.ts:150-157 | On a valid timeline, the corrected sweep evicts exactly the timers that have expired. |
| ExpiringDiscovery.EvictedAsWritten | src/discovery/expiring-service-discovery.ts:150-157 | The sweep as written evicts at most every timer. |
| ExpiringDiscovery.EvictedAsWrittenAllOrNothing | src/discovery/expiring-service-discovery.ts:152 | The sweep as written evicts every timer when the sentinel's expiration has passed, and none otherwise. |
| ExpiringDiscovery.AsWrittenEvictsUnexpired | src/discovery/expiring-service-discovery.ts:152 | Once the sentinel's expiration has passed, the sweep as written evicts a timer that has not expired, so it evicts more than the corrected sweep. |
| ExpiringDiscovery.SweepCounterexample | src/discovery/expiring-service-discovery.ts:150-157 | A concrete input: two services, only one of them expired. The sweep as written evicts both; the corrected sweep evicts one. |
| ExpiringDiscovery.Reschedule | src/discovery/expiring-service-discovery.ts:125-148 | With no timers, or with the earliest expiration already scheduled, nothing changes. Otherwise the earliest expiration is scheduled after a delay that is never negative. |
| ExpiringDiscovery.ExpiringServiceDiscovery.constructor | src/discovery/expiring-service-discovery.ts:77-83 | A new discovery has no services, no timers and no expirer scheduled. Its sentinel is created at `now`. |
| ExpiringDiscovery.ExpiringServiceDiscovery.Destroy | src/discovery/expiring-service-discovery.ts:159-166 | The expiration timer is cleared, the scheduled expiration becomes 0, and the registry is destroyed once. |
| ExpiringDiscovery.ExpiringServiceDiscovery.RescheduleExpirer | src/discovery/expiring-service-discovery.ts:125-148 | The scheduled expiration and the timer change as `Reschedule` says for the earliest timer. |
| ExpiringDiscovery.ExpiringServiceDiscovery.UpdateService | src/discovery/expiring-service-discovery.ts:85-101 | A refused service changes nothing. Otherwise the registry changes as `Registry.Upsert` says, the service's timer moves to the tail and expires `maxStaleTime` after `now`, and the expirer is rescheduled. |
| ExpiringDiscovery.ExpiringServiceDiscovery.RestartTimer | src/discovery/expiring-service-discovery.ts:88-98 | The service's timer is unlinked if it had one, appended at the tail expiring `maxStaleTime` after `now`, and the expirer rescheduled. |
| ExpiringDiscovery.ExpiringServiceDiscovery.RemoveService | src/discovery/expiring-service-discovery.ts:103-120 | The registry changes as `Registry.Remove` says. The removed service's timer is unlinked, and the expirer is rescheduled unless told not to be. |
| ExpiringDiscovery.ExpiringServiceDiscovery.ForgetTimer | src/discovery/expiring-service-discovery.ts:108-116 | The timer of a removed identifier is unlinked, and the expirer is rescheduled unless told not to be. |
| ExpiringDiscovery.ExpiringServiceDiscovery.EvictFirst | src/discovery/expiring-service-discovery.ts:152-154 | One turn of the sweep removes the first timed service and advances the sweep by one. |
| ExpiringDiscovery.ExpiringServiceDiscovery.RemoveExpiredNodes | src/discovery/expiring-service-discovery.ts:150-157 | Corrected sweep: exactly the leading expired timers are evicted, with their services removed as `Registry.RemoveAbsent` says. No timer left has expired, and the expirer is rescheduled. |
| ExpiringDiscovery.ExpiringServiceDiscovery.SweepExpired | src/discovery/expiring-service-discovery.ts:151-154 | The loop of the corrected sweep evicts exactly the leading expired timers, and leaves none that has expired. |
| ExpiringDiscovery.ExpiringServiceDiscovery.SweepEnds | src/discovery/expiring-service-discovery.ts:152 | When the corrected loop stops, it has evicted exactly the expired timers. |
| ExpiringDiscovery.ExpiringServiceDiscovery.SweepStep | src/discovery/expiring-service-discovery.ts:153 | One more removal extends the sweep's batch of removals by one. |
| ExpiringDiscovery.ExpiringServiceDiscovery.NoneExpired | src/discovery/expiring-service-discovery.ts:152 | If the first timer has not expired, none has. |
| ExpiringDiscovery.ExpiringServiceDiscovery.RemoveExpiredNodesAsWritten | src/discovery/expiring-service-discovery.ts:150-157 | The sweep as written evicts the number of timers `EvictedAsWritten` gives. Once the clock has reached the time of the latest update, that is every timer. |
| ExpiringDiscovery.ExpiringServiceDiscovery.SweepAsWritten | src/discovery/expiring-service-discovery.ts:151-154 | The loop as written evicts `EvictedAsWritten` timers: all of them once the clock has reached the time of the latest update. |
| TimedDiscovery.ResolveMaxStaleTime | src/discovery/timed-discovery.ts:16-30 | A given `maxStaleTime` is taken as it is. Otherwise it is three positive search intervals. Otherwise it throws with the message the source gives. |
| TimedDiscovery.ResolveSearchTime | src/discovery/timed-discovery.ts:32-50 | A given `searchTime` must be positive and is taken as it is. Otherwise it is a third of a positive `maxStaleTime`, but at least 100. Otherwise it throws with the message the source gives. |
| TimedDiscovery.Construct | src/discovery/timed-discovery.ts:55-64 | Missing options throw. An accepted configuration has a positive stale time and a positive search interval. |
| TimedDiscovery.ConstructAccepts | src/discovery/timed-discovery.ts:55-64 | The constructor accepts exactly the options that give at least one field, with every given field positive. |
| TimedDiscovery.NonPositiveStaleTimeRefusedDownstream | src/discovery/timed-discovery.ts:16-19 | A given non-positive `maxStaleTime` passes its own resolution and is refused by the expiring discovery's check, with that check's message. |
| TimedDiscovery.DerivedTimings | src/discovery/timed-discovery.ts:26 | A derived stale time is three search intervals. A derived search interval is at least 100, and fits three times in the stale time unless the floor applies. |
| HostPort.TrimStart | src/types/host-and-port.ts:29 | Drops exactly the leading white space. |
| HostPort.TrimEnd | src/types/host-and-port.ts:29 | Drops exactly the trailing white space. |
| HostPort.Trim | src/types/host-and-port.ts:29 | The result has no white space at either end. |
| HostPort.TrimIsCut | src/types/host-and-port.ts:29 | What `trim` keeps is a contiguous slice of the input, and everything cut off before and after it is white space. |
| HostPort.TrimNoop | src/types/host-and-port.ts:29 | Trimming a string without surrounding white space leaves it as it is. |
| HostPort.TrimIdempotent | src/types/host-and-port.ts:29 | Trimming twice is trimming once. |
| HostPort.LastIndexOf | src/types/host-and-port.ts:33 | The last position of the character, or -1 exactly when it is absent. |
| HostPort.IndexOf | src/types/host-and-port.ts:61 | The first position of the character, or -1 exactly when it is absent. |
| HostPort.FromStringTrims | src/types/host-and-port.ts:28-29 | Surrounding white space never changes the parse. |
| HostPort.BracketWithoutClose | src/types/host-and-port.ts:31-37 | A bracketed input without a closing bracket is rejected. |
| HostPort.ClosingBracket | src/types/host-and-port.ts:33-39 | In `[a]rest`, with no `]` in `rest`, the last `]` closes `a`. |
| HostPort.BracketNotIPv6 | src/types/host-and-port.ts:39-42 | A bracketed body that is not an IPv6 address is rejected. |
| HostPort.BracketedForms | src/types/host-and-port.ts:48-58 | `[addr]` parses with port 0 and `[addr]:p` with the port parsed from `p`. Anything else after the bracket is rejected. |
| HostPort.ManyColons | src/types/host-and-port.ts:60-70 | Unbracketed input with two colons or more is a bare IPv6 address with port 0, or is rejected. |
| HostPort.SoleColon | src/types/host-and-port.ts:60-61 | In `h:p` with no other colon, the first and last colon are the one after `h`. |
| HostPort.OneColon | src/types/host-and-port.ts:72-80 | With one colon, the host is the text before it and the port is parsed from the text after. |
| HostPort.NoColon | src/types/host-and-port.ts:72-80 | With no colon, the whole input is the host and the port is 0. |
| HostPort.DefaultPortHasPort | src/types/host-and-port.ts:48-80 | A bracketed IPv6 address alone, and a host without a colon, parse to a value whose port passes `hasPort` (src/types/host-and-port.ts:19-21), whatever the port parser answers. |
| HostPort.Compare | src/types/host-and-port.ts:84-94 | `compare` answers -1, 0 or 1. |
| HostPort.StrLessTotal | src/types/host-and-port.ts:85-91 | JavaScript `<` on strings is irreflexive and asymmetric, and orders any two different strings one way or the other. |
| HostPort.CompareAntisymmetric | src/types/host-and-port.ts:84-94 | With numeric ports, swapping the arguments negates `compare`, and it answers 0 exactly on equal values. |
| HostPort.CompareNaN | src/types/host-and-port.ts:93 | A NaN port compares as greater than any value with the same host, itself included. |
| HostPort.BracketedAddressExample | src/types/host-and-port.ts:48-49 | `[2001:db8::1]` parses to that address with port 0. |
| HostPort.BracketedWithPortExample | src/types/host-and-port.ts:50-54 | `[2001:db8::1]:80` parses to that address with port 80. |
| HostPort.BracketedNotIPv6Example | src/types/host-and-port.ts:40-42 | `[2001]:80` is rejected. |
| HostPort.UnclosedBracketExample | src/types/host-and-port.ts:34-37 | `[2001:db8::1` is rejected. |
| HostPort.BareIPv6Example | src/types/host-and-port.ts:63-69 | `2001:db8::1` parses to itself with port 0. |
| HostPort.BareInvalidIPv6Example | src/types/host-and-port.ts:65-67 | `2001:db8:NOPE:1` is rejected. |
| HostPort.IPv4Example | src/types/host-and-port.ts:72-80 | `192.0.0.1` parses to itself with port 0. |
| HostPort.IPv4WithPortExample | src/types/host-and-port.ts:72-80 | `192.0.0.1:80` parses to that host with port 80. |
| HostPort.IPv4DoubleColonExample | src/types/host-and-port.ts:63-67 | `192.0.0.1::80` is rejected. |
| HostPort.HostNameExample | src/types/host-and-port.ts:72-80 | `example.com` parses to itself with port 0. |
| HostPort.HostNameWithPortExample | src/types/host-and-port.ts:72-80 | `example.com:80` parses to that host with port 80. |
| LegacyBasic.AvailableData | lib/basic.js:25-29 | Only the data of available registrations is listed, at most one per key. |
| LegacyBasic.Add | lib/basic.js:44-73 | An empty identifier throws. Otherwise the identifier is tracked, available and seen at `now`, and keeps its first-seen data. Other registrations are untouched, and a well-formed store stays well formed. |
| LegacyBasic.Remove | lib/basic.js:80-92 | The identifier's registration is deleted, if there was one. An unknown identifier is a no-op: the registrations and their order are unchanged and nothing is emitted. |
| LegacyBasic.AddAll | lib/basic.js:101-106 | The first loop of `setServices` finishes without a throw exactly when every input service has an identifier. |
| LegacyBasic.AddAllCons | lib/basic.js:101-106 | The first loop, unfolded once. |
| LegacyBasic.RemoveAbsent | lib/basic.js:109-113 | The second loop of `setServices` never throws and keeps the store well formed. |
| LegacyBasic.FirstWithId | lib/basic.js:49-61 | The first input service with an identifier: present exactly when some input service has it. |
| LegacyBasic.ServicesListsAll | lib/basic.js:25-29 | When every registration is available, `services` lists the data of every key in order. |
| LegacyBasic.AddNew | lib/basic.js:49-72 | A first sighting appends the service to `services` and emits `available` once. |
| LegacyBasic.AddKnown | lib/basic.js:63-72 | Seeing a tracked identifier again emits nothing and keeps the first-seen data, so `services` is unchanged. |
| LegacyBasic.AvailableDataWithout | lib/basic.js:80-92 | Dropping a key drops its data from `services` and keeps the rest in order. |
| LegacyBasic.RemoveKnown | lib/basic.js:80-92 | Removing a tracked identifier emits `unavailable` with its data and keeps the rest of `services` in order. |
| LegacyBasic.AddAllKeys | lib/basic.js:101-106 | After the first loop, the tracked keys are the old keys plus the input identifiers. |
| LegacyBasic.AddAllKeepsData | lib/basic.js:101-106 | The first loop never changes the data of an identifier already tracked. |
| LegacyBasic.AddAllFirst | lib/basic.js:101-106 | After the first loop, an identifier not tracked before holds the FIRST input service with it. |
| LegacyBasic.RemoveAbsentContents | lib/basic.js:109-113 | After the second loop, exactly the listed keys that are not kept are gone. |
| LegacyBasic.ReconcileContents | lib/basic.js:99-114 | `setServices` over services that all have identifiers tracks exactly the input identifiers. A known identifier keeps its first-seen data; a new one holds its first input service. |
| LegacyBasic.LegacyBasicDiscovery.constructor | lib/basic.js:14-20 | A new discovery is stopped and has no registrations. |
| LegacyBasic.LegacyBasicDiscovery.AvailableServices | lib/basic.js:25-29 | `services` lists the data of every tracked key, in insertion order. |
| LegacyBasic.LegacyBasicDiscovery.Start | lib/basic.js:31-33 | `start` makes the discovery active. |
| LegacyBasic.LegacyBasicDiscovery.Stop | lib/basic.js:35-37 | `stop` makes the discovery inactive. |
| LegacyBasic.LegacyBasicDiscovery.AddService | lib/basic.js:44-73 | The fields change and the error is raised exactly as `Add` says. |
| LegacyBasic.LegacyBasicDiscovery.RemoveService | lib/basic.js:80-92 | The fields change exactly as `Remove` says, for an identifier or a service's `id`. |
| LegacyBasic.LegacyBasicDiscovery.SetServices | lib/basic.js:99-114 | The new store, the events and any throw are those of `Reconcile`. |
| LegacyBasic.LegacyBasicDiscovery.AddEach | lib/basic.js:100-106 | The first loop gives the store, events and throw of `AddAll`. Without a throw, the identifiers it collected are exactly the input identifiers. |
| LegacyBasic.LegacyBasicDiscovery.AddNext | lib/basic.js:102-105 | One turn of the first loop keeps the rest on course to `AddAll`'s result, or ends at its throw. |
| LegacyBasic.LegacyBasicDiscovery.RemoveAllExcept | lib/basic.js:109-113 | The second loop gives the store and events of `RemoveAbsent` over the keys tracked when it started. |
| LegacyFiltered.ForwardAll | lib/filtered.js:68-78 | The view re-emits exactly the parent's availability events whose service passes the filter, never more events than it was given. |
| LegacyFiltered.AddForwardsViewChange | lib/filtered.js:34-37 | What the view emits for a parent `addService` is exactly the change of its `services`: a new passing service is appended and announced; anything else changes neither. |
| LegacyFiltered.ViewAppend | lib/filtered.js:34-37 | A first sighting in the parent appends the service to the view when it passes the filter. |
| LegacyFiltered.RemoveForwardsViewChange | lib/filtered.js:74-78 | What the view emits for a parent `removeService` is exactly the change of its `services`. The identifier's service leaves the view, and is announced unavailable exactly when it was in it. |
| LegacyFiltered.ViewWithout | lib/filtered.js:34-37 | Removing an identifier from the parent removes exactly its service from the view, keeping the order. |
| LegacyFiltered.LegacyFilteredDiscovery.constructor | lib/filtered.js:15-29 | The handlers are subscribed exactly when the parent is already active. |
| LegacyFiltered.LegacyFilteredDiscovery.AvailableServices | lib/filtered.js:34-37 | `services` lists exactly the parent's services that pass the filter, in the parent's order. |
| LegacyFiltered.LegacyFilteredDiscovery.HandleAvailable | lib/filtered.js:68-72 | A passing service is re-emitted as `available`; any other emits nothing. |
| LegacyFiltered.LegacyFilteredDiscovery.HandleUnavailable | lib/filtered.js:74-78 | A passing service is re-emitted as `unavailable`; any other emits nothing. |
| LegacyFiltered.LegacyFilteredDiscovery.Start | lib/filtered.js:49-57 | Afterwards the view is active. The handlers are subscribed only if the parent was not already active. |
| LegacyFiltered.LegacyFilteredDiscovery.Stop | lib/filtered.js:62-66 | Afterwards the view is inactive and its handlers unsubscribed. |
| LegacyFiltered.LegacyFilteredDiscovery.ParentAddService | lib/filtered.js:68-72 | The parent changes as `Add` says, and a subscribed view re-emits what passes of the parent's events. |
| LegacyFiltered.LegacyFilteredDiscovery.ParentRemoveService | lib/filtered.js:74-78 | The parent changes as `Remove` says, and a subscribed view re-emits what passes of the parent's events. |
| LegacyMapped.MapUsable | lib/mapped.js:32-37 | Only mapped services with an identifier are kept, each the mapping of some parent service. |
| LegacyMapped.MapUsableStep | lib/mapped.js:32-37 | The usable mappings from a position are that position's, if usable, then the rest. |
| LegacyMapped.ReplayKeepsFirst | lib/mapped.js:32-37 | Replaying the parent into the view leaves, under each identifier, the FIRST usable mapped service with it. |
| LegacyMapped.SecondMappingAbsorbed | lib/mapped.js:69-74 | Two parent services mapped to the same identifier: the second is absorbed silently and the first mapped service stays. |
| LegacyMapped.Replay | lib/mapped.js:32-37 | The replay loop adds the usable mapped services in order, exactly as `AddAll` says. |
| LegacyMapped.ReplayNext | lib/mapped.js:33-36 | One turn of the replay keeps the rest on course to `AddAll`'s result. |
| LegacyMapped.CreateAsWritten | lib/mapped.js:18-41 | As written, construction over an active parent throws. Over an inactive parent it gives an empty, unsubscribed view. |
| LegacyMapped.LegacyMappedDiscovery.constructor | lib/mapped.js:18-41 | Construction as intended: over an active parent, the handlers are subscribed, the parent's services are replayed through the mapper and the view is active. Over an inactive parent, the view starts empty and stopped. |
| LegacyMapped.LegacyMappedDiscovery.HandleAvailable | lib/mapped.js:69-74 | A usable mapped service is added as `Add` says; anything else changes nothing. |
| LegacyMapped.LegacyMappedDiscovery.HandleUnavailable | lib/mapped.js:76-82 | The service is mapped again, and a usable result's identifier is removed as `Remove` says. |
| LegacyMapped.LegacyMappedDiscovery.Start | lib/mapped.js:46-56 | Nothing changes when the parent is already active. Otherwise the handlers are subscribed and the parent and the view become active. |
| LegacyMapped.LegacyMappedDiscovery.Stop | lib/mapped.js:61-67 | The parent and the view become inactive and the handlers are unsubscribed. |

## Left out

- Timers, `setTimeout`, `setInterval` and `Date.now`. The clock is the parameter `now`. The expiration timer is the pair (scheduled expiration, delay) and its firing is `RemoveExpiredNodes`. The search interval of the timed discovery is only the resolved number.
- ExpiringDiscovery.RemoveExpiredNodes: the reset the timer callback performs after the sweep (`expirationTimer = undefined`, `nextExpiration = 0`, src/discovery/expiring-service-discovery.ts:141-147) is not part of the sweep method.
- ExpiringDiscovery.ExpiringServiceDiscovery: the class does not hold `timerHead`, `timerMap` or any `TimerNode` (src/discovery/expiring-service-discovery.ts:62-63, 81-82, 88-95, 108-111). It holds the ring's contents as the sequence of (identifier, expiration) values after the sentinel, and the map's lookup is the search of an identifier in that sequence. So the model does not prove that the class's `next`/`previous` links stay a ring, that the map and the ring hold the same nodes, or that a removed node is not reachable. The node operations `remove`, `appendToTail` and `moveToTail` are proved on their own (`ExpiringDiscovery.TimerNode.Remove`, `.AppendToTail`, `.MoveToTail`): each keeps a ring linked. The reason is verification cost. Carrying the linked ring (linked, no node twice, each node holding its timer, the map filing it) in the class invariant pushes every method of the class, even `destroy`, past the solver resource bound this project verifies under, because the invariant is re-proved conjunct by conjunct after every change of the heap.
- ExpiringDiscovery.ExpiringServiceDiscovery.UpdateService: requires a clock that never goes backwards (`now` at least the latest time given before). `Date.now()` can go backwards when the system clock is set back. The source then appends a node whose expiration is earlier than the tail's, the ring is no longer ordered by expiration, and the sweep can stop before an expired node. The model does not capture that case.
- TimedDiscovery.Construct: timed-discovery.ts extends `ExpiringDiscovery` from `./expiring-discovery`. That module is not part of this model. Its constructor's options check is taken to be the one of src/discovery/expiring-service-discovery.ts:69-75 (`ExpiringDiscovery.CheckOptions`), which has the same options and messages. `TimedDiscovery.ConstructAccepts` and `TimedDiscovery.NonPositiveStaleTimeRefusedDownstream` rest on that identification.
- HostPort.StrLess: JavaScript's `<` on strings compares UTF-16 code units. The model compares characters, which are code points. The two orders agree except between a character in U+E000..U+FFFF and one above U+FFFF: JavaScript puts the second first, because its first code unit is a surrogate (U+D800..U+DFFF). `HostPort.Compare` inherits that difference for such host names.
- Asynchronous interleaving: `destroy` and `release` return promises. Each call is modelled as running to completion before the next.
- LayeredDiscovery.LayerChain: a chain of layers, each over the one before it. A tree of several layers over one parent, and the handlers' effect on the layers' services, are not modelled here; the filtering layer's handlers are modelled in `FilteredDiscovery`.
- NaN and infinite times and option values. Times are real numbers; only the port of `HostAndPort` keeps NaN, because `parseInt` produces it.
- LegacyBasic.LegacyBasicDiscovery.AddService: takes a service. A `null` or `undefined` argument, which makes the source throw a TypeError, is not modelled.
- LegacyBasic.LegacyBasicDiscovery.RemoveService: requires an argument. A `null` or `undefined` argument, which makes the source throw a TypeError, is not modelled.
- The `lastSeen` time of legacy registrations is recorded but never read.
- Subscribing the same legacy handler twice, and event emitters' listener lists, are not modelled. A subscription is one flag.
- The parent of the legacy views is a legacy registry. Stacking legacy views on each other is not modelled.
- The IPv6 regular expression (`ip-regex`) and `parseInt` are parameters. No property of either is assumed except where a lemma names the answers it needs.
- The debug output (`debug`) is left out. The event library (`atvik`) is modelled by the event log.
- The mapped and merged TypeScript views, `mapper.ts` and the layered `layered-discovery.ts` are not part of this model. `map` and `and` are shown by the arguments they pass to those views.
- Floating point: JavaScript numbers are real numbers here, so the division by 3 in `resolveSearchTime` is exact.
- Service payloads are strings. Deep equality of arbitrary objects is datatype equality.

## Findings

| source | as written | input that shows it | evidently intended | confidence | as-written member | corrected member |
|---|---|---|---|---|---|---|
| src/discovery/expiring-service-discovery.ts:152 | The sweep tests `timerHead.expiration`, the sentinel's expiration, which is fixed at construction time, instead of the first timer's. | Created at time 0 with `maxStaleTime` 1000. Service `a` is updated at 0 and `b` at 900. The sweep at 1000 removes both, though `b` expires only at 1900. | Test `timerHead.next.expiration <= now`, removing only the expired services. | not executed | ExpiringDiscovery.ExpiringServiceDiscovery.RemoveExpiredNodesAsWritten, ExpiringDiscovery.SweepCounterexample | ExpiringDiscovery.ExpiringServiceDiscovery.RemoveExpiredNodes |
| lib/mapped.js:32 | The constructor replays `parent._services`, where `parent` is the module's symbol, not the parent argument. The iteration of `undefined` throws a TypeError. | Any parent that is already active when the mapped view is constructed. | Replay `parent_.services` through the mapper. | not executed | LegacyMapped.CreateAsWritten | LegacyMapped.LegacyMappedDiscovery.constructor |
| src/discovery/FilteredServiceDiscovery.ts:17-19 | The base constructor replays the parent's services through `handleParentServiceAvailable` before the subclass stores its predicate. Calling the undefined predicate throws. | A filter over a parent that holds one service. | Store the predicate before replaying, so the layer starts with the parent's matching services. | not executed | FilteredDiscovery.ConstructAsWrittenThrows, FilteredDiscovery.UnsetPredicateThrows | FilteredDiscovery.FilteredServiceDiscovery.constructor |

=== FILE: abstract_discovery.dfy ===
/**
 * The queries and combinators every discovery inherits from the abstract
 * base: `find`, `findAll`, the normalisation of the argument of `map`, and
 * `and`. The queries read a `services` snapshot; the combinators are shown by
 * the description of the view they construct.
 */
module AbstractDiscovery {
  import opened Common

  /** `find`: the first service of the snapshot that satisfies the predicate. */
  function Find(services: seq<Service>, p: Service -> bool): (r: Option<Service>)
    ensures r.None? <==> forall s :: s in services ==> !p(s)
    ensures r.Some? ==> p(r.value)
    ensures r.Some? ==>
      exists i :: 0 <= i < |services| && services[i] == r.value && (forall j :: 0 <= j < i ==> !p(services[j]))
  {
    if services == [] then None
    else if p(services[0]) then Some(services[0])
    else
      var r := Find(services[1..], p);
      assert r.Some? ==> forall i :: 0 <= i < |services| - 1 ==> services[1..][i] == services[i + 1];
      r
  }

  /** `findAll`: every service of the snapshot that satisfies the predicate, in snapshot order. */
  function FindAll(services: seq<Service>, p: Service -> bool): (r: seq<Service>)
    ensures forall i :: 0 <= i < |r| ==> p(r[i]) && r[i] in services
    ensures forall s :: s in services && p(s) ==> s in r
  {
    Filter(p, services)
  }

  /** `find` returns exactly the first element of what `findAll` returns. */
  lemma {:induction false} FindIsFirstOfFindAll(services: seq<Service>, p: Service -> bool)
    ensures Find(services, p) == if FindAll(services, p) == [] then None else Some(FindAll(services, p)[0])
  {
    if services != [] && !p(services[0]) {
      FindIsFirstOfFindAll(services[1..], p);
      assert FindAll(services, p) == FindAll(services[1..], p);
    }
  }

  /** `xs` is `ys` with some elements left out: each element of `ys` is either kept, in order, or dropped. */
  predicate Subsequence(xs: seq<Service>, ys: seq<Service>)
    decreases |ys|
  {
    if xs == [] then true
    else if ys == [] then false
    else (xs[0] == ys[0] && Subsequence(xs[1..], ys[1..])) || Subsequence(xs, ys[1..])
  }

  /** `findAll` keeps the snapshot's order: it is the snapshot with the non-matching services left out. */
  lemma {:induction false} FindAllKeepsOrder(services: seq<Service>, p: Service -> bool)
    ensures Subsequence(FindAll(services, p), services)
  {
    if services != [] {
      FindAllKeepsOrder(services[1..], p);
      if p(services[0]) {
        assert FindAll(services, p) == [services[0]] + FindAll(services[1..], p);
      } else {
        assert FindAll(services, p) == FindAll(services[1..], p);
      }
    }
  }

  // ---------------------------------------------------------------------
  // map
  // ---------------------------------------------------------------------

  /** A mapping function: a mapped service, or none to leave the service out. */
  type Mapper = Service -> Option<Service>

  /** `update(service, previousService, previousMappedService)` of an advanced mapper. */
  type Updater = (Service, Service, Service) -> Option<Service>

  /**
   * The argument of `map`: a plain function, or an object carrying any of the
   * three members (`create` may be missing, which the type does not stop).
   */
  datatype MapperArg =
    | MapperFunction(fn: Mapper)
    | MapperObject(create: Option<Mapper>, update: Option<Updater>, destroy: Option<Service -> ()>)

  /** The `create` member the mapped view receives: a function, or a value that is not one. */
  datatype Create = Callable(fn: Mapper) | NotCallable(arg: MapperArg)

  /** The advanced mapper a mapped view is built with. */
  datatype AdvancedMapper = AdvancedMapper(create: Create, update: Option<Updater>, destroy: Option<Service -> ()>)

  /** `isAdvancedMapper`: an object whose `create` is a function. */
  predicate IsAdvancedMapper(m: MapperArg) {
    m.MapperObject? && m.create.Some?
  }

  /**
   * `map`: an advanced mapper is passed on as it is; anything else is wrapped
   * as the `create` member of a fresh mapper with no `update` and no `destroy`.
   */
  function Map(m: MapperArg): (r: AdvancedMapper)
    ensures IsAdvancedMapper(m) ==> r.create == Callable(m.create.value) && r.update == m.update && r.destroy == m.destroy
    ensures m.MapperFunction? ==> r.create == Callable(m.fn) && r.update.None? && r.destroy.None?
    ensures !IsAdvancedMapper(m) ==> r.update.None? && r.destroy.None?
  {
    match m
    case MapperObject(Some(create), update, destroy) => AdvancedMapper(Callable(create), update, destroy)
    case MapperFunction(f) => AdvancedMapper(Callable(f), None, None)
    case MapperObject(None, _, _) => AdvancedMapper(NotCallable(m), None, None)
  }

  /** Mapping with a plain function is mapping with an advanced mapper whose only member is that function. */
  lemma MapFunctionIsCreateOnly(f: Mapper)
    ensures Map(MapperFunction(f)) == Map(MapperObject(Some(f), None, None))
  {
  }

  // ---------------------------------------------------------------------
  // and
  // ---------------------------------------------------------------------

  /** What calling `and` does: return a view, or throw a value. */
  datatype AndOutcome<V> = Returned(view: seq<V>) | Threw(merged: seq<V>)

  /**
   * `and(other)`: builds the merged view of this discovery and `other` and
   * throws it instead of returning it, for every pair of discoveries.
   */
  function And<V>(self: V, other: V): (r: AndOutcome<V>)
    ensures !r.Returned?
    ensures r.merged == [self, other]
  {
    Threw([self, other])
  }
}

=== FILE: basic_discovery.dfy ===
/**
 * The registry-backed discovery (BasicServiceDiscovery) together with the
 * destroyed flag it inherits from the abstract base. Its fields are updated in
 * place; every method is proved to produce exactly the store, events and
 * result that the `Registry` functions give for the old state.
 */
module BasicDiscovery {
  import opened Common
  import Registry

  /** How many destroy events a log holds. */
  function DestroyCount(log: seq<Event>): (n: nat)
    ensures n <= |log|
    ensures n == 0 <==> Destroyed !in log
  {
    if log == [] then 0 else (if log[0] == Destroyed then 1 else 0) + DestroyCount(log[1..])
  }

  class BasicServiceDiscovery {
    /** The map from identifier to service. */
    var serviceMap: map<string, Service>
    /** The iteration order of `serviceMap`. */
    var keys: seq<string>
    /** Every event emitted so far, in emission order. */
    var log: seq<Event>
    /** The one-way destroyed flag of the abstract base. */
    var destroyed: bool

    function Snapshot(): Registry.Store
      reads this
    {
      Registry.Store(serviceMap, keys)
    }

    /**
     * The registry is well formed, and the destroy event has been emitted
     * exactly once if the discovery is destroyed and never otherwise.
     */
    ghost predicate Valid()
      reads this
    {
      && Registry.Valid(Snapshot())
      && DestroyCount(log) == if destroyed then 1 else 0
    }

    constructor ()
      ensures Valid()
      ensures Snapshot() == Registry.Empty && log == [] && !destroyed
    {
      serviceMap, keys, log, destroyed := map[], [], [], false;
    }

    /** The `services` getter: the stored values in insertion order. */
    function Services(): seq<Service>
      reads this
      requires Valid()
    {
      Registry.List(Snapshot())
    }

    /** `get(id)`: the stored value, or none. */
    function Get(id: string): Option<Service>
      reads this
    {
      Registry.Get(Snapshot(), id)
    }

    /** `updateService`: add, replace or keep a service, emitting as `Registry.Upsert` says. */
    method UpdateService(arg: Option<Service>) returns (r: Result<Option<Service>>)
      requires Valid()
      modifies this`serviceMap, this`keys, this`log
      ensures Valid() && destroyed == old(destroyed)
      ensures match Registry.Upsert(old(Snapshot()), arg)
        case Err(e) => r == Err(e) && Snapshot() == old(Snapshot()) && log == old(log)
        case Ok(step) => r == Ok(step.previous) && Snapshot() == step.store && log == old(log) + step.events
      ensures r.Err? ==> serviceMap == old(serviceMap)
      ensures r.Ok? ==> arg.Some? && serviceMap == old(serviceMap)[arg.value.id := arg.value]
    {
      if arg.None? {
        return Err("A service object is required");
      }
      var service := arg.value;
      if service.id == "" {
        return Err("Services must have an identifier");
      }
      if service.id in serviceMap {
        var registration := serviceMap[service.id];
        if registration == service {
          return Ok(None);
        }
        serviceMap := serviceMap[service.id := service];
        log := log + [Updated(service, registration)];
        assert DestroyCount(log) == DestroyCount(old(log)) by { DestroyCountAppend(old(log), [Updated(service, registration)]); }
        return Ok(Some(registration));
      } else {
        DistinctAppend(keys, service.id);
        serviceMap := serviceMap[service.id := service];
        keys := keys + [service.id];
        log := log + [Available(service)];
        assert DestroyCount(log) == DestroyCount(old(log)) by { DestroyCountAppend(old(log), [Available(service)]); }
        return Ok(None);
      }
    }

    /** `removeService`: delete a tracked identifier, emitting as `Registry.Remove` says. */
    method RemoveService(target: Target) returns (r: Option<Service>)
      requires Valid()
      modifies this`serviceMap, this`keys, this`log
      ensures Valid() && destroyed == old(destroyed)
      ensures var step := Registry.Remove(old(Snapshot()), target);
        r == step.previous && Snapshot() == step.store && log == old(log) + step.events
      ensures r.None? ==> serviceMap == old(serviceMap)
      ensures r.Some? ==> r.value.id in old(serviceMap) && serviceMap == old(serviceMap) - {r.value.id}
    {
      if target.Nothing? {
        return None;
      }
      var id := if target.ById? then target.id else target.service.id;
      if id in serviceMap {
        var registration := serviceMap[id];
        assert Registry.Remove(Snapshot(), target).store == Registry.Store(serviceMap - {id}, Without(keys, id));
        serviceMap := serviceMap - {id};
        keys := Without(keys, id);
        DestroyCountAppend(log, [Unavailable(registration)]);
        log := log + [Unavailable(registration)];
        return Some(registration);
      }
      return None;
    }

    /**
     * `setServices`: upsert each service (collecting its identifier first),
     * then remove each tracked identifier the input did not mention.
     */
    method SetServices(available: seq<Service>) returns (error: Option<string>)
      requires Valid()
      modifies this`serviceMap, this`keys, this`log
      ensures Valid() && destroyed == old(destroyed)
      ensures var b := Registry.Reconcile(old(Snapshot()), available);
        error == b.error && Snapshot() == b.store && log == old(log) + b.events
    {
      var ids;
      ids, error := UpsertEach(available);
      if error.Some? {
        return;
      }
      ghost var added := Registry.UpsertAll(old(Snapshot()), available);
      ghost var log1 := log;
      RemoveAllExcept(ids);
      ghost var removed := Registry.RemoveAbsent(added.store, added.store.order, Ids(available));
      ConcatAssoc(old(log), added.events, removed.events);
    }

    /** The first loop of `setServices`: upsert each service in turn, stopping at a throw. */
    method UpsertEach(available: seq<Service>) returns (ids: set<string>, error: Option<string>)
      requires Valid()
      modifies this`serviceMap, this`keys, this`log
      ensures Valid() && destroyed == old(destroyed)
      ensures var b := Registry.UpsertAll(old(Snapshot()), available);
        error == b.error && Snapshot() == b.store && log == old(log) + b.events
      ensures error.None? ==> ids == Ids(available)
    {
      ghost var added := Registry.UpsertAll(Snapshot(), available);
      ids := {};
      var i := 0;
      while i < |available|
        invariant 0 <= i <= |available|
        invariant Valid()
        invariant Collected(ids, available, i)
        invariant Pending(available, i, added, old(log))
      {
        ids := CollectId(ids, available, i);
        var result := UpsertNext(available, i, added, old(log));
        if result.Err? {
          return ids, Some(result.error);
        }
        i := i + 1;
      }
      AllCollected(ids, available);
      PendingDone(available, added, old(log));
      error := None;
    }

    /** With nothing left to upsert, the contents, error and events are those of `added`. */
    lemma PendingDone(available: seq<Service>, added: Registry.Batch, log0: seq<Event>)
      requires Pending(available, |available|, added, log0)
      ensures Snapshot() == added.store && added.error == None && log == log0 + added.events
    {
      assert available[|available|..] == [];
    }

    /**
     * Upserting `available[i..]` from the current contents ends with the
     * contents, error and events of `added`, given the log `log0` it started from.
     */
    ghost predicate Pending(available: seq<Service>, i: int, added: Registry.Batch, log0: seq<Event>)
      reads this
      requires 0 <= i <= |available|
    {
      var rest := Registry.UpsertAll(Snapshot(), available[i..]);
      rest.store == added.store && rest.error == added.error && log + rest.events == log0 + added.events
    }

    /** One turn of the first loop of `setServices`: upsert `available[i]`. */
    method UpsertNext(available: seq<Service>, i: int, ghost added: Registry.Batch, ghost log0: seq<Event>)
      returns (result: Result<Option<Service>>)
      requires Valid() && 0 <= i < |available| && Pending(available, i, added, log0)
      modifies this`serviceMap, this`keys, this`log
      ensures Valid() && destroyed == old(destroyed)
      ensures result.Ok? ==> Pending(available, i + 1, added, log0)
      ensures result.Err? ==>
        added.error == Some(result.error) && Snapshot() == added.store && log == log0 + added.events
    {
      assert available[i..][1..] == available[i + 1..];
      ghost var before := Snapshot();
      result := UpdateService(Some(available[i]));
      if result.Err? {
        return;
      }
      ghost var step := Registry.Upsert(before, Some(available[i])).value;
      ghost var rest := Registry.UpsertAll(Snapshot(), available[i + 1..]);
      assert Registry.UpsertAll(before, available[i..])
          == Registry.Batch(rest.store, step.events + rest.events, rest.error);
      ConcatAssoc(old(log), step.events, rest.events);
    }

    /**
     * The second loop of `setServices`: remove every tracked identifier not in
     * `keep`. Deleting the visited key while iterating a JavaScript Map visits
     * the same keys as iterating a snapshot of them, which is what this does.
     */
    method RemoveAllExcept(keep: set<string>)
      requires Valid()
      modifies this`serviceMap, this`keys, this`log
      ensures Valid() && destroyed == old(destroyed)
      ensures var b := Registry.RemoveAbsent(old(Snapshot()), old(keys), keep);
        Snapshot() == b.store && log == old(log) + b.events
    {
      ghost var removed := Registry.RemoveAbsent(Snapshot(), keys, keep);
      var tracked := keys;
      var j := 0;
      while j < |tracked|
        invariant 0 <= j <= |tracked|
        invariant Valid()
        invariant Registry.RemoveAbsent(Snapshot(), tracked[j..], keep).store == removed.store
        invariant log + Registry.RemoveAbsent(Snapshot(), tracked[j..], keep).events == old(log) + removed.events
      {
        assert tracked[j..][1..] == tracked[j + 1..];
        if tracked[j] !in keep {
          ghost var before := Snapshot();
          ghost var log2 := log;
          var _ := RemoveService(ById(tracked[j]));
          ghost var rest := Registry.RemoveAbsent(Snapshot(), tracked[j + 1..], keep);
          ghost var step := Registry.Remove(before, ById(tracked[j]));
          assert log == log2 + step.events;
          assert Registry.RemoveAbsent(before, tracked[j..], keep)
              == Registry.Batch(rest.store, step.events + rest.events, None);
          ConcatAssoc(log2, step.events, rest.events);
        } else {
          assert Registry.RemoveAbsent(Snapshot(), tracked[j..], keep)
              == Registry.RemoveAbsent(Snapshot(), tracked[j + 1..], keep);
        }
        j := j + 1;
      }
    }

    /** `destroy`: the first call sets the flag and emits the destroy event; later calls do nothing. */
    method Destroy()
      requires Valid()
      modifies this
      ensures Valid() && destroyed
      ensures Snapshot() == old(Snapshot())
      ensures log == if old(destroyed) then old(log) else old(log) + [Destroyed]
    {
      if destroyed {
        return;
      }
      destroyed := true;
      log := log + [Destroyed];
      DestroyCountAppend(old(log), [Destroyed]);
    }
  }

  lemma {:induction false} DestroyCountAppend(a: seq<Event>, b: seq<Event>)
    ensures DestroyCount(a + b) == DestroyCount(a) + DestroyCount(b)
  {
    if a != [] {
      assert (a + b)[1..] == a[1..] + b;
      DestroyCountAppend(a[1..], b);
    } else {
      assert a + b == b;
    }
  }
}

=== FILE: common.dfy ===
/**
 * Values shared by every part of the discovery model: services, the events
 * a discovery emits, the argument forms of the mutation primitives, and a
 * few sequence helpers.
 */
module Common {

  datatype Option<+T> = None | Some(value: T)

  /** A call that either returns a value or throws an error with a message. */
  datatype Result<+T> = Ok(value: T) | Err(error: string)

  /**
   * A service: an identifier plus payload. Structural (deep) equality of
   * two services is datatype equality.
   */
  datatype Service = Service(id: string, data: string)

  /**
   * What a discovery emits, in the order it emits it: `Updated` carries the
   * new value first and the previous one second.
   */
  datatype Event =
    | Available(service: Service)
    | Updated(service: Service, previous: Service)
    | Unavailable(service: Service)
    | Destroyed

  /**
   * The argument of a removal: nothing (`null`/`undefined`), an identifier
   * string, or a whole service whose `id` is used.
   */
  datatype Target = Nothing | ById(id: string) | ByService(service: Service)

  /** The elements of `xs` that satisfy `p`, in their original order. */
  function Filter(p: Service -> bool, xs: seq<Service>): (r: seq<Service>)
    ensures |r| <= |xs|
    ensures forall s :: s in r <==> s in xs && p(s)
  {
    if xs == [] then [] else (if p(xs[0]) then [xs[0]] else []) + Filter(p, xs[1..])
  }

  /** Every service of `xs` has a non-empty identifier. */
  predicate Identified(xs: seq<Service>) {
    xs == [] || (xs[0].id != "" && Identified(xs[1..]))
  }

  /** `Identified` holds exactly when no position of `xs` holds a service without an identifier. */
  lemma {:induction false} IdentifiedEverywhere(xs: seq<Service>)
    ensures Identified(xs) <==> forall i :: 0 <= i < |xs| ==> xs[i].id != ""
  {
    if xs != [] {
      IdentifiedEverywhere(xs[1..]);
      assert forall i :: 1 <= i < |xs| ==> xs[i] == xs[1..][i - 1];
    }
  }

  /** The identifiers of the services in `xs`. */
  function Ids(xs: seq<Service>): (r: set<string>)
    ensures forall i :: 0 <= i < |xs| ==> xs[i].id in r
    ensures forall id :: id in r ==> exists i :: 0 <= i < |xs| && xs[i].id == id
  {
    if xs == [] then {} else {xs[0].id} + Ids(xs[1..])
  }

  /** `ids` holds exactly the identifiers of the first `i` services of `xs`. */
  ghost predicate Collected(ids: set<string>, xs: seq<Service>, i: int)
    requires 0 <= i <= |xs|
  {
    && (forall j :: 0 <= j < i ==> xs[j].id in ids)
    && (forall id :: id in ids ==> exists j :: 0 <= j < i && xs[j].id == id)
  }

  /** One turn of a loop collecting identifiers: add that of `xs[i]`. */
  method CollectId(ids: set<string>, xs: seq<Service>, i: int) returns (r: set<string>)
    requires 0 <= i < |xs| && Collected(ids, xs, i)
    ensures Collected(r, xs, i + 1)
  {
    r := ids + {xs[i].id};
  }

  /** Having collected the identifier of every service of `xs` gives the identifiers of `xs`. */
  lemma AllCollected(ids: set<string>, xs: seq<Service>)
    requires Collected(ids, xs, |xs|)
    ensures ids == Ids(xs)
  {
  }

  /** The last service of `xs` with identifier `id`, if any. */
  function LastWithId(xs: seq<Service>, id: string): (r: Option<Service>)
    ensures r.Some? <==> id in Ids(xs)
    ensures r.Some? ==> r.value.id == id
    ensures r.Some? ==> exists i :: 0 <= i < |xs| && xs[i] == r.value && (forall j :: i < j < |xs| ==> xs[j].id != id)
  {
    if xs == [] then None
    else
      match LastWithId(xs[1..], id)
      case Some(v) => Some(v)
      case None => if xs[0].id == id then Some(xs[0]) else None
  }

  /** `xs` without any occurrence of `x`. */
  function Without(xs: seq<string>, x: string): (r: seq<string>)
    ensures forall y :: y in r <==> y in xs && y != x
    ensures |r| <= |xs|
    ensures Distinct(xs) ==> Distinct(r)
    ensures x !in xs ==> r == xs
  {
    if xs == [] then []
    else
      var rest := Without(xs[1..], x);
      var r := (if xs[0] == x then [] else [xs[0]]) + rest;
      assert Distinct(xs) ==> Distinct(r) by {
        if Distinct(xs) && xs[0] != x {
          assert r[1..] == rest;
          assert xs[0] !in rest;
        } else if Distinct(xs) {
          assert r == rest;
        }
      }
      r
  }

  /** The larger of two numbers (`Math.max`). */
  function Max(a: real, b: real): (r: real)
    ensures r >= a && r >= b && (r == a || r == b)
  {
    if a >= b then a else b
  }

  /** Filtering a concatenation filters each part. */
  lemma {:induction false} FilterConcat(p: Service -> bool, a: seq<Service>, b: seq<Service>)
    ensures Filter(p, a + b) == Filter(p, a) + Filter(p, b)
  {
    if a != [] {
      var head := if p(a[0]) then [a[0]] else [];
      assert (a + b)[0] == a[0] && (a + b)[1..] == a[1..] + b;
      FilterConcat(p, a[1..], b);
      calc {
        Filter(p, a + b);
        head + Filter(p, a[1..] + b);
        head + (Filter(p, a[1..]) + Filter(p, b));
        { ConcatAssoc(head, Filter(p, a[1..]), Filter(p, b)); }
        (head + Filter(p, a[1..])) + Filter(p, b);
      }
    } else {
      assert a + b == b;
    }
  }

  /** Filtering with two predicates in either order gives the same list. */
  lemma {:induction false} FilterCommute(p: Service -> bool, q: Service -> bool, xs: seq<Service>)
    ensures Filter(p, Filter(q, xs)) == Filter(q, Filter(p, xs))
  {
    if xs != [] {
      var x := xs[0];
      FilterCommute(p, q, xs[1..]);
      var hq := if q(x) then [x] else [];
      var hp := if p(x) then [x] else [];
      FilterConcat(p, hq, Filter(q, xs[1..]));
      FilterConcat(q, hp, Filter(p, xs[1..]));
    }
  }

  /** Filtering keeps a list whose every element passes. */
  lemma {:induction false} FilterKeepsAll(p: Service -> bool, xs: seq<Service>)
    requires forall i :: 0 <= i < |xs| ==> p(xs[i])
    ensures Filter(p, xs) == xs
  {
    if xs != [] {
      FilterKeepsAll(p, xs[1..]);
    }
  }

  /** Concatenation is associative (stated once so that callers need not re-derive it). */
  lemma ConcatAssoc<T>(a: seq<T>, b: seq<T>, c: seq<T>)
    ensures (a + b) + c == a + (b + c)
  {
  }

  /** No identifier occurs twice: the first is not among the rest, and neither is any later one. */
  predicate Distinct(xs: seq<string>) {
    xs == [] || (xs[0] !in xs[1..] && Distinct(xs[1..]))
  }

  /** Appending an identifier not yet present keeps the identifiers distinct. */
  lemma {:induction false} DistinctAppend(xs: seq<string>, x: string)
    requires Distinct(xs) && x !in xs
    ensures Distinct(xs + [x])
  {
    if xs != [] {
      assert (xs + [x])[1..] == xs[1..] + [x];
      DistinctAppend(xs[1..], x);
    }
  }
}

=== FILE: expiring_discovery.dfy ===
/**
 * The expiring discovery (ExpiringServiceDiscovery): a registry-backed
 * discovery that forgets a service `maxStaleTime` milliseconds after it was
 * last updated. Timers are kept in a circular doubly linked list of
 * `TimerNode`s behind a sentinel, ordered by expiration; the map from
 * identifier to node finds a service's timer in constant time.
 *
 * The clock is a parameter (`now`) of every operation that reads it, and the
 * firing of the expiration timer is the `RemoveExpiredNodes` method.
 */
module ExpiringDiscovery {
  import opened Common
  import Registry
  import BasicDiscovery

  /** The options object: `maxStaleTime` may be missing. */
  datatype ExpiringOptions = ExpiringOptions(maxStaleTime: Option<real>)

  /**
   * The constructor's check of its options: the error it throws, if any. A
   * missing, zero or negative `maxStaleTime` is refused.
   */
  function CheckOptions(options: Option<ExpiringOptions>): (r: Option<string>)
    ensures r.None? <==> options.Some? && options.value.maxStaleTime.Some? && options.value.maxStaleTime.value > 0.0
    ensures options.None? ==> r == Some("options must be specified")
  {
    if options.None? then Some("options must be specified")
    else if options.value.maxStaleTime.None? || options.value.maxStaleTime.value <= 0.0 then
      Some("maxStaleTime option is required and needs to be a positive number")
    else None
  }

  // ---------------------------------------------------------------------
  // Timer nodes
  // ---------------------------------------------------------------------

  class TimerNode {
    /** When the service this node times expires. */
    var expiration: real
    /** The identifier of the service; the empty string for the sentinel. */
    const id: string
    var next: TimerNode?
    var previous: TimerNode?

    /** A node on its own, its own neighbour both ways, expiring `maxStaleTime` after `now`. */
    constructor (id: string, now: real, maxStaleTime: real)
      ensures this.id == id && expiration == now + maxStaleTime
      ensures next == this && previous == this
    {
      this.id := id;
      expiration := now + maxStaleTime;
      new;
      previous := this;
      next := this;
    }

    /** `updateExpiration`: the node now expires `maxStaleTime` after `now`. */
    method UpdateExpiration(now: real, maxStaleTime: real)
      modifies this`expiration
      ensures expiration == now + maxStaleTime
    {
      expiration := now + maxStaleTime;
    }

    /**
     * `remove`: unlinks the node at position `k` of the ring `nodes`, which
     * stays a ring without it; the node is left on its own.
     */
    method Remove(ghost nodes: seq<TimerNode>, ghost k: int)
      requires Linked(nodes) && DistinctNodes(nodes) && 1 <= k < |nodes| && nodes[k] == this
      requires previous != null && next != null
      modifies this`next, this`previous, previous`next, next`previous
      ensures Linked(nodes[..k] + nodes[k + 1..])
      ensures next == this && previous == this
    {
      ghost var rest := nodes[..k] + nodes[k + 1..];
      ghost var before := nodes[k - 1];
      ghost var after := if k == |nodes| - 1 then nodes[0] else nodes[k + 1];
      previous.next := next;
      next.previous := previous;
      next := this;
      previous := this;
      assert before.next == after && after.previous == before;
      forall m | 0 <= m < |rest| - 1
        ensures rest[m].next == rest[m + 1]
      {
        if m < k - 1 {
          assert rest[m] == nodes[m] && rest[m + 1] == nodes[m + 1];
        } else if m == k - 1 {
          assert rest[m] == before && rest[m + 1] == after;
        } else {
          assert rest[m] == nodes[m + 1] && rest[m + 1] == nodes[m + 2];
        }
      }
      forall m | 0 < m < |rest|
        ensures rest[m].previous == rest[m - 1]
      {
        if m < k {
          assert rest[m] == nodes[m] && rest[m - 1] == nodes[m - 1];
        } else if m == k {
          assert rest[m] == after && rest[m - 1] == before;
        } else {
          assert rest[m] == nodes[m + 1] && rest[m - 1] == nodes[m];
        }
      }
    }

    /** `appendToTail`: links this node, not yet in the ring, between the last node and the sentinel. */
    method AppendToTail(head: TimerNode, ghost nodes: seq<TimerNode>)
      requires Linked(nodes) && DistinctNodes(nodes) && nodes[0] == head && this !in nodes
      modifies head`previous, head.previous`next, this`next, this`previous
      ensures Linked(nodes + [this])
    {
      var tail := head.previous;
      head.previous := this;
      tail.next := this;
      next := head;
      previous := tail;
      ghost var grown := nodes + [this];
      forall m | 0 <= m < |grown| - 1
        ensures grown[m].next == grown[m + 1]
      {
        assert grown[m] == nodes[m];
      }
      forall m | 0 < m < |grown|
        ensures grown[m].previous == grown[m - 1]
      {
        assert grown[m - 1] == nodes[m - 1];
      }
    }

    /** `moveToTail`: unlinks the node at position `k` and links it again as the last one. */
    method MoveToTail(head: TimerNode, ghost nodes: seq<TimerNode>, ghost k: int)
      requires Linked(nodes) && DistinctNodes(nodes) && nodes[0] == head && 1 <= k < |nodes| && nodes[k] == this
      requires previous != null && next != null
      modifies this`next, this`previous, previous`next, next`previous, head`previous, head.previous`next
      ensures Linked(nodes[..k] + nodes[k + 1..] + [this])
    {
      ghost var rest := nodes[..k] + nodes[k + 1..];
      ghost var oldPrevious := previous;
      ghost var oldTail := head.previous;
      Remove(nodes, k);
      assert rest[0] == head;
      assert head.previous == oldTail || head.previous == oldPrevious;
      assert this !in rest;
      assert DistinctNodes(rest);
      AppendToTail(head, rest);
    }
  }

  /**
   * `nodes` (the sentinel first) is a ring: each node's `next` is the one
   * after it, each node's `previous` the one before, wrapping around.
   */
  ghost predicate Linked(nodes: seq<TimerNode>)
    reads set x | x in nodes
  {
    && |nodes| >= 1
    && (forall m :: 0 <= m < |nodes| - 1 ==> nodes[m].next == nodes[m + 1])
    && (forall m :: 0 < m < |nodes| ==> nodes[m].previous == nodes[m - 1])
    && nodes[|nodes| - 1].next == nodes[0]
    && nodes[0].previous == nodes[|nodes| - 1]
  }

  /** No node appears twice. */
  ghost predicate DistinctNodes(nodes: seq<TimerNode>) {
    forall i, j :: 0 <= i < j < |nodes| ==> nodes[i] != nodes[j]
  }

  // ---------------------------------------------------------------------
  // The contents of the ring, as values
  // ---------------------------------------------------------------------

  /** What a timer node holds: the identifier it times and when it expires. */
  datatype Timer = Timer(id: string, expiration: real)

  /** The identifiers of the timers, in ring order. */
  function IdsOf(timers: seq<Timer>): (r: seq<string>)
    ensures |r| == |timers|
  {
    if timers == [] then [] else [timers[0].id] + IdsOf(timers[1..])
  }

  /** The identifier at each position is that of the timer there. */
  lemma {:induction false} IdsOfAt(timers: seq<Timer>, k: int)
    requires 0 <= k < |timers|
    ensures IdsOf(timers)[k] == timers[k].id
  {
    if k > 0 {
      IdsOfAt(timers[1..], k - 1);
    }
  }

  /** The identifiers that have a timer. */
  function IdSet(timers: seq<Timer>): set<string> {
    if timers == [] then {} else {timers[0].id} + IdSet(timers[1..])
  }

  /**
   * `remove` on the contents of the ring: the timers without the one for
   * `id`, the others kept in their order.
   */
  function Unlink(timers: seq<Timer>, id: string): (r: seq<Timer>)
  {
    if timers == [] then []
    else (if timers[0].id == id then [] else [timers[0]]) + Unlink(timers[1..], id)
  }

  /**
   * The timers after a node due at `lo` hold exactly the identifiers `keys`,
   * one timer each, in order of expiration, none due before `lo` or after
   * `hi`.
   */
  ghost predicate Timeline(timers: seq<Timer>, keys: set<string>, lo: real, hi: real) {
    if timers == [] then keys == {}
    else
      && timers[0].id in keys
      && lo <= timers[0].expiration <= hi
      && Timeline(timers[1..], keys - {timers[0].id}, timers[0].expiration, hi)
  }

  /** The identifiers that have a timer are the keys of the timeline. */
  lemma {:induction false} TimelineIds(timers: seq<Timer>, keys: set<string>, lo: real, hi: real)
    requires Timeline(timers, keys, lo, hi)
    ensures IdSet(timers) == keys
  {
    if timers != [] {
      TimelineIds(timers[1..], keys - {timers[0].id}, timers[0].expiration, hi);
    }
  }

  /**
   * Along a timeline expirations do not decrease, stay within its bounds,
   * and identifiers are keys that never repeat.
   */
  lemma {:induction false} TimelineOrdered(timers: seq<Timer>, keys: set<string>, lo: real, hi: real, i: int, j: int)
    requires Timeline(timers, keys, lo, hi) && 0 <= i <= j < |timers|
    ensures lo <= timers[i].expiration <= timers[j].expiration <= hi
    ensures timers[i].id in keys && timers[j].id in keys
    ensures i < j ==> timers[i].id != timers[j].id
  {
    var rest := timers[1..];
    if i > 0 {
      TimelineOrdered(rest, keys - {timers[0].id}, timers[0].expiration, hi, i - 1, j - 1);
      assert rest[i - 1] == timers[i] && rest[j - 1] == timers[j];
    } else if j > 0 {
      TimelineOrdered(rest, keys - {timers[0].id}, timers[0].expiration, hi, 0, j - 1);
      assert rest[j - 1] == timers[j];
    }
  }

  /** A timeline bounded by `hi` is bounded by any later time. */
  lemma {:induction false} TimelineLater(timers: seq<Timer>, keys: set<string>, lo: real, hi: real, later: real)
    requires Timeline(timers, keys, lo, hi) && hi <= later
    ensures Timeline(timers, keys, lo, later)
  {
    if timers != [] {
      TimelineLater(timers[1..], keys - {timers[0].id}, timers[0].expiration, hi, later);
    }
  }

  /** Unlinking an identifier that is not a key of the timeline changes nothing. */
  lemma {:induction false} UnlinkAbsent(timers: seq<Timer>, keys: set<string>, lo: real, hi: real, id: string)
    requires Timeline(timers, keys, lo, hi) && id !in keys
    ensures Unlink(timers, id) == timers
  {
    if timers != [] {
      UnlinkAbsent(timers[1..], keys - {timers[0].id}, timers[0].expiration, hi, id);
      assert [timers[0]] + timers[1..] == timers;
    }
  }

  /** Unlinking an identifier takes it out of the keys and keeps the rest of the timeline. */
  lemma {:induction false} UnlinkKeeps(timers: seq<Timer>, keys: set<string>, lo: real, hi: real, id: string)
    requires Timeline(timers, keys, lo, hi)
    ensures Timeline(Unlink(timers, id), keys - {id}, lo, hi)
  {
    if timers != [] {
      var first, rest := timers[0], timers[1..];
      if first.id == id {
        UnlinkAbsent(rest, keys - {id}, first.expiration, hi, id);
        assert Unlink(timers, id) == rest;
        if rest != [] {
          assert keys - {id} - {rest[0].id} == keys - {first.id} - {rest[0].id};
        }
      } else {
        UnlinkKeeps(rest, keys - {first.id}, first.expiration, hi, id);
        var unlinked := Unlink(timers, id);
        assert unlinked[0] == first && unlinked[1..] == Unlink(rest, id);
        assert keys - {first.id} - {id} == keys - {id} - {first.id};
      }
    }
  }

  /**
   * Appending a timer for a new identifier due no earlier than the others
   * adds its identifier and makes it the new bound.
   */
  lemma {:induction false} AppendKeeps(timers: seq<Timer>, keys: set<string>, lo: real, hi: real, t: Timer)
    requires Timeline(timers, keys, lo, hi) && t.id !in keys && lo <= t.expiration && hi <= t.expiration
    ensures Timeline(timers + [t], keys + {t.id}, lo, t.expiration)
  {
    var grown := timers + [t];
    if timers == [] {
      assert grown == [t] && grown[1..] == [];
      assert keys + {t.id} - {t.id} == {};
    } else {
      var first := timers[0];
      assert grown[0] == first && grown[1..] == timers[1..] + [t];
      AppendKeeps(timers[1..], keys - {first.id}, first.expiration, hi, t);
      assert keys + {t.id} - {first.id} == keys - {first.id} + {t.id};
    }
  }

  /** Unlinking the first timer of a timeline leaves the timers after it. */
  lemma SweepUnlink(t0: seq<Timer>, i: int, keys: set<string>, lo: real, hi: real)
    requires 0 <= i < |t0| && Timeline(t0[i..], keys, lo, hi)
    ensures Unlink(t0[i..], t0[i].id) == t0[i + 1..]
  {
    var timers := t0[i..];
    assert timers[1..] == t0[i + 1..];
    UnlinkAbsent(timers[1..], keys - {t0[i].id}, t0[i].expiration, hi, t0[i].id);
  }

  // ---------------------------------------------------------------------
  // The sweep, on values
  // ---------------------------------------------------------------------

  /**
   * How many timers the intended sweep removes: it takes timers from the
   * front while the first one has expired.
   */
  function Evicted(timers: seq<Timer>, now: real): (n: nat)
    ensures n <= |timers|
  {
    if timers == [] || timers[0].expiration > now then 0
    else 1 + Evicted(timers[1..], now)
  }

  /** Having removed `i` timers, the intended sweep goes on exactly when the next one has expired. */
  lemma {:induction false} EvictedGoesOn(timers: seq<Timer>, now: real, i: int)
    requires 0 <= i <= Evicted(timers, now)
    ensures i < Evicted(timers, now) <==> i < |timers| && timers[i].expiration <= now
  {
    if i > 0 {
      EvictedGoesOn(timers[1..], now, i - 1);
      if i < |timers| {
        assert timers[1..][i - 1] == timers[i];
      }
    }
  }

  /** The intended sweep stops at the latest at a timer that has not expired. */
  lemma {:induction false} EvictedStopsAt(timers: seq<Timer>, now: real, i: int)
    requires 0 <= i < |timers| && timers[i].expiration > now
    ensures Evicted(timers, now) <= i
  {
    if i > 0 && timers[0].expiration <= now {
      assert timers[1..][i - 1] == timers[i];
      EvictedStopsAt(timers[1..], now, i - 1);
    }
  }

  /**
   * How many timers the sweep as written removes: it takes timers from the
   * front while the sentinel's own expiration has passed.
   */
  function EvictedAsWritten(sentinel: real, timers: seq<Timer>, now: real): (n: nat)
    ensures n <= |timers|
  {
    if timers == [] || sentinel > now then 0
    else 1 + EvictedAsWritten(sentinel, timers[1..], now)
  }

  /** The sweep as written removes every timer once the sentinel's time has passed, and none before. */
  lemma {:induction false} EvictedAsWrittenAllOrNothing(sentinel: real, timers: seq<Timer>, now: real)
    ensures EvictedAsWritten(sentinel, timers, now) == if sentinel <= now then |timers| else 0
  {
    if timers != [] && sentinel <= now {
      EvictedAsWrittenAllOrNothing(sentinel, timers[1..], now);
    }
  }

  /** On timers in order the intended sweep removes exactly the expired ones. */
  lemma EvictedExactlyExpired(timers: seq<Timer>, keys: set<string>, lo: real, hi: real, now: real)
    requires Timeline(timers, keys, lo, hi)
    ensures forall i :: 0 <= i < |timers| ==> (timers[i].expiration <= now <==> i < Evicted(timers, now))
  {
    var n := Evicted(timers, now);
    forall i | 0 <= i < |timers|
      ensures timers[i].expiration <= now <==> i < n
    {
      if i < n {
        EvictedGoesOn(timers, now, i);
      } else {
        EvictedGoesOn(timers, now, n);
        TimelineOrdered(timers, keys, lo, hi, n, i);
      }
    }
  }

  /**
   * Once the sentinel's time has passed, the sweep as written also removes
   * timers that have not expired.
   */
  lemma AsWrittenEvictsUnexpired(sentinel: real, timers: seq<Timer>, now: real, i: int)
    requires sentinel <= now && 0 <= i < |timers| && timers[i].expiration > now
    ensures EvictedAsWritten(sentinel, timers, now) == |timers| > Evicted(timers, now)
  {
    EvictedAsWrittenAllOrNothing(sentinel, timers, now);
    EvictedStopsAt(timers, now, i);
  }

  /**
   * A sentinel created at time 0, timers due at 1000 and 1900, a sweep at
   * 1000: the sweep as written removes both, the intended one only the first.
   */
  lemma SweepCounterexample()
    ensures EvictedAsWritten(0.0, [Timer("a", 1000.0), Timer("b", 1900.0)], 1000.0) == 2
    ensures Evicted([Timer("a", 1000.0), Timer("b", 1900.0)], 1000.0) == 1
  {
    AsWrittenEvictsUnexpired(0.0, [Timer("a", 1000.0), Timer("b", 1900.0)], 1000.0, 1);
  }

  // ---------------------------------------------------------------------
  // The expirer
  // ---------------------------------------------------------------------

  /**
   * `rescheduleExpirer` on values: given the scheduled expiration, the
   * pending timer's delay and the earliest expiration, if any, the new pair.
   * Nothing changes with no timers or when the earliest is already scheduled;
   * otherwise the earliest is scheduled after a delay that is never negative.
   */
  function Reschedule(scheduled: Option<real>, timer: Option<real>, earliest: Option<real>, now: real): (r: (Option<real>, Option<real>))
    ensures earliest.Some? ==> r.0 == earliest
    ensures earliest.None? || earliest == scheduled ==> r == (scheduled, timer)
    ensures earliest.Some? && earliest != scheduled ==> r.1 == Some(Max(0.0, earliest.value - now)) && r.1.value >= 0.0
  {
    if earliest.None? || earliest == scheduled then (scheduled, timer)
    else (earliest, Some(Max(0.0, earliest.value - now)))
  }

  /**
   * The whole constructor: the options are checked first and, when they are
   * accepted, an empty discovery with their `maxStaleTime` is created at `now`.
   */
  method Create(options: Option<ExpiringOptions>, now: real) returns (r: Result<ExpiringServiceDiscovery>)
    ensures r.Err? <==> CheckOptions(options).Some?
    ensures r.Err? ==> r.error == CheckOptions(options).value
    ensures r.Ok? ==>
      && fresh(r.value) && fresh(r.value.registry) && r.value.Valid()
      && r.value.maxStaleTime == options.value.maxStaleTime.value
      && r.value.timers == [] && r.value.registry.Snapshot() == Registry.Empty
  {
    var error := CheckOptions(options);
    if error.Some? {
      return Err(error.value);
    }
    var d := new ExpiringServiceDiscovery(options.value.maxStaleTime.value, now);
    return Ok(d);
  }

  class ExpiringServiceDiscovery {
    /** How long a service stays discovered without an update. */
    const maxStaleTime: real
    /** The registry this discovery inherits. */
    const registry: BasicDiscovery.BasicServiceDiscovery
    /** The expiration of the sentinel node: the time the discovery was created. */
    const sentinelExpiration: real
    /**
     * The contents of the ring after the sentinel, in ring order. The map from
     * identifier to node is the lookup of an identifier in it.
     */
    var timers: seq<Timer>
    /** The expiration the expirer was last scheduled for; none before the first schedule. */
    var nextExpiration: Option<real>
    /** The delay of the pending expiration timer; none when no timer is set. */
    var expirationTimer: Option<real>
    /** The latest time an update was given. */
    ghost var clock: real

    /**
     * One timer per tracked identifier, none for anything else; expirations
     * in order, none before the sentinel's and none more than `maxStaleTime`
     * after the clock.
     */
    ghost predicate Valid()
      reads this, registry
    {
      && maxStaleTime > 0.0
      && registry.Valid()
      && sentinelExpiration <= clock
      && Timeline(timers, registry.serviceMap.Keys, sentinelExpiration, clock + maxStaleTime)
    }

    /** The earliest expiration, if any timer is running: the one after the sentinel. */
    function Earliest(): Option<real>
      reads this
    {
      if timers == [] then None else Some(timers[0].expiration)
    }

    /**
     * The constructor after its options were accepted: no services, no
     * timers, and a sentinel created at `now` with no time to live.
     */
    constructor (maxStaleTime: real, now: real)
      requires maxStaleTime > 0.0
      ensures Valid() && fresh(registry)
      ensures this.maxStaleTime == maxStaleTime && sentinelExpiration == now
      ensures registry.Snapshot() == Registry.Empty && registry.log == [] && !registry.destroyed
      ensures timers == [] && nextExpiration.None? && expirationTimer.None?
    {
      this.maxStaleTime := maxStaleTime;
      registry := new BasicDiscovery.BasicServiceDiscovery();
      sentinelExpiration := now;
      timers := [];
      nextExpiration := None;
      expirationTimer := None;
      clock := now;
    }

    /**
     * `destroy`: the pending expiration timer is cleared and the scheduled
     * expiration set to 0, then the registry is destroyed (once). The timers
     * themselves are kept.
     */
    method Destroy()
      requires Valid()
      modifies this`nextExpiration, this`expirationTimer, registry
      ensures Valid() && registry.destroyed
      ensures nextExpiration == Some(0.0) && expirationTimer.None?
      ensures registry.Snapshot() == old(registry.Snapshot())
      ensures registry.log == if old(registry.destroyed) then old(registry.log) else old(registry.log) + [Destroyed]
    {
      nextExpiration := Some(0.0);
      expirationTimer := None;
      registry.Destroy();
    }

    /** `rescheduleExpirer`: schedules the expirer for the earliest expiration, as `Reschedule` says. */
    method RescheduleExpirer(now: real)
      requires Valid()
      modifies this`nextExpiration, this`expirationTimer
      ensures Valid()
      ensures (nextExpiration, expirationTimer) == Reschedule(old(nextExpiration), old(expirationTimer), Earliest(), now)
    {
      if timers == [] || Some(timers[0].expiration) == nextExpiration {
        return;
      }
      nextExpiration := Some(timers[0].expiration);
      expirationTimer := Some(Max(0.0, timers[0].expiration - now));
    }
  
    /**
     * `updateService`: when the registry throws nothing else happens;
     * otherwise the service's timer is restarted at `now` and moved to the
     * end of the ring (or created there), and the expirer rescheduled.
     */
    method UpdateService(arg: Option<Service>, now: real) returns (r: Result<Option<Service>>)
      requires Valid() && clock <= now
      modifies this, registry
      ensures Valid() && registry.destroyed == old(registry.destroyed)
      ensures Registry.Upsert(old(registry.Snapshot()), arg).Err? ==>
        && r == Err(Registry.Upsert(old(registry.Snapshot()), arg).error)
        && registry.Snapshot() == old(registry.Snapshot()) && registry.log == old(registry.log)
        && timers == old(timers) && nextExpiration == old(nextExpiration) && expirationTimer == old(expirationTimer)
      ensures Registry.Upsert(old(registry.Snapshot()), arg).Ok? ==>
        var step := Registry.Upsert(old(registry.Snapshot()), arg).value;
        && r == Ok(step.previous)
        && registry.Snapshot() == step.store && registry.log == old(registry.log) + step.events
        && timers == Unlink(old(timers), arg.value.id) + [Timer(arg.value.id, now + maxStaleTime)]
        && (nextExpiration, expirationTimer) == Reschedule(old(nextExpiration), old(expirationTimer), Earliest(), now)
    {
      ghost var keys := registry.serviceMap.Keys;
      r := registry.UpdateService(arg);
      if r.Err? {
        return;
      }
      RestartTimer(arg.value, now, keys);
    }

    /**
     * The timer half of `updateService`, once the registry holds `s`: the
     * service's timer, if any, gets the expiration `now + maxStaleTime` and
     * moves to the tail; a service with no timer gets a new node at the tail.
     * Then the expirer is rescheduled.
     */
    method RestartTimer(s: Service, now: real, ghost keys: set<string>)
      requires maxStaleTime > 0.0 && registry.Valid() && sentinelExpiration <= clock <= now
      requires Timeline(timers, keys, sentinelExpiration, clock + maxStaleTime)
      requires registry.serviceMap.Keys == keys + {s.id}
      modifies this`timers, this`clock, this`nextExpiration, this`expirationTimer
      ensures Valid() && clock == now
      ensures timers == Unlink(old(timers), s.id) + [Timer(s.id, now + maxStaleTime)]
      ensures (nextExpiration, expirationTimer) == Reschedule(old(nextExpiration), old(expirationTimer), Earliest(), now)
    {
      var restarted := Timer(s.id, now + maxStaleTime);
      UnlinkKeeps(timers, keys, sentinelExpiration, clock + maxStaleTime, s.id);
      AppendKeeps(Unlink(timers, s.id), keys - {s.id}, sentinelExpiration, clock + maxStaleTime, restarted);
      assert keys - {s.id} + {s.id} == keys + {s.id};
      if s.id in IdSet(timers) {
        // updateExpiration, then moveToTail
        timers := Unlink(timers, s.id) + [restarted];
      } else {
        // a new node appended to the tail and filed in the map
        TimelineIds(timers, keys, sentinelExpiration, clock + maxStaleTime);
        UnlinkAbsent(timers, keys, sentinelExpiration, clock + maxStaleTime, s.id);
        timers := timers + [restarted];
      }
      clock := now;
      RescheduleExpirer(now);
    }

    /**
     * `removeService`: when the registry removed a service, its timer is
     * unlinked and, unless asked not to, the expirer rescheduled.
     */
    method RemoveService(target: Target, skipRescheduling: bool, now: real) returns (r: Option<Service>)
      requires Valid()
      modifies this`timers, this`nextExpiration, this`expirationTimer, registry
      ensures Valid() && clock == old(clock) && registry.destroyed == old(registry.destroyed)
      ensures var step := Registry.Remove(old(registry.Snapshot()), target);
        r == step.previous && registry.Snapshot() == step.store && registry.log == old(registry.log) + step.events
      ensures timers == if r.Some? then Unlink(old(timers), r.value.id) else old(timers)
      ensures (nextExpiration, expirationTimer) ==
        if r.Some? && !skipRescheduling then Reschedule(old(nextExpiration), old(expirationTimer), Earliest(), now)
        else (old(nextExpiration), old(expirationTimer))
    {
      ghost var keys := registry.serviceMap.Keys;
      r := registry.RemoveService(target);
      if r.Some? {
        ForgetTimer(r.value.id, keys, skipRescheduling, now);
      }
    }

    /**
     * The timer half of `removeService`, once the registry dropped `id`: the
     * node of `id` is unlinked and forgotten and, unless asked not to, the
     * expirer rescheduled.
     */
    method ForgetTimer(id: string, ghost keys: set<string>, skipRescheduling: bool, now: real)
      requires maxStaleTime > 0.0 && registry.Valid() && sentinelExpiration <= clock
      requires Timeline(timers, keys, sentinelExpiration, clock + maxStaleTime)
      requires id in keys && registry.serviceMap.Keys == keys - {id}
      modifies this`timers, this`nextExpiration, this`expirationTimer
      ensures Valid() && timers == Unlink(old(timers), id)
      ensures (nextExpiration, expirationTimer) ==
        if skipRescheduling then (old(nextExpiration), old(expirationTimer))
        else Reschedule(old(nextExpiration), old(expirationTimer), Earliest(), now)
    {
      UnlinkKeeps(timers, keys, sentinelExpiration, clock + maxStaleTime, id);
      timers := Unlink(timers, id);
      if !skipRescheduling {
        RescheduleExpirer(now);
      }
    }

    /**
     * A sweep that started from the timers `t0`, the registry contents `s0`
     * and the log `log0` has removed its first `i` timers: the registry has
     * removed their identifiers in order and emitted what that removal emits.
     */
    ghost predicate Swept(t0: seq<Timer>, s0: Registry.Store, log0: seq<Event>, i: int)
      reads this, registry
    {
      && 0 <= i <= |t0| && timers == t0[i..]
      && var b := Registry.RemoveAbsent(s0, IdsOf(t0)[..i], {});
        registry.Snapshot() == b.store && registry.log == log0 + b.events
    }

    /** One turn of a sweep: the first timer's service is removed without rescheduling. */
    method EvictFirst(ghost t0: seq<Timer>, ghost s0: Registry.Store, ghost log0: seq<Event>, ghost i: int, now: real)
      requires Valid() && Swept(t0, s0, log0, i) && i < |t0|
      modifies this`timers, this`nextExpiration, this`expirationTimer, registry
      ensures Valid() && Swept(t0, s0, log0, i + 1) && registry.destroyed == old(registry.destroyed)
      ensures nextExpiration == old(nextExpiration) && expirationTimer == old(expirationTimer)
    {
      SweepStep(t0, s0, log0, i);
      var _ := RemoveService(ById(timers[0].id), true, now);
    }

    /**
     * `removeExpiredNodes`, with the sweep reading the first timer's
     * expiration: removes the timers from the front while they have expired,
     * each through `removeService` without rescheduling, then reschedules the
     * expirer for the first timer left. Afterwards no remaining timer has expired.
     */
    method RemoveExpiredNodes(now: real)
      requires Valid()
      modifies this`timers, this`nextExpiration, this`expirationTimer, registry
      ensures Valid() && registry.destroyed == old(registry.destroyed)
      ensures var m := Evicted(old(timers), now);
        var b := Registry.RemoveAbsent(old(registry.Snapshot()), IdsOf(old(timers))[..m], {});
        && timers == old(timers)[m..]
        && registry.Snapshot() == b.store && registry.log == old(registry.log) + b.events
      ensures forall k :: 0 <= k < |timers| ==> timers[k].expiration > now
      ensures (nextExpiration, expirationTimer) == Reschedule(old(nextExpiration), old(expirationTimer), Earliest(), now)
    {
      SweepExpired(now);
      RescheduleExpirer(now);
    }

    /** The loop of `removeExpiredNodes`: evict the first timer while it has expired. */
    method SweepExpired(now: real)
      requires Valid()
      modifies this`timers, this`nextExpiration, this`expirationTimer, registry
      ensures Valid() && registry.destroyed == old(registry.destroyed)
      ensures var m := Evicted(old(timers), now);
        var b := Registry.RemoveAbsent(old(registry.Snapshot()), IdsOf(old(timers))[..m], {});
        && timers == old(timers)[m..]
        && registry.Snapshot() == b.store && registry.log == old(registry.log) + b.events
      ensures forall k :: 0 <= k < |timers| ==> timers[k].expiration > now
      ensures nextExpiration == old(nextExpiration) && expirationTimer == old(expirationTimer)
    {
      ghost var t0, s0 := timers, registry.Snapshot();
      ghost var m := Evicted(timers, now);
      ghost var i := 0;
      while timers != [] && timers[0].expiration <= now
        invariant Valid() && registry.destroyed == old(registry.destroyed)
        invariant nextExpiration == old(nextExpiration) && expirationTimer == old(expirationTimer)
        invariant Swept(t0, s0, old(registry.log), i) && i <= m
        decreases |timers|
      {
        EvictedGoesOn(t0, now, i);
        EvictFirst(t0, s0, old(registry.log), i, now);
        i := i + 1;
      }
      SweepEnds(t0, s0, old(registry.log), i, now);
    }

    /** A sweep stops once the first timer left has not expired: it has removed exactly the expired ones. */
    ghost method SweepEnds(t0: seq<Timer>, s0: Registry.Store, log0: seq<Event>, i: int, now: real)
      requires Valid() && Swept(t0, s0, log0, i) && i <= Evicted(t0, now)
      requires timers == [] || timers[0].expiration > now
      ensures i == Evicted(t0, now)
      ensures forall k :: 0 <= k < |timers| ==> timers[k].expiration > now
    {
      EvictedGoesOn(t0, now, i);
      NoneExpired(now);
    }

    /**
     * What one turn of a sweep relies on: unlinking the first timer leaves
     * the others, and the batch over one more identifier is one more removal.
     */
    ghost method SweepStep(t0: seq<Timer>, s0: Registry.Store, log0: seq<Event>, i: int)
      requires Valid() && 0 <= i < |t0| && timers == t0[i..]
      ensures Unlink(t0[i..], t0[i].id) == t0[i + 1..]
      ensures var b := Registry.RemoveAbsent(s0, IdsOf(t0)[..i], {});
        var step := Registry.Remove(b.store, ById(t0[i].id));
        var next := Registry.RemoveAbsent(s0, IdsOf(t0)[..i + 1], {});
        next.store == step.store && log0 + next.events == (log0 + b.events) + step.events
    {
      SweepUnlink(t0, i, registry.serviceMap.Keys, sentinelExpiration, clock + maxStaleTime);
      IdsOfAt(t0, i);
      assert IdsOf(t0)[..i + 1] == IdsOf(t0)[..i] + [t0[i].id];
      Registry.RemoveAbsentSnoc(s0, IdsOf(t0)[..i], t0[i].id, {});
      var b := Registry.RemoveAbsent(s0, IdsOf(t0)[..i], {});
      ConcatAssoc(log0, b.events, Registry.Remove(b.store, ById(t0[i].id)).events);
    }

    /** When the first timer has not expired, none has. */
    ghost method NoneExpired(now: real)
      requires Valid() && (timers == [] || timers[0].expiration > now)
      ensures forall k :: 0 <= k < |timers| ==> timers[k].expiration > now
    {
      forall k | 0 <= k < |timers|
        ensures timers[k].expiration > now
      {
        TimelineOrdered(timers, registry.serviceMap.Keys, sentinelExpiration, clock + maxStaleTime, 0, k);
      }
    }

    /**
     * `removeExpiredNodes` as written: the sweep's guard reads the sentinel's
     * expiration, which is the creation time, so once a sweep runs at or
     * after it every timer is removed, expired or not.
     */
    method RemoveExpiredNodesAsWritten(now: real)
      requires Valid()
      modifies this`timers, this`nextExpiration, this`expirationTimer, registry
      ensures Valid() && registry.destroyed == old(registry.destroyed)
      ensures var m := EvictedAsWritten(sentinelExpiration, old(timers), now);
        var b := Registry.RemoveAbsent(old(registry.Snapshot()), IdsOf(old(timers))[..m], {});
        && timers == old(timers)[m..]
        && registry.Snapshot() == b.store && registry.log == old(registry.log) + b.events
      ensures clock <= now ==> timers == []
      ensures (nextExpiration, expirationTimer) == Reschedule(old(nextExpiration), old(expirationTimer), Earliest(), now)
    {
      SweepAsWritten(now);
      RescheduleExpirer(now);
    }

    /** The loop of `removeExpiredNodes` as written: evict the first timer while the sentinel's expiration has passed. */
    method SweepAsWritten(now: real)
      requires Valid()
      modifies this`timers, this`nextExpiration, this`expirationTimer, registry
      ensures Valid() && registry.destroyed == old(registry.destroyed)
      ensures var m := EvictedAsWritten(sentinelExpiration, old(timers), now);
        var b := Registry.RemoveAbsent(old(registry.Snapshot()), IdsOf(old(timers))[..m], {});
        && timers == old(timers)[m..]
        && registry.Snapshot() == b.store && registry.log == old(registry.log) + b.events
      ensures clock <= now ==> timers == []
      ensures nextExpiration == old(nextExpiration) && expirationTimer == old(expirationTimer)
    {
      ghost var t0, s0 := timers, registry.Snapshot();
      ghost var m := EvictedAsWritten(sentinelExpiration, timers, now);
      EvictedAsWrittenAllOrNothing(sentinelExpiration, timers, now);
      ghost var i := 0;
      while timers != [] && sentinelExpiration <= now
        invariant Valid() && registry.destroyed == old(registry.destroyed)
        invariant nextExpiration == old(nextExpiration) && expirationTimer == old(expirationTimer)
        invariant Swept(t0, s0, old(registry.log), i) && i <= m
        decreases |timers|
      {
        EvictFirst(t0, s0, old(registry.log), i, now);
        i := i + 1;
      }
    }
  }
}

=== FILE: filtered_discovery.dfy ===
/**
 * The filtering layer (FilteredServiceDiscovery): a layer over a parent
 * discovery whose own registry holds the parent's services that satisfy a
 * predicate. Its `services` and `get` read the parent directly; its registry
 * is kept by three handlers that the parent's events drive.
 */
module FilteredDiscovery {
  import opened Common
  import Registry
  import BasicDiscovery

  /** The parent's entries that satisfy `p`. */
  function Restrict(p: Service -> bool, m: map<string, Service>): map<string, Service> {
    map id | id in m && p(m[id]) :: m[id]
  }

  /**
   * The layer's invariant: its own registry holds exactly the parent's
   * entries whose current value satisfies the predicate.
   */
  ghost predicate Mirrors(p: Service -> bool, parent: Registry.Store, own: Registry.Store) {
    own.entries == Restrict(p, parent.entries)
  }

  /** `services`: the parent's snapshot filtered by the predicate, in parent order. */
  function FilteredServices(p: Service -> bool, parent: Registry.Store): seq<Service>
    requires Registry.Valid(parent)
  {
    Filter(p, Registry.List(parent))
  }

  /** `get(id)`: the parent's value, when there is one and it satisfies the predicate. */
  function FilteredGet(p: Service -> bool, parent: Registry.Store, id: string): Option<Service> {
    match Registry.Get(parent, id)
    case Some(s) => if p(s) then Some(s) else None
    case None => None
  }

  /** What calling `this.predicate` throws while the field is still unset. */
  const PredicateUnset := "this.predicate is not a function"

  /**
   * A handler's call of `this.predicate` on a service. The field is `None`
   * until the filtering layer's own constructor has stored it; calling it
   * then throws.
   */
  function Call(test: Option<Service -> bool>, s: Service): Result<bool> {
    match test
    case None => Err(PredicateUnset)
    case Some(p) => Ok(p(s))
  }

  /** `handleParentServiceAvailable`: upsert the service only if it satisfies the predicate. */
  function OnAvailable(test: Option<Service -> bool>, own: Registry.Store, s: Service): Result<Registry.Step> {
    match Call(test, s)
    case Err(e) => Err(e)
    case Ok(matches) => if matches then Registry.Upsert(own, Some(s)) else Ok(Registry.Step(own, [], None))
  }

  /** `handleParentServiceUnavailable`: remove the service, whatever the predicate says. */
  function OnUnavailable(own: Registry.Store, s: Service): Registry.Step {
    Registry.Remove(own, ByService(s))
  }

  /** `handleParentServiceUpdate`: upsert if the new value satisfies the predicate, else remove its id. */
  function OnUpdate(test: Option<Service -> bool>, own: Registry.Store, s: Service): Result<Registry.Step> {
    match Call(test, s)
    case Err(e) => Err(e)
    case Ok(matches) => if matches then Registry.Upsert(own, Some(s)) else Ok(Registry.Remove(own, ById(s.id)))
  }

  /** The handler a parent event reaches; the destroy event belongs to the lifecycle, not to these handlers. */
  function Deliver(test: Option<Service -> bool>, own: Registry.Store, e: Event): Result<Registry.Step> {
    match e
    case Available(s) => OnAvailable(test, own, s)
    case Unavailable(s) => Ok(OnUnavailable(own, s))
    case Updated(s, _) => OnUpdate(test, own, s)
    case Destroyed => Ok(Registry.Step(own, [], None))
  }

  /** The parent's events delivered one by one, stopping at a handler that throws. */
  function DeliverAll(test: Option<Service -> bool>, own: Registry.Store, es: seq<Event>): Registry.Batch
    decreases |es|
  {
    if es == [] then Registry.Batch(own, [], None)
    else
      match Deliver(test, own, es[0])
      case Err(e) => Registry.Batch(own, [], Some(e))
      case Ok(step) =>
        var rest := DeliverAll(test, step.store, es[1..]);
        Registry.Batch(rest.store, step.events + rest.events, rest.error)
  }

  /** One available event per service, in order: what the replay at construction feeds the handler. */
  function AvailableEvents(xs: seq<Service>): (r: seq<Event>)
    ensures |r| == |xs| && forall i :: 0 <= i < |xs| ==> r[i] == Available(xs[i])
  {
    seq(|xs|, i requires 0 <= i < |xs| => Available(xs[i]))
  }

  /**
   * Construction as written: the base constructor replays the parent's
   * services through the available handler before the subclass has stored
   * its predicate, and a handler that throws aborts the constructor.
   */
  function ConstructAsWritten(parentServices: seq<Service>): Result<Registry.Store> {
    var b := DeliverAll(None, Registry.Empty, AvailableEvents(parentServices));
    if b.error.Some? then Err(b.error.value) else Ok(b.store)
  }

  // ---------------------------------------------------------------------
  // The layer as an object
  // ---------------------------------------------------------------------

  class FilteredServiceDiscovery {
    const parent: BasicDiscovery.BasicServiceDiscovery
    const accepts: Service -> bool
    /** The registry this layer inherits from the registry-backed discovery. */
    const registry: BasicDiscovery.BasicServiceDiscovery

    ghost predicate Valid()
      reads this, parent, registry
    {
      && parent != registry
      && parent.Valid()
      && registry.Valid()
      && Mirrors(accepts, parent.Snapshot(), registry.Snapshot())
    }

    /**
     * Construction with the predicate stored before the replay: the registry
     * receives what feeding every current parent service, in order, to the
     * available handler gives, and so mirrors the parent.
     */
    constructor (parent: BasicDiscovery.BasicServiceDiscovery, accepts: Service -> bool)
      requires parent.Valid()
      ensures this.parent == parent && this.accepts == accepts && fresh(registry)
      ensures Valid()
      ensures !registry.destroyed
      ensures var b := DeliverAll(Some(accepts), Registry.Empty, AvailableEvents(parent.Services()));
        registry.Snapshot() == b.store && registry.log == b.events
    {
      this.parent := parent;
      this.accepts := accepts;
      registry := new BasicDiscovery.BasicServiceDiscovery();
      new;
      ReplayMirrors(accepts, parent.Snapshot());
      var _ := DeliverEach(AvailableEvents(parent.Services()));
    }

    function Services(): seq<Service>
      reads this, parent
      requires parent.Valid()
    {
      FilteredServices(accepts, parent.Snapshot())
    }

    function Get(id: string): Option<Service>
      reads this, parent
    {
      FilteredGet(accepts, parent.Snapshot(), id)
    }

    method HandleParentServiceAvailable(service: Service) returns (error: Option<string>)
      requires registry.Valid()
      modifies registry
      ensures registry.Valid() && registry.destroyed == old(registry.destroyed)
      ensures match OnAvailable(Some(accepts), old(registry.Snapshot()), service)
        case Ok(step) =>
          error == None && registry.Snapshot() == step.store && registry.log == old(registry.log) + step.events
        case Err(e) =>
          error == Some(e) && registry.Snapshot() == old(registry.Snapshot()) && registry.log == old(registry.log)
    {
      error := None;
      if accepts(service) {
        var r := registry.UpdateService(Some(service));
        if r.Err? {
          error := Some(r.error);
        }
      }
    }

    method HandleParentServiceUnavailable(service: Service)
      requires registry.Valid()
      modifies registry
      ensures registry.Valid() && registry.destroyed == old(registry.destroyed)
      ensures var step := OnUnavailable(old(registry.Snapshot()), service);
        registry.Snapshot() == step.store && registry.log == old(registry.log) + step.events
    {
      var _ := registry.RemoveService(ByService(service));
    }

    method HandleParentServiceUpdate(service: Service) returns (error: Option<string>)
      requires registry.Valid()
      modifies registry
      ensures registry.Valid() && registry.destroyed == old(registry.destroyed)
      ensures match OnUpdate(Some(accepts), old(registry.Snapshot()), service)
        case Ok(step) =>
          error == None && registry.Snapshot() == step.store && registry.log == old(registry.log) + step.events
        case Err(e) =>
          error == Some(e) && registry.Snapshot() == old(registry.Snapshot()) && registry.log == old(registry.log)
    {
      error := None;
      if accepts(service) {
        var r := registry.UpdateService(Some(service));
        if r.Err? {
          error := Some(r.error);
        }
      } else {
        var _ := registry.RemoveService(ById(service.id));
      }
    }

    /** The parent's emitter reaching the handler subscribed to an event. */
    method HandleParentEvent(e: Event) returns (error: Option<string>)
      requires registry.Valid()
      modifies registry
      ensures registry.Valid() && registry.destroyed == old(registry.destroyed)
      ensures match Deliver(Some(accepts), old(registry.Snapshot()), e)
        case Ok(step) =>
          error == None && registry.Snapshot() == step.store && registry.log == old(registry.log) + step.events
        case Err(m) =>
          error == Some(m) && registry.Snapshot() == old(registry.Snapshot()) && registry.log == old(registry.log)
    {
      error := None;
      match e {
        case Available(s) => error := HandleParentServiceAvailable(s);
        case Unavailable(s) => HandleParentServiceUnavailable(s);
        case Updated(s, _) => error := HandleParentServiceUpdate(s);
        case Destroyed =>
      }
    }

    /** Hands each event to its handler in turn, as the parent's emitter does, stopping at a throw. */
    method DeliverEach(events: seq<Event>) returns (error: Option<string>)
      requires registry.Valid()
      modifies registry
      ensures registry.Valid() && registry.destroyed == old(registry.destroyed)
      ensures var b := DeliverAll(Some(accepts), old(registry.Snapshot()), events);
        error == b.error && registry.Snapshot() == b.store && registry.log == old(registry.log) + b.events
    {
      ghost var all := DeliverAll(Some(accepts), registry.Snapshot(), events);
      var i := 0;
      while i < |events|
        invariant 0 <= i <= |events|
        invariant registry.Valid() && registry.destroyed == old(registry.destroyed)
        invariant Pending(events, i, all, old(registry.log))
      {
        error := DeliverNext(events, i, all, old(registry.log));
        if error.Some? {
          return;
        }
        i := i + 1;
      }
      error := None;
    }

    /**
     * Delivering `events[i..]` from the registry's current contents ends with
     * the contents, error and events of `all`, given the log `log0` it started from.
     */
    ghost predicate Pending(events: seq<Event>, i: int, all: Registry.Batch, log0: seq<Event>)
      reads this, registry
      requires 0 <= i <= |events|
    {
      var rest := DeliverAll(Some(accepts), registry.Snapshot(), events[i..]);
      rest.store == all.store && rest.error == all.error && registry.log + rest.events == log0 + all.events
    }

    /** One turn of the delivery: hand `events[i]` to its handler. */
    method DeliverNext(events: seq<Event>, i: int, ghost all: Registry.Batch, ghost log0: seq<Event>)
      returns (error: Option<string>)
      requires registry.Valid() && 0 <= i < |events| && Pending(events, i, all, log0)
      modifies registry
      ensures registry.Valid() && registry.destroyed == old(registry.destroyed)
      ensures error.None? ==> Pending(events, i + 1, all, log0)
      ensures error.Some? ==>
        error == all.error && registry.Snapshot() == all.store && registry.log == log0 + all.events
    {
      assert events[i..][1..] == events[i + 1..];
      ghost var before := registry.Snapshot();
      error := HandleParentEvent(events[i]);
      if error.Some? {
        return;
      }
      ghost var step := Deliver(Some(accepts), before, events[i]).value;
      ghost var rest := DeliverAll(Some(accepts), registry.Snapshot(), events[i + 1..]);
      assert DeliverAll(Some(accepts), before, events[i..])
          == Registry.Batch(rest.store, step.events + rest.events, rest.error);
      ConcatAssoc(old(registry.log), step.events, rest.events);
    }

    /**
     * A change to the parent through `updateService`, followed by the delivery
     * of what it emitted: the parent changes as `Registry.Upsert` says, the
     * layer's registry as delivering the parent's new events to the handlers
     * says, and the layer still mirrors the parent afterwards.
     */
    method ParentUpdateService(arg: Option<Service>) returns (r: Result<Option<Service>>)
      requires Valid()
      modifies parent, registry
      ensures Valid()
      ensures parent.destroyed == old(parent.destroyed) && registry.destroyed == old(registry.destroyed)
      ensures match Registry.Upsert(old(parent.Snapshot()), arg)
        case Err(e) =>
          && r == Err(e) && parent.Snapshot() == old(parent.Snapshot()) && parent.log == old(parent.log)
          && registry.Snapshot() == old(registry.Snapshot()) && registry.log == old(registry.log)
        case Ok(step) =>
          && r == Ok(step.previous) && parent.Snapshot() == step.store
          && parent.log == old(parent.log) + step.events
          && var b := DeliverAll(Some(accepts), old(registry.Snapshot()), step.events);
             b.error == None && registry.Snapshot() == b.store && registry.log == old(registry.log) + b.events
    {
      ghost var own := registry.Snapshot();
      ghost var before := parent.Snapshot();
      var n := |parent.log|;
      r := parent.UpdateService(arg);
      var emitted := parent.log[n..];
      MirrorAfterParentUpsert(accepts, before, own, arg);
      var _ := DeliverEach(emitted);
    }

    /**
     * A change to the parent through `removeService`, followed by the delivery
     * of what it emitted: the parent changes as `Registry.Remove` says, the
     * layer's registry as delivering the parent's new events to the handlers
     * says, and the layer still mirrors the parent afterwards.
     */
    method ParentRemoveService(target: Target) returns (r: Option<Service>)
      requires Valid()
      modifies parent, registry
      ensures Valid()
      ensures parent.destroyed == old(parent.destroyed) && registry.destroyed == old(registry.destroyed)
      ensures var step := Registry.Remove(old(parent.Snapshot()), target);
        && r == step.previous && parent.Snapshot() == step.store
        && parent.log == old(parent.log) + step.events
        && var b := DeliverAll(Some(accepts), old(registry.Snapshot()), step.events);
           b.error == None && registry.Snapshot() == b.store && registry.log == old(registry.log) + b.events
    {
      ghost var own := registry.Snapshot();
      ghost var before := parent.Snapshot();
      var n := |parent.log|;
      r := parent.RemoveService(target);
      var emitted := parent.log[n..];
      MirrorAfterParentRemove(accepts, before, own, target);
      var _ := DeliverEach(emitted);
    }
  }

  // ---------------------------------------------------------------------
  // Properties of the layer
  // ---------------------------------------------------------------------

  /** `services` lists exactly the values the mirroring registry holds. */
  lemma ServicesAgreeWithRegistry(p: Service -> bool, parent: Registry.Store, own: Registry.Store, s: Service)
    requires Registry.Valid(parent) && Mirrors(p, parent, own)
    ensures s in FilteredServices(p, parent) <==> s.id in own.entries && own.entries[s.id] == s
  {
    Registry.GetAgreesWithList(parent, s.id, s);
  }

  /** `get` answers exactly as the mirroring registry would. */
  lemma GetAgreesWithRegistry(p: Service -> bool, parent: Registry.Store, own: Registry.Store, id: string)
    requires Mirrors(p, parent, own)
    ensures FilteredGet(p, parent, id) == Registry.Get(own, id)
  {
  }

  /** An available event adds the service exactly when it satisfies the predicate. */
  lemma AvailableAddsOnlyMatching(p: Service -> bool, own: Registry.Store, s: Service)
    requires s.id != ""
    ensures OnAvailable(Some(p), own, s).Ok?
    ensures p(s) ==> OnAvailable(Some(p), own, s).value.store.entries == own.entries[s.id := s]
    ensures !p(s) ==> OnAvailable(Some(p), own, s).value.store == own && OnAvailable(Some(p), own, s).value.events == []
  {
  }

  /**
   * An update performs one mutation and surfaces on the layer according to
   * whether the old and new values satisfy the predicate: both do, an update;
   * only the new one, an addition; only the old one, a removal of the old
   * value; neither, nothing.
   */
  lemma UpdateSurfaces(p: Service -> bool, parent: Registry.Store, own: Registry.Store, s: Service)
    requires Registry.Valid(parent) && Registry.Valid(own) && Mirrors(p, parent, own)
    requires s.id in parent.entries && parent.entries[s.id] != s
    ensures var prev := parent.entries[s.id];
      && OnUpdate(Some(p), own, s).Ok?
      && OnUpdate(Some(p), own, s).value.events ==
           if p(prev) && p(s) then [Updated(s, prev)]
           else if p(s) then [Available(s)]
           else if p(prev) then [Unavailable(prev)]
           else []
  {
    assert s.id != "";
  }

  /** Restricting after filing a value under `id` files it there only if it satisfies `p`. */
  lemma RestrictUpdate(p: Service -> bool, m: map<string, Service>, id: string, s: Service)
    ensures Restrict(p, m[id := s]) == if p(s) then Restrict(p, m)[id := s] else Restrict(p, m) - {id}
  {
  }

  /** Restricting after deleting `id` deletes it from the restriction. */
  lemma RestrictRemove(p: Service -> bool, m: map<string, Service>, id: string)
    ensures Restrict(p, m - {id}) == Restrict(p, m) - {id}
  {
  }

  /** Delivering a single event is handing it to its handler. */
  lemma DeliverOne(p: Service -> bool, own: Registry.Store, e: Event)
    ensures Deliver(Some(p), own, e).Ok? ==>
      DeliverAll(Some(p), own, [e]) == Registry.Batch(Deliver(Some(p), own, e).value.store, Deliver(Some(p), own, e).value.events, None)
  {
    assert [e][1..] == [];
  }

  /** A parent upsert, delivered to the handlers, keeps the layer mirroring the parent. */
  lemma MirrorAfterParentUpsert(p: Service -> bool, parent: Registry.Store, own: Registry.Store, arg: Option<Service>)
    requires Registry.Valid(parent) && Registry.Valid(own) && Mirrors(p, parent, own)
    ensures Registry.Upsert(parent, arg).Ok? ==>
      var step := Registry.Upsert(parent, arg).value;
      var b := DeliverAll(Some(p), own, step.events);
      b.error == None && Mirrors(p, step.store, b.store)
  {
    if Registry.Upsert(parent, arg).Ok? {
      var s := arg.value;
      var id := s.id;
      var step := Registry.Upsert(parent, arg).value;
      assert step.store.entries == parent.entries[id := s];
      RestrictUpdate(p, parent.entries, id, s);
      if id in parent.entries && parent.entries[id] != s {
        var e := Updated(s, parent.entries[id]);
        assert step.events == [e];
        DeliverOne(p, own, e);
        if p(s) {
          assert Registry.Upsert(own, Some(s)).value.store.entries == own.entries[id := s];
        } else {
          Registry.RemoveEntries(own, ById(id));
        }
      } else if id !in parent.entries {
        var e := Available(s);
        assert step.events == [e];
        assert id !in own.entries;
        DeliverOne(p, own, e);
        if p(s) {
          assert Registry.Upsert(own, Some(s)).value.store.entries == own.entries[id := s];
        } else {
          assert own.entries - {id} == own.entries;
        }
      } else {
        assert step.events == [] && step.store == parent;
      }
    }
  }

  /** A parent removal, delivered to the handlers, keeps the layer mirroring the parent. */
  lemma MirrorAfterParentRemove(p: Service -> bool, parent: Registry.Store, own: Registry.Store, t: Target)
    requires Registry.Valid(parent) && Registry.Valid(own) && Mirrors(p, parent, own)
    ensures var step := Registry.Remove(parent, t);
      var b := DeliverAll(Some(p), own, step.events);
      b.error == None && Mirrors(p, step.store, b.store)
  {
    if !t.Nothing? && Registry.TargetId(t) in parent.entries {
      var id := Registry.TargetId(t);
      var prev := parent.entries[id];
      var e := Unavailable(prev);
      assert Registry.Remove(parent, t).events == [e];
      assert Registry.Remove(parent, t).store.entries == parent.entries - {id};
      assert prev.id == id;
      DeliverOne(p, own, e);
      Registry.RemoveEntries(own, ByService(prev));
      RestrictRemove(p, parent.entries, id);
    } else {
      Registry.RemoveUnknown(parent, t);
    }
  }

  /** The entries of `m` under the keys listed in `ks` whose values satisfy `p`. */
  function RestrictTo(p: Service -> bool, m: map<string, Service>, ks: seq<string>): map<string, Service> {
    map id | id in ks && id in m && p(m[id]) :: m[id]
  }

  /** Listing one more key adds its entry to the restriction when the entry satisfies `p`. */
  lemma RestrictToSnoc(p: Service -> bool, m: map<string, Service>, ks: seq<string>, id: string)
    requires id in m
    ensures RestrictTo(p, m, ks + [id]) == if p(m[id]) then RestrictTo(p, m, ks)[id := m[id]] else RestrictTo(p, m, ks)
  {
    assert forall x :: x in ks + [id] <==> x in ks || x == id;
  }

  /** The registry mirrors the parent's entries at the first `k` positions of its order. */
  ghost predicate MirrorsPrefix(p: Service -> bool, parent: Registry.Store, own: Registry.Store, k: nat)
    requires k <= |parent.order|
  {
    own.entries == RestrictTo(p, parent.entries, parent.order[..k])
  }

  /** Handing the service at position `k` to the available handler extends the mirrored prefix by one. */
  lemma ReplayStep(p: Service -> bool, parent: Registry.Store, own: Registry.Store, k: nat)
    requires Registry.Valid(parent) && Registry.Valid(own) && k < |parent.order|
    requires MirrorsPrefix(p, parent, own, k)
    ensures OnAvailable(Some(p), own, Registry.List(parent)[k]).Ok?
    ensures var step := OnAvailable(Some(p), own, Registry.List(parent)[k]).value;
      Registry.Valid(step.store) && MirrorsPrefix(p, parent, step.store, k + 1)
  {
    var id := parent.order[k];
    var s := Registry.List(parent)[k];
    assert s == parent.entries[id] && s.id == id && id != "";
    assert parent.order[..k + 1] == parent.order[..k] + [id];
    RestrictToSnoc(p, parent.entries, parent.order[..k], id);
    assert OnAvailable(Some(p), own, s).value.store.entries == if p(s) then own.entries[id := s] else own.entries;
  }

  /**
   * Replaying the parent's snapshot from position `k` onto a registry that
   * mirrors the entries at the first `k` positions completes the mirror.
   */
  lemma {:induction false} ReplayFrom(p: Service -> bool, parent: Registry.Store, own: Registry.Store, k: nat)
    requires Registry.Valid(parent) && Registry.Valid(own) && k <= |parent.order|
    requires MirrorsPrefix(p, parent, own, k)
    ensures var b := DeliverAll(Some(p), own, AvailableEvents(Registry.List(parent)[k..]));
      b.error == None && Mirrors(p, parent, b.store)
    decreases |parent.order| - k
  {
    var xs := Registry.List(parent);
    if k == |parent.order| {
      assert AvailableEvents(xs[k..]) == [];
      PrefixComplete(p, parent, own);
    } else {
      var events := AvailableEvents(xs[k..]);
      assert events[0] == Available(xs[k]);
      assert events[1..] == AvailableEvents(xs[k + 1..]);
      ReplayStep(p, parent, own, k);
      var step := OnAvailable(Some(p), own, xs[k]).value;
      ReplayFrom(p, parent, step.store, k + 1);
      var rest := DeliverAll(Some(p), step.store, events[1..]);
      assert DeliverAll(Some(p), own, events) == Registry.Batch(rest.store, step.events + rest.events, rest.error);
    }
  }

  /** Mirroring every position of the order is mirroring the parent. */
  lemma PrefixComplete(p: Service -> bool, parent: Registry.Store, own: Registry.Store)
    requires Registry.Valid(parent) && MirrorsPrefix(p, parent, own, |parent.order|)
    ensures Mirrors(p, parent, own)
  {
    assert parent.order[..|parent.order|] == parent.order;
  }

  /** The replay at construction leaves the layer mirroring its parent. */
  lemma ReplayMirrors(p: Service -> bool, parent: Registry.Store)
    requires Registry.Valid(parent)
    ensures var b := DeliverAll(Some(p), Registry.Empty, AvailableEvents(Registry.List(parent)));
      b.error == None && Mirrors(p, parent, b.store)
  {
    assert Registry.List(parent)[0..] == Registry.List(parent);
    ReplayFrom(p, parent, Registry.Empty, 0);
  }

  /**
   * With the predicate unset, the first availability or update delivered
   * throws, before anything changes or is emitted.
   */
  lemma UnsetPredicateThrows(own: Registry.Store, es: seq<Event>)
    requires es != [] && (es[0].Available? || es[0].Updated?)
    ensures DeliverAll(None, own, es) == Registry.Batch(own, [], Some(PredicateUnset))
  {
    assert Deliver(None, own, es[0]) == Err(PredicateUnset);
  }

  /**
   * As written, constructing the layer over a parent that holds a service
   * throws the predicate's TypeError, and over an empty parent gives an empty
   * registry; with the predicate stored first, the same replay never throws.
   */
  lemma ConstructAsWrittenThrows(parent: Registry.Store, p: Service -> bool)
    requires Registry.Valid(parent)
    ensures ConstructAsWritten(Registry.List(parent))
         == if parent.order == [] then Ok(Registry.Empty) else Err(PredicateUnset)
    ensures DeliverAll(Some(p), Registry.Empty, AvailableEvents(Registry.List(parent))).error == None
  {
    var events := AvailableEvents(Registry.List(parent));
    if parent.order == [] {
      assert events == [];
    } else {
      UnsetPredicateThrows(Registry.Empty, events);
    }
    ReplayMirrors(p, parent);
  }
}

=== FILE: host_and_port.dfy ===
/**
 * The `HostAndPort` value: parsing a `host`, `host:port`, bare IPv6 or
 * bracketed `[IPv6]:port` string, the `hasPort` test and the `compare`
 * ordering. The IPv6 test and the decimal port parser are parameters: the
 * first is a regular-expression library and the second yields a number or NaN.
 */
module HostPort {

  /** A parsed port: an integer, or NaN when the text does not start with a number. */
  datatype Port = Num(n: int) | NaN

  datatype HostAndPort = HostAndPort(host: string, port: Port)

  /** `hasPort`: the port is a number that is not negative (NaN is not). */
  predicate HasPort(hp: HostAndPort) {
    hp.port.Num? && hp.port.n >= 0
  }

  /** The characters JavaScript's `trim` removes: white space and line terminators. */
  predicate IsTrimmed(c: char) {
    || c == '\t' || c == '\n' || c == '\U{000B}' || c == '\U{000C}' || c == '\r' || c == ' '
    || c == '\U{00A0}' || c == '\U{1680}' || ('\U{2000}' <= c <= '\U{200A}')
    || c == '\U{2028}' || c == '\U{2029}' || c == '\U{202F}' || c == '\U{205F}'
    || c == '\U{3000}' || c == '\U{FEFF}'
  }

  function TrimStart(s: string): (r: string)
    ensures |r| <= |s| && r == s[|s| - |r|..]
    ensures r == [] || !IsTrimmed(r[0])
    ensures forall i :: 0 <= i < |s| - |r| ==> IsTrimmed(s[i])
  {
    if s != [] && IsTrimmed(s[0]) then TrimStart(s[1..]) else s
  }

  function TrimEnd(s: string): (r: string)
    ensures |r| <= |s| && r == s[..|r|]
    ensures r == [] || !IsTrimmed(r[|r| - 1])
    ensures forall i :: |r| <= i < |s| ==> IsTrimmed(s[i])
  {
    if s != [] && IsTrimmed(s[|s| - 1]) then TrimEnd(s[..|s| - 1]) else s
  }

  /** Neither end of the string is white space. */
  predicate Unpadded(s: string) {
    s == [] || (!IsTrimmed(s[0]) && !IsTrimmed(s[|s| - 1]))
  }

  /** `r` is `s` with only white space cut off before position `i` and after `r`. */
  predicate CutAt(s: string, r: string, i: int) {
    && 0 <= i <= |s| - |r| && r == s[i..i + |r|]
    && (forall k :: 0 <= k < i ==> IsTrimmed(s[k]))
    && (forall k :: i + |r| <= k < |s| ==> IsTrimmed(s[k]))
  }

  /** `trim`: drops the white space at both ends, keeping the rest as it is. */
  function Trim(s: string): (r: string)
    ensures Unpadded(r) && |r| <= |s|
  {
    var t := TrimStart(s);
    var r := TrimEnd(t);
    assert r != [] ==> r[0] == t[0];
    r
  }

  /**
   * What `trim` keeps is the slice of `s` left once a white-space prefix and
   * a white-space suffix are cut off.
   */
  lemma TrimIsCut(s: string)
    ensures exists i :: CutAt(s, Trim(s), i)
  {
    var t := TrimStart(s);
    assert Trim(s) == TrimEnd(t);
    CutOfSlices(s, t, TrimEnd(t));
  }

  /** A white-space prefix cut from `s`, then a white-space suffix cut from what is left. */
  lemma CutOfSlices(s: string, t: string, r: string)
    requires |t| <= |s| && t == s[|s| - |t|..]
    requires forall i :: 0 <= i < |s| - |t| ==> IsTrimmed(s[i])
    requires |r| <= |t| && r == t[..|r|]
    requires forall i :: |r| <= i < |t| ==> IsTrimmed(t[i])
    ensures CutAt(s, r, |s| - |t|)
  {
    var i := |s| - |t|;
    forall k | i + |r| <= k < |s|
      ensures IsTrimmed(s[k])
    {
      assert s[k] == t[k - i];
    }
  }

  /** `lastIndexOf(c)`: the last position holding `c`, or -1. */
  function LastIndexOf(s: string, c: char): (r: int)
    ensures -1 <= r < |s|
    ensures r == -1 <==> c !in s
    ensures r >= 0 ==> s[r] == c && forall j :: r < j < |s| ==> s[j] != c
  {
    if s == [] then -1
    else if s[|s| - 1] == c then |s| - 1
    else
      var r := LastIndexOf(s[..|s| - 1], c);
      assert c in s[..|s| - 1] ==> c in s;
      assert c in s && s[|s| - 1] != c ==> c in s[..|s| - 1] by {
        if c in s && s[|s| - 1] != c {
          var k :| 0 <= k < |s| && s[k] == c;
          assert s[..|s| - 1][k] == c;
        }
      }
      r
  }

  /** `indexOf(c)`: the first position holding `c`, or -1. */
  function IndexOf(s: string, c: char): (r: int)
    ensures -1 <= r < |s|
    ensures r == -1 <==> c !in s
    ensures r >= 0 ==> s[r] == c && forall j :: 0 <= j < r ==> s[j] != c
  {
    if s == [] then -1
    else if s[0] == c then 0
    else
      var r := IndexOf(s[1..], c);
      assert c in s && s[0] != c ==> c in s[1..] by {
        if c in s && s[0] != c {
          var k :| 0 <= k < |s| && s[k] == c;
          assert s[1..][k - 1] == c;
        }
      }
      if r == -1 then -1 else r + 1
  }

  /**
   * `fromString`: trims the input, then parses a bracketed IPv6 address with
   * an optional `:port`, a bare IPv6 address (more than one colon), or a host
   * with an optional `:port`. A missing port is 0.
   */
  function FromString(input: string, isIPv6: string -> bool, parsePort: string -> Port): Option<HostAndPort> {
    Parse(Trim(input), isIPv6, parsePort)
  }

  /** The branches of `fromString` after the input has been trimmed. */
  function Parse(s: string, isIPv6: string -> bool, parsePort: string -> Port): Option<HostAndPort> {
    if |s| > 0 && s[0] == '[' then
      var closingBracket := LastIndexOf(s, ']');
      if closingBracket <= 0 then None
      else
        var address := s[1..closingBracket];
        if !isIPv6(address) then None
        else if |s| == closingBracket + 1 then Some(HostAndPort(address, Num(0)))
        else if s[closingBracket + 1] == ':' then Some(HostAndPort(address, parsePort(s[closingBracket + 2..])))
        else None
    else
      var lastColon := LastIndexOf(s, ':');
      var hasMultipleColons := IndexOf(s, ':') != lastColon;
      if hasMultipleColons then
        if !isIPv6(s) then None else Some(HostAndPort(s, Num(0)))
      else if lastColon >= 0 then Some(HostAndPort(s[..lastColon], parsePort(s[lastColon + 1..])))
      else Some(HostAndPort(s, Num(0)))
  }

  datatype Option<+T> = None | Some(value: T)

  /**
   * String `<`: lexicographic by character. JavaScript compares UTF-16 code
   * units instead; the two differ only between characters above U+FFFF and
   * characters in U+E000..U+FFFF.
   */
  predicate StrLess(a: string, b: string) {
    if a == [] then b != []
    else if b == [] then false
    else if a[0] != b[0] then a[0] < b[0]
    else StrLess(a[1..], b[1..])
  }

  /** JavaScript's `<` on numbers, where every comparison with NaN is false. */
  predicate PortLess(a: Port, b: Port) {
    a.Num? && b.Num? && a.n < b.n
  }

  /** JavaScript's `===` on numbers, where NaN equals nothing, itself included. */
  predicate PortEq(a: Port, b: Port) {
    a.Num? && b.Num? && a.n == b.n
  }

  /** `compare`: by host, then by port; a NaN port compares as greater. */
  function Compare(a: HostAndPort, b: HostAndPort): (r: int)
    ensures r == -1 || r == 0 || r == 1
  {
    if StrLess(a.host, b.host) then -1
    else if StrLess(b.host, a.host) then 1
    else if PortLess(a.port, b.port) then -1
    else if PortEq(a.port, b.port) then 0
    else 1
  }

  // ---------------------------------------------------------------------
  // Properties of the ordering
  // ---------------------------------------------------------------------

  /** String `<` is irreflexive and asymmetric, and relates any two different strings one way. */
  lemma {:induction false} StrLessTotal(a: string, b: string)
    ensures !(StrLess(a, b) && StrLess(b, a))
    ensures a != b ==> StrLess(a, b) || StrLess(b, a)
    ensures !StrLess(a, a)
  {
    if a != [] && b != [] && a[0] == b[0] {
      StrLessTotal(a[1..], b[1..]);
      if a != b {
        assert a == [a[0]] + a[1..] && b == [b[0]] + b[1..];
      }
    }
    if a != [] {
      StrLessTotal(a[1..], a[1..]);
    }
  }

  /** With numeric ports, `compare` is antisymmetric and returns 0 exactly on equal values. */
  lemma CompareAntisymmetric(a: HostAndPort, b: HostAndPort)
    requires a.port.Num? && b.port.Num?
    ensures Compare(a, b) == -Compare(b, a)
    ensures Compare(a, b) == 0 <==> a == b
  {
    StrLessTotal(a.host, b.host);
  }

  /** A NaN port makes `compare` answer 1 against any value with the same host, itself included. */
  lemma CompareNaN(a: HostAndPort, b: HostAndPort)
    requires a.host == b.host && a.port.NaN?
    ensures Compare(a, b) == 1 && Compare(a, a) == 1
  {
    StrLessTotal(a.host, a.host);
  }

  // ---------------------------------------------------------------------
  // Properties of the parser
  // ---------------------------------------------------------------------

  /** `trim` leaves a string with no white space at either end as it is. */
  lemma TrimNoop(s: string)
    requires Unpadded(s)
    ensures Trim(s) == s
  {
    assert TrimStart(s) == s;
  }

  /** `trim` is idempotent. */
  lemma TrimIdempotent(s: string)
    ensures Trim(Trim(s)) == Trim(s)
  {
    TrimNoop(Trim(s));
  }

  /** Surrounding white space never changes the result: the input is trimmed first. */
  lemma FromStringTrims(input: string, isIPv6: string -> bool, parsePort: string -> Port)
    ensures FromString(Trim(input), isIPv6, parsePort) == FromString(input, isIPv6, parsePort)
  {
    TrimIdempotent(input);
  }

  /** A bracketed input without a closing bracket is rejected. */
  lemma BracketWithoutClose(s: string, isIPv6: string -> bool, parsePort: string -> Port)
    requires |s| > 0 && s[0] == '[' && ']' !in s && Unpadded(s)
    ensures FromString(s, isIPv6, parsePort) == None
  {
    TrimNoop(s);
  }

  /** The last `]` of `[a]rest` is the one closing `a` when `rest` has none. */
  lemma ClosingBracket(a: string, rest: string)
    requires ']' !in rest
    ensures var s := "[" + a + "]" + rest;
      && LastIndexOf(s, ']') == |a| + 1
      && s[1..|a| + 1] == a
      && s[|a| + 2..] == rest
  {
    var s := "[" + a + "]" + rest;
    assert s[|a| + 1] == ']';
    forall j | |a| + 1 < j < |s|
      ensures s[j] != ']'
    {
      assert s[j] == rest[j - |a| - 2];
    }
    assert s[1..|a| + 1] == a;
    assert s[|a| + 2..] == rest;
  }

  /** A bracket body that is not an IPv6 address is rejected. */
  lemma BracketNotIPv6(a: string, rest: string, isIPv6: string -> bool, parsePort: string -> Port)
    requires !isIPv6(a) && ']' !in rest && Unpadded("[" + a + "]" + rest)
    ensures FromString("[" + a + "]" + rest, isIPv6, parsePort) == None
  {
    TrimNoop("[" + a + "]" + rest);
    ClosingBracket(a, rest);
  }

  /**
   * `[addr]` parses to port 0, `[addr]:p` to the port parsed from `p`, and
   * any other character after the bracket is rejected.
   */
  lemma BracketedForms(a: string, rest: string, isIPv6: string -> bool, parsePort: string -> Port)
    requires isIPv6(a) && ']' !in rest && Unpadded("[" + a + "]" + rest)
    ensures FromString("[" + a + "]" + rest, isIPv6, parsePort) ==
      if rest == [] then Some(HostAndPort(a, Num(0)))
      else if rest[0] == ':' then Some(HostAndPort(a, parsePort(rest[1..])))
      else None
  {
    var s := "[" + a + "]" + rest;
    TrimNoop(s);
    ClosingBracket(a, rest);
    if rest != [] {
      assert s[|a| + 2] == rest[0];
      assert s[|a| + 3..] == rest[1..];
    }
  }

  /** Unbracketed input with two colons or more is an IPv6 address with port 0, or rejected. */
  lemma ManyColons(s: string, i: int, j: int, isIPv6: string -> bool, parsePort: string -> Port)
    requires Unpadded(s) && (|s| == 0 || s[0] != '[')
    requires 0 <= i < j < |s| && s[i] == ':' && s[j] == ':'
    ensures FromString(s, isIPv6, parsePort) == if isIPv6(s) then Some(HostAndPort(s, Num(0))) else None
  {
    TrimNoop(s);
    var first := IndexOf(s, ':');
    var last := LastIndexOf(s, ':');
    assert first <= i;
    assert j <= last;
    assert first != last;
  }

  /** The only colon of `h:p` sits right after `h`. */
  lemma SoleColon(h: string, p: string)
    requires ':' !in h && ':' !in p
    ensures var s := h + ":" + p;
      && IndexOf(s, ':') == |h| && LastIndexOf(s, ':') == |h|
      && s[..|h|] == h && s[|h| + 1..] == p
  {
    var s := h + ":" + p;
    assert s[|h|] == ':';
    forall k | 0 <= k < |s| && k != |h|
      ensures s[k] != ':'
    {
      if k < |h| {
        assert s[k] == h[k];
      } else {
        assert s[k] == p[k - |h| - 1];
      }
    }
    assert s[..|h|] == h && s[|h| + 1..] == p;
  }

  /** With one colon the host is the text before it and the port is parsed from the text after. */
  lemma OneColon(h: string, p: string, isIPv6: string -> bool, parsePort: string -> Port)
    requires ':' !in h && ':' !in p && (|h| == 0 || h[0] != '[')
    requires Unpadded(h + ":" + p)
    ensures FromString(h + ":" + p, isIPv6, parsePort) == Some(HostAndPort(h, parsePort(p)))
  {
    var s := h + ":" + p;
    TrimNoop(s);
    SoleColon(h, p);
    assert s[0] != '[' by {
      if |h| > 0 {
        assert s[0] == h[0];
      }
    }
    assert FromString(s, isIPv6, parsePort) == Parse(s, isIPv6, parsePort);
  }

  /** With no colon the whole input is the host and the port is 0. */
  lemma NoColon(h: string, isIPv6: string -> bool, parsePort: string -> Port)
    requires ':' !in h && (|h| == 0 || h[0] != '[') && Unpadded(h)
    ensures FromString(h, isIPv6, parsePort) == Some(HostAndPort(h, Num(0)))
  {
    TrimNoop(h);
  }

  /**
   * The port 0 given to an input without one is a port for `hasPort`: a
   * bracketed IPv6 address alone and a host without a colon both parse to a
   * value that has a port, whatever the port parser would answer.
   */
  lemma DefaultPortHasPort(a: string, h: string, isIPv6: string -> bool, parsePort: string -> Port)
    ensures isIPv6(a) && Unpadded("[" + a + "]") ==>
      var r := FromString("[" + a + "]", isIPv6, parsePort);
      r.Some? && HasPort(r.value) && r.value.host == a
    ensures ':' !in h && (|h| == 0 || h[0] != '[') && Unpadded(h) ==>
      var r := FromString(h, isIPv6, parsePort);
      r.Some? && HasPort(r.value) && r.value.host == h
  {
    if isIPv6(a) && Unpadded("[" + a + "]") {
      assert "[" + a + "]" + [] == "[" + a + "]";
      BracketedForms(a, [], isIPv6, parsePort);
    }
    if ':' !in h && (|h| == 0 || h[0] != '[') && Unpadded(h) {
      NoColon(h, isIPv6, parsePort);
    }
  }

  // The examples of the repository's tests, one lemma each, given what the
  // IPv6 test and the port parser answer for the strings involved.

  lemma BracketedAddressExample(isIPv6: string -> bool, parsePort: string -> Port)
    requires isIPv6("2001:db8::1")
    ensures FromString("[2001:db8::1]", isIPv6, parsePort) == Some(HostAndPort("2001:db8::1", Num(0)))
  {
    assert "[2001:db8::1]" == "[" + "2001:db8::1" + "]" + "";
    BracketedForms("2001:db8::1", "", isIPv6, parsePort);
  }

  lemma BracketedWithPortExample(isIPv6: string -> bool, parsePort: string -> Port)
    requires isIPv6("2001:db8::1") && parsePort("80") == Num(80)
    ensures FromString("[2001:db8::1]:80", isIPv6, parsePort) == Some(HostAndPort("2001:db8::1", Num(80)))
  {
    assert "[2001:db8::1]:80" == "[" + "2001:db8::1" + "]" + ":80";
    BracketedForms("2001:db8::1", ":80", isIPv6, parsePort);
  }

  lemma BracketedNotIPv6Example(isIPv6: string -> bool, parsePort: string -> Port)
    requires !isIPv6("2001")
    ensures FromString("[2001]:80", isIPv6, parsePort) == None
  {
    assert "[2001]:80" == "[" + "2001" + "]" + ":80";
    BracketNotIPv6("2001", ":80", isIPv6, parsePort);
  }

  lemma UnclosedBracketExample(isIPv6: string -> bool, parsePort: string -> Port)
    ensures FromString("[2001:db8::1", isIPv6, parsePort) == None
  {
    BracketWithoutClose("[2001:db8::1", isIPv6, parsePort);
  }

  lemma BareIPv6Example(isIPv6: string -> bool, parsePort: string -> Port)
    requires isIPv6("2001:db8::1")
    ensures FromString("2001:db8::1", isIPv6, parsePort) == Some(HostAndPort("2001:db8::1", Num(0)))
  {
    ManyColons("2001:db8::1", 4, 8, isIPv6, parsePort);
  }

  lemma BareInvalidIPv6Example(isIPv6: string -> bool, parsePort: string -> Port)
    requires !isIPv6("2001:db8:NOPE:1")
    ensures FromString("2001:db8:NOPE:1", isIPv6, parsePort) == None
  {
    ManyColons("2001:db8:NOPE:1", 4, 8, isIPv6, parsePort);
  }

  lemma IPv4Example(isIPv6: string -> bool, parsePort: string -> Port)
    ensures FromString("192.0.0.1", isIPv6, parsePort) == Some(HostAndPort("192.0.0.1", Num(0)))
  {
    NoColon("192.0.0.1", isIPv6, parsePort);
  }

  lemma IPv4WithPortExample(isIPv6: string -> bool, parsePort: string -> Port)
    requires parsePort("80") == Num(80)
    ensures FromString("192.0.0.1:80", isIPv6, parsePort) == Some(HostAndPort("192.0.0.1", Num(80)))
  {
    assert "192.0.0.1:80" == "192.0.0.1" + ":" + "80";
    OneColon("192.0.0.1", "80", isIPv6, parsePort);
  }

  lemma IPv4DoubleColonExample(isIPv6: string -> bool, parsePort: string -> Port)
    requires !isIPv6("192.0.0.1::80")
    ensures FromString("192.0.0.1::80", isIPv6, parsePort) == None
  {
    ManyColons("192.0.0.1::80", 9, 10, isIPv6, parsePort);
  }

  lemma HostNameExample(isIPv6: string -> bool, parsePort: string -> Port)
    ensures FromString("example.com", isIPv6, parsePort) == Some(HostAndPort("example.com", Num(0)))
  {
    NoColon("example.com", isIPv6, parsePort);
  }

  lemma HostNameWithPortExample(isIPv6: string -> bool, parsePort: string -> Port)
    requires parsePort("80") == Num(80)
    ensures FromString("example.com:80", isIPv6, parsePort) == Some(HostAndPort("example.com", Num(80)))
  {
    assert "example.com:80" == "example.com" + ":" + "80";
    OneColon("example.com", "80", isIPv6, parsePort);
  }
}

=== FILE: layered_discovery.dfy ===
/**
 * The lifecycle of layered discoveries (LayeredServiceDiscovery): a chain
 * whose first discovery is a plain one and whose every later discovery is a
 * layer over the one before it. A layer subscribes to its parent when it is
 * created; `release` unsubscribes it and destroys it alone; `destroy`
 * destroys the parent first, then releases the layer. Destroying a
 * discovery emits its destroy event, which the subscribed layer below
 * answers with its own `destroy`.
 *
 * Discovery `i` of the chain is position `i` of the sequences below;
 * `emitted` records the destroy events in the order they are emitted.
 */
module LayeredDiscovery {

  /** The number of discoveries of the chain not yet destroyed. */
  function LiveCount(destroyed: seq<bool>): (n: nat)
    ensures n <= |destroyed|
  {
    if destroyed == [] then 0 else (if destroyed[0] then 0 else 1) + LiveCount(destroyed[1..])
  }

  /** Destroying one more discovery leaves one fewer alive. */
  lemma {:induction false} LiveCountDrop(destroyed: seq<bool>, i: int)
    requires 0 <= i < |destroyed| && !destroyed[i]
    ensures LiveCount(destroyed[i := true]) == LiveCount(destroyed) - 1
  {
    if i > 0 {
      assert destroyed[i := true][1..] == destroyed[1..][i - 1 := true];
      LiveCountDrop(destroyed[1..], i - 1);
    }
  }

  /** Destroying discoveries never brings one back to life. */
  lemma {:induction false} LiveCountMonotone(before: seq<bool>, after: seq<bool>)
    requires |before| == |after| && forall j :: 0 <= j < |before| && before[j] ==> after[j]
    ensures LiveCount(after) <= LiveCount(before)
  {
    if before != [] {
      LiveCountMonotone(before[1..], after[1..]);
    }
  }

  /**
   * Where the climb of `destroy` from discovery `i` stops: the topmost of the
   * live discoveries directly above `i`, which is the first discovery or one
   * whose parent is destroyed.
   */
  function RunStart(destroyed: seq<bool>, i: int): (r: int)
    requires 0 <= i < |destroyed|
    ensures 0 <= r <= i
    ensures r > 0 ==> destroyed[r - 1]
    ensures forall j :: r <= j < i ==> !destroyed[j]
    decreases i
  {
    if i == 0 || destroyed[i - 1] then i else RunStart(destroyed, i - 1)
  }

  /**
   * Where the cascade of destroy events from discovery `i` stops: the first
   * destroyed discovery below `i`, or the end of the chain.
   */
  function RunEnd(destroyed: seq<bool>, i: int): (r: int)
    requires 0 <= i < |destroyed|
    ensures i < r <= |destroyed|
    ensures r < |destroyed| ==> destroyed[r]
    ensures forall j :: i < j < r ==> !destroyed[j]
    decreases |destroyed| - i
  {
    if i + 1 == |destroyed| || destroyed[i + 1] then i + 1 else RunEnd(destroyed, i + 1)
  }

  /** The flags after destroying the discoveries at positions `lo` up to `hi` (exclusive). */
  function DestroyRange(destroyed: seq<bool>, lo: int, hi: int): (r: seq<bool>)
    ensures |r| == |destroyed|
    ensures forall j :: 0 <= j < |r| ==> r[j] == (destroyed[j] || lo <= j < hi)
  {
    seq(|destroyed|, j requires 0 <= j < |destroyed| => destroyed[j] || lo <= j < hi)
  }

  /** The positions `lo` up to `hi` (exclusive), top of the chain first. */
  function Range(lo: int, hi: int): (r: seq<int>)
    requires lo <= hi
    ensures |r| == hi - lo
    decreases hi - lo
  {
    if lo == hi then [] else [lo] + Range(lo + 1, hi)
  }

  /** `Range` lists its positions in increasing order: a parent's before its layer's. */
  lemma {:induction false} RangeInOrder(lo: int, hi: int, k: int)
    requires lo <= hi && 0 <= k < hi - lo
    ensures Range(lo, hi)[k] == lo + k
    decreases hi - lo
  {
    if k > 0 {
      RangeInOrder(lo + 1, hi, k - 1);
    }
  }

  /** Destroying discovery `i` does not move where a cascade from below `i` stops. */
  lemma {:induction false} RunEndAfter(destroyed: seq<bool>, i: int, k: int)
    requires 0 <= i < k < |destroyed|
    ensures RunEnd(destroyed[i := true], k) == RunEnd(destroyed, k)
    decreases |destroyed| - k
  {
    if k + 1 < |destroyed| && !destroyed[k + 1] {
      RunEndAfter(destroyed, i, k + 1);
    }
  }

  /** Destroying `i` and then the run below it is destroying the run from `i`. */
  lemma DestroyRangeStep(destroyed: seq<bool>, i: int, hi: int)
    requires 0 <= i < hi && i < |destroyed|
    ensures DestroyRange(destroyed[i := true], i + 1, hi) == DestroyRange(destroyed, i, hi)
  {
    var a, b := DestroyRange(destroyed[i := true], i + 1, hi), DestroyRange(destroyed, i, hi);
    forall j | 0 <= j < |destroyed|
      ensures a[j] == b[j]
    {
      assert destroyed[i := true][j] == (destroyed[j] || j == i);
    }
  }

  /**
   * From a live layer the climb and the cascade are those of its parent when
   * the parent is alive; when the parent is destroyed the climb stops at the layer.
   */
  lemma ParentRun(destroyed: seq<bool>, i: int)
    requires 1 <= i < |destroyed| && !destroyed[i]
    ensures !destroyed[i - 1] ==> RunStart(destroyed, i - 1) == RunStart(destroyed, i) && RunEnd(destroyed, i - 1) == RunEnd(destroyed, i)
    ensures destroyed[i - 1] ==> RunStart(destroyed, i) == i
  {
  }

  /** A chain whose discoveries down to `i` are all alive is destroyed from its very first discovery. */
  lemma {:induction false} DestroyReachesRoot(destroyed: seq<bool>, i: int)
    requires 0 <= i < |destroyed|
    requires forall j :: 0 <= j < i ==> !destroyed[j]
    ensures RunStart(destroyed, i) == 0
    decreases i
  {
    if i > 0 {
      DestroyReachesRoot(destroyed, i - 1);
    }
  }

  class LayerChain {
    /** Whether each discovery of the chain is destroyed. */
    var destroyed: seq<bool>
    /** Whether each layer's four handlers are subscribed to its parent; the first discovery has no parent. */
    var subscribed: seq<bool>
    /** The destroy events, by position, in the order they were emitted. */
    var emitted: seq<int>

    /**
     * The subscriptions of every layer but `except` agree with its flag: a
     * layer is subscribed exactly while it is alive.
     */
    ghost predicate Links(except: int)
      reads this
    {
      && |destroyed| == |subscribed| >= 1
      && !subscribed[0]
      && (forall m :: 1 <= m < |destroyed| && m != except ==> subscribed[m] == !destroyed[m])
    }

    ghost predicate Valid()
      reads this
    {
      Links(0)
    }

    /** A chain of one plain discovery, alive and with nothing emitted. */
    constructor ()
      ensures Valid()
      ensures destroyed == [false] && subscribed == [false] && emitted == []
    {
      destroyed := [false];
      subscribed := [false];
      emitted := [];
    }

    /**
     * Constructing a layer over the last discovery of the chain: its four
     * handlers are subscribed, whether or not that discovery is destroyed.
     */
    method AddLayer() returns (i: int)
      requires Valid()
      modifies this
      ensures Valid() && i == old(|destroyed|)
      ensures destroyed == old(destroyed) + [false] && subscribed == old(subscribed) + [true]
      ensures emitted == old(emitted)
    {
      i := |destroyed|;
      destroyed := destroyed + [false];
      subscribed := subscribed + [true];
    }

    /**
     * The base `destroy` of discovery `i` (the whole `destroy` of the first
     * discovery): a destroyed discovery does nothing; otherwise it is marked
     * destroyed and emits its destroy event, which destroys the subscribed
     * layer below, and so on down to the first destroyed discovery.
     */
    method BaseDestroy(i: int)
      requires Links(i) && 0 <= i < |destroyed| && !subscribed[i]
      modifies this
      ensures Valid()
      ensures old(destroyed[i]) ==> destroyed == old(destroyed) && subscribed == old(subscribed) && emitted == old(emitted)
      ensures !old(destroyed[i]) ==>
        var end := RunEnd(old(destroyed), i);
        destroyed == DestroyRange(old(destroyed), i, end) && emitted == old(emitted) + Range(i, end)
      decreases LiveCount(destroyed), i, 0
    {
      if destroyed[i] {
        return;
      }
      ghost var d0, e0 := destroyed, emitted;
      var end := RunEnd(destroyed, i);
      LiveCountDrop(destroyed, i);
      destroyed := destroyed[i := true];
      emitted := emitted + [i];
      DestroyRangeStep(d0, i, end);
      assert Range(i, end) == [i] + Range(i + 1, end);
      if i + 1 < |destroyed| && subscribed[i + 1] {
        RunEndAfter(d0, i, i + 1);
        LayerDestroy(i + 1);
      } else {
        assert end == i + 1;
        assert DestroyRange(destroyed, i + 1, end) == destroyed;
      }
    }

    /**
     * `release` of layer `i`: a destroyed layer does nothing; otherwise its
     * handlers are unsubscribed from the parent and it is destroyed, which
     * leaves the parent and every discovery above untouched.
     */
    method Release(i: int)
      requires Valid() && 1 <= i < |destroyed|
      modifies this
      ensures Valid()
      ensures old(destroyed[i]) ==> destroyed == old(destroyed) && subscribed == old(subscribed) && emitted == old(emitted)
      ensures !old(destroyed[i]) ==>
        var end := RunEnd(old(destroyed), i);
        destroyed == DestroyRange(old(destroyed), i, end) && emitted == old(emitted) + Range(i, end)
      ensures forall j :: 0 <= j < i ==> destroyed[j] == old(destroyed[j])
      decreases LiveCount(destroyed), i, 1
    {
      if destroyed[i] {
        return;
      }
      subscribed := subscribed[i := false];
      BaseDestroy(i);
    }

    /**
     * `destroy` of layer `i`: a destroyed layer does nothing; otherwise the
     * parent is destroyed first and the layer then released. The discoveries
     * destroyed are the live ones directly above `i` and the live ones
     * directly below, their destroy events emitted from the top down.
     */
    method LayerDestroy(i: int)
      requires Valid() && 1 <= i < |destroyed|
      modifies this
      ensures Valid()
      ensures old(destroyed[i]) ==> destroyed == old(destroyed) && subscribed == old(subscribed) && emitted == old(emitted)
      ensures !old(destroyed[i]) ==>
        var start, end := RunStart(old(destroyed), i), RunEnd(old(destroyed), i);
        destroyed == DestroyRange(old(destroyed), start, end) && emitted == old(emitted) + Range(start, end)
      decreases LiveCount(destroyed), i, 2
    {
      if destroyed[i] {
        return;
      }
      ghost var d0 := destroyed;
      ParentRun(destroyed, i);
      if i == 1 {
        BaseDestroy(0);
      } else {
        LayerDestroy(i - 1);
      }
      LiveCountMonotone(d0, destroyed);
      Release(i);
    }
  }

  /**
   * After `destroy` on a live layer whose ancestors are all alive, every
   * ancestor is destroyed, and each parent's destroy event comes before its
   * layer's.
   */
  lemma DestroyTopDown(destroyed: seq<bool>, i: int)
    requires 1 <= i < |destroyed| && forall j :: 0 <= j <= i ==> !destroyed[j]
    ensures var after := DestroyRange(destroyed, RunStart(destroyed, i), RunEnd(destroyed, i));
      forall j :: 0 <= j <= i ==> after[j]
    ensures var events := Range(RunStart(destroyed, i), RunEnd(destroyed, i));
      forall k :: 0 <= k <= i ==> events[k] == k
  {
    DestroyReachesRoot(destroyed, i);
    forall k | 0 <= k <= i
      ensures Range(0, RunEnd(destroyed, i))[k] == k
    {
      RangeInOrder(0, RunEnd(destroyed, i), k);
    }
  }
}

=== FILE: legacy_basic.dfy ===
/**
 * The legacy JavaScript registry (lib/basic.js `BasicDiscovery`): a map from
 * identifier to a registration holding the FIRST service seen under that
 * identifier, an availability flag and the time it was last seen. Unlike the
 * TypeScript registry it has no update event: a service seen again only
 * refreshes its `lastSeen`. It also has an `active` flag toggled by
 * `start`/`stop`.
 *
 * The functions on `Store` say what each operation does to a value; the class
 * `LegacyBasicDiscovery` performs the same steps in place and is proved equal
 * to them. The clock (`Date.now`) is the parameter `now`.
 */
module LegacyBasic {
  import opened Common

  /** What is kept per identifier: the first service seen, whether it is available, when it was last seen. */
  datatype Registration = Registration(data: Service, available: bool, lastSeen: real)

  /** The map of registrations together with its iteration (insertion) order. */
  datatype Store = Store(registrations: map<string, Registration>, order: seq<string>)

  /** The result of one mutation: the new store and the events emitted, in order. */
  datatype Step = Step(store: Store, events: seq<Event>)

  /** The result of a batch of mutations that stops at the first error thrown. */
  datatype Batch = Batch(store: Store, events: seq<Event>, error: Option<string>)

  const Empty: Store := Store(map[], [])

  /**
   * The order lists every key once; every registration is filed under its
   * service's non-empty identifier and is available (a removal deletes the
   * registration outright, so an unavailable one is never kept).
   */
  ghost predicate WellFormed(st: Store) {
    && Distinct(st.order)
    && (forall k :: k in st.order <==> k in st.registrations)
    && (forall k :: k in st.registrations ==>
          k != "" && st.registrations[k].data.id == k && st.registrations[k].available)
  }

  /** The data of the available registrations at the keys `ks`, in the order of `ks`. */
  function AvailableData(m: map<string, Registration>, ks: seq<string>): (r: seq<Service>)
    requires forall k :: k in ks ==> k in m
    ensures |r| <= |ks|
    ensures forall s :: s in r ==> exists k :: k in ks && m[k].available && m[k].data == s
  {
    if ks == [] then []
    else (if m[ks[0]].available then [m[ks[0]].data] else []) + AvailableData(m, ks[1..])
  }

  /** The `services` getter: the data of the available registrations in insertion order. */
  function Services(st: Store): seq<Service>
    requires forall k :: k in st.order ==> k in st.registrations
  {
    AvailableData(st.registrations, st.order)
  }

  /**
   * `[addService]`: throws on an empty identifier. Otherwise an unseen
   * identifier gets a registration holding this service; either way the
   * registration is marked available and seen at `now`, and `available` is
   * emitted (with the registration's data) only when it was not available before.
   */
  function Add(st: Store, s: Service, now: real): (r: Result<Step>)
    ensures r.Err? <==> s.id == ""
    ensures r.Ok? ==> r.value.store.registrations.Keys == st.registrations.Keys + {s.id}
    ensures r.Ok? ==>
      var reg := r.value.store.registrations[s.id];
      reg.available && reg.lastSeen == now
      && reg.data == (if s.id in st.registrations then st.registrations[s.id].data else s)
    ensures r.Ok? ==> forall k :: k in st.registrations && k != s.id ==>
      r.value.store.registrations[k] == st.registrations[k]
    ensures r.Ok? && WellFormed(st) ==> WellFormed(r.value.store)
  {
    if s.id == "" then Err("Services must have an identifier")
    else
      var isNew := s.id !in st.registrations;
      var registration := if isNew then Registration(s, false, now) else st.registrations[s.id];
      var order := if isNew then st.order + [s.id] else st.order;
      assert WellFormed(st) && isNew ==> Distinct(order) by {
        if WellFormed(st) && isNew {
          DistinctAppend(st.order, s.id);
        }
      }
      var updated := registration.(lastSeen := now, available := true);
      var events := if registration.available then [] else [Available(registration.data)];
      Ok(Step(Store(st.registrations[s.id := updated], order), events))
  }

  /**
   * `[removeService]` of an identifier: a tracked one is deleted, and
   * `unavailable` emitted with its data if it was available; an unknown one
   * changes nothing.
   */
  function Remove(st: Store, id: string): (r: Step)
    ensures r.store.registrations == st.registrations - {id}
    ensures WellFormed(st) ==> WellFormed(r.store)
    ensures id !in st.registrations ==> r.store == st && r.events == []
  {
    if id in st.registrations then
      var registration := st.registrations[id];
      Step(Store(st.registrations - {id}, Without(st.order, id)),
           if registration.available then [Unavailable(registration.data)] else [])
    else
      assert st.registrations - {id} == st.registrations;
      Step(st, [])
  }

  /** The identifier a removal argument names: the string itself or the service's `id`. */
  function TargetId(t: Target): string
    requires !t.Nothing?
  {
    if t.ById? then t.id else t.service.id
  }

  /** The first loop of `[setServices]`: add each service, stopping at a throw. */
  function AddAll(st: Store, xs: seq<Service>, now: real): (r: Batch)
    ensures r.error.None? <==> Identified(xs)
    ensures WellFormed(st) ==> WellFormed(r.store)
    decreases |xs|
  {
    if xs == [] then Batch(st, [], None)
    else
      match Add(st, xs[0], now)
      case Err(e) => Batch(st, [], Some(e))
      case Ok(step) =>
        var rest := AddAll(step.store, xs[1..], now);
        Batch(rest.store, step.events + rest.events, rest.error)
  }

  /** Adding a service with an identifier, then the rest: the first loop unfolded once. */
  lemma AddAllCons(st: Store, x: Service, xs: seq<Service>, now: real)
    requires x.id != ""
    ensures var step := Add(st, x, now).value; var rest := AddAll(step.store, xs, now);
      AddAll(st, [x] + xs, now) == Batch(rest.store, step.events + rest.events, rest.error)
  {
    assert ([x] + xs)[0] == x && ([x] + xs)[1..] == xs;
  }

  /** The second loop of `[setServices]`: remove each key of `keys` not in `keep`. */
  function RemoveAbsent(st: Store, keys: seq<string>, keep: set<string>): (r: Batch)
    ensures r.error == None
    ensures WellFormed(st) ==> WellFormed(r.store)
    decreases |keys|
  {
    if keys == [] then Batch(st, [], None)
    else if keys[0] in keep then RemoveAbsent(st, keys[1..], keep)
    else
      var step := Remove(st, keys[0]);
      var rest := RemoveAbsent(step.store, keys[1..], keep);
      Batch(rest.store, step.events + rest.events, None)
  }

  /**
   * `[setServices]`: add every service, then remove every tracked identifier
   * that the input does not mention. A throw in the first loop ends the call
   * with the additions made so far.
   */
  function Reconcile(st: Store, xs: seq<Service>, now: real): Batch {
    var added := AddAll(st, xs, now);
    if added.error.Some? then added
    else
      var removed := RemoveAbsent(added.store, added.store.order, Ids(xs));
      Batch(removed.store, added.events + removed.events, None)
  }

  /** The first service of `xs` with identifier `id`, if any. */
  function FirstWithId(xs: seq<Service>, id: string): (r: Option<Service>)
    ensures r.Some? <==> id in Ids(xs)
    ensures r.Some? ==> exists i :: 0 <= i < |xs| && xs[i] == r.value && r.value.id == id
  {
    if xs == [] then None
    else if xs[0].id == id then Some(xs[0])
    else FirstWithId(xs[1..], id)
  }

  // ---------------------------------------------------------------------
  // Properties of the legacy registry
  // ---------------------------------------------------------------------

  /** In a well-formed store every registration is available, so `services` lists the data of every key in order. */
  lemma {:induction false} ServicesListsAll(m: map<string, Registration>, ks: seq<string>)
    requires forall k :: k in ks ==> k in m && m[k].available
    ensures |AvailableData(m, ks)| == |ks|
    ensures forall i :: 0 <= i < |ks| ==> AvailableData(m, ks)[i] == m[ks[i]].data
  {
    if ks != [] {
      ServicesListsAll(m, ks[1..]);
      assert AvailableData(m, ks) == [m[ks[0]].data] + AvailableData(m, ks[1..]);
    }
  }

  /** A first sighting appends the service to `services` and announces it once. */
  lemma AddNew(st: Store, s: Service, now: real)
    requires WellFormed(st) && s.id != "" && s.id !in st.registrations
    ensures Add(st, s, now).Ok?
    ensures var step := Add(st, s, now).value;
      step.events == [Available(s)] && Services(step.store) == Services(st) + [s]
  {
    var step := Add(st, s, now).value;
    ServicesListsAll(st.registrations, st.order);
    ServicesListsAll(step.store.registrations, step.store.order);
    var before, after := Services(st), Services(step.store);
    forall i | 0 <= i < |before|
      ensures after[i] == before[i]
    {
      assert st.order[i] != s.id;
    }
  }

  /**
   * Seeing a tracked identifier again emits nothing and keeps the
   * first-seen data, whatever the new service holds: `services` is unchanged.
   */
  lemma AddKnown(st: Store, s: Service, now: real)
    requires WellFormed(st) && s.id in st.registrations
    ensures Add(st, s, now).Ok?
    ensures var step := Add(st, s, now).value;
      && step.events == []
      && step.store.registrations[s.id].data == st.registrations[s.id].data
      && Services(step.store) == Services(st)
  {
    var step := Add(st, s, now).value;
    ServicesListsAll(st.registrations, st.order);
    ServicesListsAll(step.store.registrations, step.store.order);
  }

  /** Dropping a key from the order drops its data from `services`, keeping the rest in order. */
  lemma {:induction false} AvailableDataWithout(m: map<string, Registration>, ks: seq<string>, id: string)
    requires forall k :: k in ks ==> k in m && m[k].data.id == k
    ensures forall k :: k in Without(ks, id) ==> k in m - {id}
    ensures AvailableData(m - {id}, Without(ks, id)) == Filter((s: Service) => s.id != id, AvailableData(m, ks))
  {
    if ks != [] {
      AvailableDataWithout(m, ks[1..], id);
      var head := if m[ks[0]].available then [m[ks[0]].data] else [];
      assert AvailableData(m, ks) == head + AvailableData(m, ks[1..]);
      assert Without(ks, id) == (if ks[0] == id then [] else [ks[0]]) + Without(ks[1..], id);
      var keep := (s: Service) => s.id != id;
      FilterConcat(keep, head, AvailableData(m, ks[1..]));
      if ks[0] != id {
        assert (m - {id})[ks[0]] == m[ks[0]];
        assert Without(ks, id) == [ks[0]] + Without(ks[1..], id);
        assert AvailableData(m - {id}, Without(ks, id))
            == head + AvailableData(m - {id}, Without(ks[1..], id));
        assert Filter(keep, head) == head;
      } else {
        assert Without(ks, id) == Without(ks[1..], id);
        assert Filter(keep, head) == [];
      }
    }
  }

  /**
   * Removing a tracked identifier deletes only that key, announces its data
   * unavailable, and leaves the rest of `services` in order.
   */
  lemma RemoveKnown(st: Store, id: string)
    requires WellFormed(st) && id in st.registrations
    ensures var step := Remove(st, id);
      && step.events == [Unavailable(st.registrations[id].data)]
      && Services(step.store) == Filter((s: Service) => s.id != id, Services(st))
  {
    AvailableDataWithout(st.registrations, st.order, id);
  }

  /** After the first loop, the tracked keys are the old ones and the input identifiers. */
  lemma {:induction false} AddAllKeys(st: Store, xs: seq<Service>, now: real)
    requires forall i :: 0 <= i < |xs| ==> xs[i].id != ""
    ensures AddAll(st, xs, now).store.registrations.Keys == st.registrations.Keys + Ids(xs)
    decreases |xs|
  {
    if xs != [] {
      var step := Add(st, xs[0], now).value;
      assert forall i :: 0 <= i < |xs| - 1 ==> xs[1..][i] == xs[i + 1];
      AddAllKeys(step.store, xs[1..], now);
    }
  }

  /** The first loop never changes the data of an identifier already tracked. */
  lemma {:induction false} AddAllKeepsData(st: Store, xs: seq<Service>, now: real, id: string)
    requires id in st.registrations
    ensures id in AddAll(st, xs, now).store.registrations
    ensures AddAll(st, xs, now).store.registrations[id].data == st.registrations[id].data
    decreases |xs|
  {
    if xs != [] {
      match Add(st, xs[0], now)
      case Err(_) =>
      case Ok(step) => AddAllKeepsData(step.store, xs[1..], now, id);
    }
  }

  /** After the first loop, an identifier not tracked before holds the FIRST service of the input with it. */
  lemma {:induction false} AddAllFirst(st: Store, xs: seq<Service>, now: real, id: string)
    requires forall i :: 0 <= i < |xs| ==> xs[i].id != ""
    requires id !in st.registrations && id in Ids(xs)
    ensures id in AddAll(st, xs, now).store.registrations
    ensures AddAll(st, xs, now).store.registrations[id].data == FirstWithId(xs, id).value
    decreases |xs|
  {
    var step := Add(st, xs[0], now).value;
    var tail := xs[1..];
    assert forall i :: 0 <= i < |tail| ==> tail[i] == xs[i + 1];
    assert AddAll(st, xs, now).store == AddAll(step.store, tail, now).store;
    if xs[0].id == id {
      AddAllKeepsData(step.store, tail, now, id);
    } else {
      assert Ids(xs) == {xs[0].id} + Ids(tail);
      AddAllFirst(step.store, tail, now, id);
    }
  }

  /** After the second loop over `keys`, exactly the keys listed and not kept are gone. */
  lemma {:induction false} RemoveAbsentContents(st: Store, keys: seq<string>, keep: set<string>)
    ensures RemoveAbsent(st, keys, keep).store.registrations
         == (map k | k in st.registrations && (k !in keys || k in keep) :: st.registrations[k])
    decreases |keys|
  {
    if keys != [] {
      if keys[0] in keep {
        RemoveAbsentContents(st, keys[1..], keep);
      } else {
        RemoveAbsentContents(Remove(st, keys[0]).store, keys[1..], keep);
      }
    }
  }

  /**
   * `[setServices]` over services that all have identifiers: the tracked keys
   * become exactly the input identifiers; an identifier tracked before keeps
   * its first-seen data, and a new one holds the first input service with it.
   */
  lemma {:induction false} ReconcileContents(st: Store, xs: seq<Service>, now: real)
    requires WellFormed(st)
    requires forall i :: 0 <= i < |xs| ==> xs[i].id != ""
    ensures var r := Reconcile(st, xs, now);
      && r.error == None
      && WellFormed(r.store)
      && r.store.registrations.Keys == Ids(xs)
      && forall id :: id in Ids(xs) ==>
           r.store.registrations[id].data ==
             if id in st.registrations then st.registrations[id].data else FirstWithId(xs, id).value
  {
    IdentifiedEverywhere(xs);
    var added := AddAll(st, xs, now);
    AddAllKeys(st, xs, now);
    forall id | id in Ids(xs)
      ensures added.store.registrations[id].data ==
        if id in st.registrations then st.registrations[id].data else FirstWithId(xs, id).value
    {
      if id in st.registrations {
        AddAllKeepsData(st, xs, now, id);
      } else {
        AddAllFirst(st, xs, now, id);
      }
    }
    RemoveAbsentContents(added.store, added.store.order, Ids(xs));
  }

  class LegacyBasicDiscovery {
    /** The registrations by identifier. */
    var registrations: map<string, Registration>
    /** The iteration order of `registrations`. */
    var order: seq<string>
    /** Whether the discovery is started. */
    var active: bool
    /** Every event emitted so far, in emission order. */
    var log: seq<Event>

    function Snapshot(): Store
      reads this
    {
      Store(registrations, order)
    }

    ghost predicate Valid()
      reads this
    {
      WellFormed(Snapshot())
    }

    /** A stopped discovery with no registrations. */
    constructor ()
      ensures Valid()
      ensures Snapshot() == Empty && !active && log == []
    {
      registrations, order, active, log := map[], [], false, [];
    }

    /** The `services` getter. */
    function AvailableServices(): (r: seq<Service>)
      reads this
      requires Valid()
      ensures r == Services(Snapshot())
      ensures |r| == |order| && forall i :: 0 <= i < |r| ==> r[i] == registrations[order[i]].data
    {
      ServicesListsAll(registrations, order);
      Services(Snapshot())
    }

    /** `start`: the discovery becomes active; nothing else changes. */
    method Start()
      modifies this`active
      ensures active
    {
      active := true;
    }

    /** `stop`: the discovery becomes inactive; nothing else changes. */
    method Stop()
      modifies this`active
      ensures !active
    {
      active := false;
    }

    /** `[addService]`, as `Add` says. */
    method AddService(service: Service, now: real) returns (error: Option<string>)
      requires Valid()
      modifies this`registrations, this`order, this`log
      ensures Valid()
      ensures match Add(old(Snapshot()), service, now)
        case Err(e) => error == Some(e) && Snapshot() == old(Snapshot()) && log == old(log)
        case Ok(step) => error == None && Snapshot() == step.store && log == old(log) + step.events
    {
      if service.id == "" {
        return Some("Services must have an identifier");
      }
      var registration;
      if service.id in registrations {
        registration := registrations[service.id];
      } else {
        registration := Registration(service, false, now);
        order := order + [service.id];
      }
      var wasAvailable := registration.available;
      registrations := registrations[service.id := registration.(lastSeen := now, available := true)];
      if !wasAvailable {
        log := log + [Available(registration.data)];
      }
      assert Snapshot() == Add(old(Snapshot()), service, now).value.store;
      return None;
    }

    /** `[removeService]` given an identifier or a service, as `Remove` says. */
    method RemoveService(target: Target)
      requires Valid() && !target.Nothing?
      modifies this`registrations, this`order, this`log
      ensures Valid()
      ensures var step := Remove(old(Snapshot()), TargetId(target));
        Snapshot() == step.store && log == old(log) + step.events
    {
      var id := if target.ById? then target.id else target.service.id;
      if id in registrations {
        var registration := registrations[id];
        registrations := registrations - {id};
        order := Without(order, id);
        if registration.available {
          log := log + [Unavailable(registration.data)];
        }
      }
    }

    /**
     * `[setServices]`: add each service (collecting its identifier first),
     * then remove each tracked identifier the input did not mention.
     */
    method SetServices(available: seq<Service>, now: real) returns (error: Option<string>)
      requires Valid()
      modifies this`registrations, this`order, this`log
      ensures Valid()
      ensures var b := Reconcile(old(Snapshot()), available, now);
        error == b.error && Snapshot() == b.store && log == old(log) + b.events
    {
      var ids;
      ids, error := AddEach(available, now);
      if error.Some? {
        return;
      }
      ghost var added := AddAll(old(Snapshot()), available, now);
      RemoveAllExcept(ids);
      ghost var removed := RemoveAbsent(added.store, added.store.order, Ids(available));
      ConcatAssoc(old(log), added.events, removed.events);
    }

    /** The first loop of `[setServices]`: add each service in turn, stopping at a throw. */
    method AddEach(available: seq<Service>, now: real) returns (ids: set<string>, error: Option<string>)
      requires Valid()
      modifies this`registrations, this`order, this`log
      ensures Valid()
      ensures var b := AddAll(old(Snapshot()), available, now);
        error == b.error && Snapshot() == b.store && log == old(log) + b.events
      ensures error.None? ==> ids == Ids(available)
    {
      ghost var added := AddAll(Snapshot(), available, now);
      ids := {};
      var i := 0;
      while i < |available|
        invariant 0 <= i <= |available|
        invariant Valid()
        invariant Collected(ids, available, i)
        invariant Pending(available, now, i, added, old(log))
      {
        ids := CollectId(ids, available, i);
        error := AddNext(available, now, i, added, old(log));
        if error.Some? {
          return;
        }
        i := i + 1;
      }
      AllCollected(ids, available);
      PendingDone(available, now, added, old(log));
      error := None;
    }

    /** With nothing left to add, the registrations, error and events are those of `added`. */
    lemma PendingDone(available: seq<Service>, now: real, added: Batch, log0: seq<Event>)
      requires Pending(available, now, |available|, added, log0)
      ensures Snapshot() == added.store && added.error == None && log == log0 + added.events
    {
      assert available[|available|..] == [];
    }

    /**
     * Adding `available[i..]` to the current registrations ends with the
     * registrations, error and events of `added`, given the log `log0` it started from.
     */
    ghost predicate Pending(available: seq<Service>, now: real, i: int, added: Batch, log0: seq<Event>)
      reads this
      requires 0 <= i <= |available|
    {
      var rest := AddAll(Snapshot(), available[i..], now);
      rest.store == added.store && rest.error == added.error && log + rest.events == log0 + added.events
    }

    /** One turn of the first loop of `[setServices]`: add `available[i]`. */
    method AddNext(available: seq<Service>, now: real, i: int, ghost added: Batch, ghost log0: seq<Event>)
      returns (error: Option<string>)
      requires Valid() && 0 <= i < |available| && Pending(available, now, i, added, log0)
      modifies this`registrations, this`order, this`log
      ensures Valid()
      ensures error.None? ==> Pending(available, now, i + 1, added, log0)
      ensures error.Some? ==> added.error == error && Snapshot() == added.store && log == log0 + added.events
    {
      assert available[i..][1..] == available[i + 1..];
      ghost var before := Snapshot();
      error := AddService(available[i], now);
      if error.Some? {
        return;
      }
      ghost var step := Add(before, available[i], now).value;
      ghost var rest := AddAll(Snapshot(), available[i + 1..], now);
      assert AddAll(before, available[i..], now) == Batch(rest.store, step.events + rest.events, rest.error);
      ConcatAssoc(old(log), step.events, rest.events);
    }

    /**
     * The second loop of `[setServices]`: remove every tracked identifier not
     * in `keep`, visiting the keys in insertion order.
     */
    method RemoveAllExcept(keep: set<string>)
      requires Valid()
      modifies this`registrations, this`order, this`log
      ensures Valid()
      ensures var b := RemoveAbsent(old(Snapshot()), old(order), keep);
        Snapshot() == b.store && log == old(log) + b.events
    {
      ghost var removed := RemoveAbsent(Snapshot(), order, keep);
      var tracked := order;
      var j := 0;
      while j < |tracked|
        invariant 0 <= j <= |tracked|
        invariant Valid()
        invariant RemoveAbsent(Snapshot(), tracked[j..], keep).store == removed.store
        invariant log + RemoveAbsent(Snapshot(), tracked[j..], keep).events == old(log) + removed.events
      {
        assert tracked[j..][1..] == tracked[j + 1..];
        if tracked[j] !in keep {
          ghost var before := Snapshot();
          ghost var log2 := log;
          RemoveService(ById(tracked[j]));
          ghost var rest := RemoveAbsent(Snapshot(), tracked[j + 1..], keep);
          ghost var step := Remove(before, tracked[j]);
          assert RemoveAbsent(before, tracked[j..], keep) == Batch(rest.store, step.events + rest.events, None);
          ConcatAssoc(log2, step.events, rest.events);
        }
        j := j + 1;
      }
    }
  }
}

=== FILE: legacy_filtered.dfy ===
/**
 * The legacy JavaScript filtered view (lib/filtered.js `FilteredDiscovery`):
 * it keeps no services of its own. Its `services` and `active` are read from
 * the parent, and while its two handlers are subscribed it re-emits each
 * parent `available`/`unavailable` whose service passes the filter.
 *
 * The parent is a legacy registry; the handlers' subscription is the flag
 * `subscribed`, and the view's emitted events are the log `log`.
 */
module LegacyFiltered {
  import opened Common
  import LegacyBasic

  /** Whether the view re-emits parent event `e`: an availability change of a service that passes the filter. */
  predicate Passes(filter: Service -> bool, e: Event) {
    (e.Available? || e.Unavailable?) && filter(e.service)
  }

  /** What the subscribed view emits for the parent events `events`: those that pass, in order. */
  function ForwardAll(filter: Service -> bool, events: seq<Event>): (r: seq<Event>)
    ensures |r| <= |events|
    ensures forall e :: e in r <==> e in events && Passes(filter, e)
  {
    if events == [] then []
    else (if Passes(filter, events[0]) then [events[0]] else []) + ForwardAll(filter, events[1..])
  }

  /** The view's `services` over a parent store: the parent's list, filtered. */
  function View(filter: Service -> bool, st: LegacyBasic.Store): seq<Service>
    requires forall k :: k in st.order ==> k in st.registrations
  {
    Filter(filter, LegacyBasic.Services(st))
  }

  /**
   * What the view emits for a parent `[addService]` is exactly the change of
   * its `services`: a new service that passes the filter is appended and
   * announced; anything else changes neither.
   */
  lemma AddForwardsViewChange(filter: Service -> bool, st: LegacyBasic.Store, s: Service, now: real)
    requires LegacyBasic.WellFormed(st) && s.id != ""
    ensures LegacyBasic.Add(st, s, now).Ok?
    ensures var step := LegacyBasic.Add(st, s, now).value;
      var fwd := ForwardAll(filter, step.events);
      && (fwd != [] <==> s.id !in st.registrations && filter(s))
      && (fwd != [] ==> fwd == [Available(s)] && View(filter, step.store) == View(filter, st) + [s])
      && (fwd == [] ==> View(filter, step.store) == View(filter, st))
  {
    if s.id in st.registrations {
      LegacyBasic.AddKnown(st, s, now);
    } else {
      ViewAppend(filter, st, s, now);
      assert ForwardAll(filter, [Available(s)]) == (if filter(s) then [Available(s)] else []);
    }
  }

  /** A first sighting in the parent appends the service to the view when it passes the filter. */
  lemma ViewAppend(filter: Service -> bool, st: LegacyBasic.Store, s: Service, now: real)
    requires LegacyBasic.WellFormed(st) && s.id != "" && s.id !in st.registrations
    ensures LegacyBasic.Add(st, s, now).Ok?
    ensures var step := LegacyBasic.Add(st, s, now).value;
      && step.events == [Available(s)]
      && View(filter, step.store) == View(filter, st) + (if filter(s) then [s] else [])
  {
    LegacyBasic.AddNew(st, s, now);
    FilterConcat(filter, LegacyBasic.Services(st), [s]);
    assert Filter(filter, [s]) == (if filter(s) then [s] else []);
  }

  /**
   * What the view emits for a parent `[removeService]` is exactly the change
   * of its `services`: the identifier's service leaves the view, and is
   * announced unavailable when it was in the view.
   */
  lemma RemoveForwardsViewChange(filter: Service -> bool, st: LegacyBasic.Store, id: string)
    requires LegacyBasic.WellFormed(st)
    ensures var step := LegacyBasic.Remove(st, id);
      var fwd := ForwardAll(filter, step.events);
      && View(filter, step.store) == Filter((s: Service) => s.id != id, View(filter, st))
      && fwd == (if id in st.registrations && filter(st.registrations[id].data)
                 then [Unavailable(st.registrations[id].data)] else [])
      && (fwd != [] ==> st.registrations[id].data in View(filter, st))
  {
    ViewWithout(filter, st, id);
    if id in st.registrations {
      var d := st.registrations[id].data;
      assert LegacyBasic.Remove(st, id).events == [Unavailable(d)];
      assert ForwardAll(filter, [Unavailable(d)]) == (if filter(d) then [Unavailable(d)] else []);
      LegacyBasic.ServicesListsAll(st.registrations, st.order);
      var i :| 0 <= i < |st.order| && st.order[i] == id;
      assert LegacyBasic.Services(st)[i] == d;
    }
  }

  /** Removing an identifier from the parent removes exactly its service from the view, keeping the order. */
  lemma ViewWithout(filter: Service -> bool, st: LegacyBasic.Store, id: string)
    requires LegacyBasic.WellFormed(st)
    ensures View(filter, LegacyBasic.Remove(st, id).store) == Filter((s: Service) => s.id != id, View(filter, st))
  {
    var other := (s: Service) => s.id != id;
    var list := LegacyBasic.Services(st);
    if id in st.registrations {
      LegacyBasic.RemoveKnown(st, id);
    } else {
      LegacyBasic.ServicesListsAll(st.registrations, st.order);
      forall i | 0 <= i < |list|
        ensures other(list[i])
      {
        assert st.order[i] != id;
      }
      FilterKeepsAll(other, list);
    }
    FilterCommute(filter, other, list);
  }

  class LegacyFilteredDiscovery {
    const parent: LegacyBasic.LegacyBasicDiscovery
    const filter: Service -> bool
    /** Whether the two handlers are subscribed to the parent. */
    var subscribed: bool
    /** Every event the view emitted, in emission order. */
    var log: seq<Event>

    /** The handlers are subscribed only when the parent is already active. */
    constructor (parent: LegacyBasic.LegacyBasicDiscovery, filter: Service -> bool)
      ensures this.parent == parent && this.filter == filter
      ensures subscribed == parent.active && log == []
    {
      this.parent := parent;
      this.filter := filter;
      subscribed := parent.active;
      log := [];
    }

    /** The `services` getter: the parent's services that pass the filter, in the parent's order. */
    function AvailableServices(): (r: seq<Service>)
      reads this, parent
      requires parent.Valid()
      ensures r == View(filter, parent.Snapshot())
      ensures forall s :: s in r <==> s in parent.AvailableServices() && filter(s)
    {
      Filter(filter, parent.AvailableServices())
    }

    /** The `active` getter: the parent's flag. */
    function Active(): bool
      reads parent
    {
      parent.active
    }

    /** The `available` handler: re-emit when the service passes the filter. */
    method HandleAvailable(service: Service)
      modifies this`log
      ensures log == old(log) + ForwardAll(filter, [Available(service)])
      ensures log == old(log) + (if filter(service) then [Available(service)] else [])
    {
      if filter(service) {
        log := log + [Available(service)];
      }
    }

    /** The `unavailable` handler: re-emit when the removed service passes the filter. */
    method HandleUnavailable(service: Service)
      modifies this`log
      ensures log == old(log) + ForwardAll(filter, [Unavailable(service)])
      ensures log == old(log) + (if filter(service) then [Unavailable(service)] else [])
    {
      if filter(service) {
        log := log + [Unavailable(service)];
      }
    }

    /**
     * `start`: nothing when the parent is already active; otherwise the
     * handlers are subscribed and the parent started.
     */
    method Start()
      modifies this`subscribed, parent`active
      ensures Active()
      ensures subscribed == (old(subscribed) || !old(parent.active))
    {
      if parent.active {
        return;
      }
      subscribed := true;
      parent.Start();
    }

    /** `stop`: the parent is stopped and the handlers unsubscribed. */
    method Stop()
      modifies this`subscribed, parent`active
      ensures !Active() && !subscribed
    {
      parent.Stop();
      subscribed := false;
    }

    /**
     * The parent's `[addService]` with this view attached: the parent changes
     * as `Add` says, and a subscribed view re-emits what passes of the
     * parent's events.
     */
    method ParentAddService(service: Service, now: real) returns (error: Option<string>)
      requires parent.Valid()
      modifies parent`registrations, parent`order, parent`log, this`log
      ensures parent.Valid()
      ensures match LegacyBasic.Add(old(parent.Snapshot()), service, now)
        case Err(e) =>
          && error == Some(e) && parent.Snapshot() == old(parent.Snapshot())
          && parent.log == old(parent.log) && log == old(log)
        case Ok(step) =>
          && error == None && parent.Snapshot() == step.store
          && parent.log == old(parent.log) + step.events
          && log == old(log) + (if subscribed then ForwardAll(filter, step.events) else [])
    {
      var emitted := |parent.log|;
      error := parent.AddService(service, now);
      if subscribed && |parent.log| > emitted {
        HandleAvailable(parent.log[emitted].service);
      }
    }

    /**
     * The parent's `[removeService]` with this view attached: the parent
     * changes as `Remove` says, and a subscribed view re-emits what passes of
     * the parent's events.
     */
    method ParentRemoveService(target: Target)
      requires parent.Valid() && !target.Nothing?
      modifies parent`registrations, parent`order, parent`log, this`log
      ensures parent.Valid()
      ensures var step := LegacyBasic.Remove(old(parent.Snapshot()), LegacyBasic.TargetId(target));
        && parent.Snapshot() == step.store && parent.log == old(parent.log) + step.events
        && log == old(log) + (if subscribed then ForwardAll(filter, step.events) else [])
    {
      var emitted := |parent.log|;
      parent.RemoveService(target);
      if subscribed && |parent.log| > emitted {
        HandleUnavailable(parent.log[emitted].service);
      }
    }
  }
}

=== FILE: legacy_mapped.dfy ===
/**
 * The legacy JavaScript mapped view (lib/mapped.js `MappedDiscovery`): a
 * legacy registry of its own, fed by mapping each service its parent
 * announces. A mapped result is used only when it is present and has a
 * non-empty identifier; since the registry keeps the first service seen under
 * an identifier, two parent services mapped to the same identifier leave the
 * first mapped service in place.
 *
 * The view's inherited registry is the object `own`; the handlers'
 * subscription to the parent is the flag `subscribed`.
 */
module LegacyMapped {
  import opened Common
  import LegacyBasic

  /** `mapped && mapped.id`: the mapper gave a service with a non-empty identifier. */
  predicate Usable(mapped: Option<Service>) {
    mapped.Some? && mapped.value.id != ""
  }

  /** The usable mapped services of `xs`, in order: what a replay of `xs` adds. */
  function MapUsable(mapper: Service -> Option<Service>, xs: seq<Service>): (r: seq<Service>)
    ensures |r| <= |xs|
    ensures forall i :: 0 <= i < |r| ==> r[i].id != ""
    ensures forall m :: m in r ==> exists s :: s in xs && mapper(s) == Some(m)
  {
    if xs == [] then []
    else
      var rest := MapUsable(mapper, xs[1..]);
      assert forall m :: m in rest ==> exists s :: s in xs && mapper(s) == Some(m) by {
        forall m | m in rest
          ensures exists s :: s in xs && mapper(s) == Some(m)
        {
          var s :| s in xs[1..] && mapper(s) == Some(m);
          assert s in xs;
        }
      }
      (if Usable(mapper(xs[0])) then [mapper(xs[0]).value] else []) + rest
  }

  /**
   * Replaying parent services into a registry that does not yet track an
   * identifier leaves under it the FIRST usable mapped service with it.
   */
  lemma ReplayKeepsFirst(mapper: Service -> Option<Service>, xs: seq<Service>, st: LegacyBasic.Store, now: real, id: string)
    requires id !in st.registrations && id in Ids(MapUsable(mapper, xs))
    ensures var r := LegacyBasic.AddAll(st, MapUsable(mapper, xs), now);
      && r.error == None
      && id in r.store.registrations
      && r.store.registrations[id].data == LegacyBasic.FirstWithId(MapUsable(mapper, xs), id).value
  {
    IdentifiedEverywhere(MapUsable(mapper, xs));
    LegacyBasic.AddAllFirst(st, MapUsable(mapper, xs), now, id);
  }

  /**
   * Two parent services mapped to the same identifier, announced one after
   * the other: the second is absorbed silently and the first mapped service stays.
   */
  lemma SecondMappingAbsorbed(st: LegacyBasic.Store, first: Service, second: Service, now: real, later: real)
    requires LegacyBasic.WellFormed(st) && first.id != "" && second.id == first.id
    ensures LegacyBasic.Add(st, first, now).Ok?
    ensures var one := LegacyBasic.Add(st, first, now).value;
      && LegacyBasic.Add(one.store, second, later).Ok?
      && var two := LegacyBasic.Add(one.store, second, later).value;
      && two.events == []
      && two.store.registrations[first.id].data
         == (if first.id in st.registrations then st.registrations[first.id].data else first)
  {
    var one := LegacyBasic.Add(st, first, now).value;
    LegacyBasic.AddKnown(one.store, second, later);
  }

  class LegacyMappedDiscovery {
    const parent: LegacyBasic.LegacyBasicDiscovery
    const mapper: Service -> Option<Service>
    /** The registry this view inherits. */
    const own: LegacyBasic.LegacyBasicDiscovery
    /** Whether the two handlers are subscribed to the parent. */
    var subscribed: bool

    /** The inherited registry is well formed and is not the parent. */
    ghost predicate Valid()
      reads this, own
    {
      own.Valid() && own != parent
    }

    /**
     * The constructor as evidently intended: over an active parent the
     * handlers are subscribed, every service the parent lists is replayed
     * through the mapper, and the view is marked active; over an inactive
     * parent the view starts empty and stopped.
     */
    constructor (parent: LegacyBasic.LegacyBasicDiscovery, mapper: Service -> Option<Service>, now: real)
      requires parent.Valid()
      ensures Valid() && fresh(own) && this.parent == parent && this.mapper == mapper
      ensures subscribed == parent.active && own.active == parent.active
      ensures var replay := LegacyBasic.AddAll(LegacyBasic.Empty, MapUsable(mapper, parent.AvailableServices()), now);
        if parent.active then own.Snapshot() == replay.store && own.log == replay.events
        else own.Snapshot() == LegacyBasic.Empty && own.log == []
    {
      var registry := new LegacyBasic.LegacyBasicDiscovery();
      var active := parent.active;
      if active {
        Replay(registry, parent.AvailableServices(), mapper, now);
        registry.Start();
      }
      this.parent := parent;
      this.mapper := mapper;
      own := registry;
      subscribed := active;
    }

    /** The `available` handler: add the mapped service when it is usable. */
    method HandleAvailable(service: Service, now: real)
      requires Valid()
      modifies own`registrations, own`order, own`log
      ensures Valid()
      ensures var mapped := mapper(service);
        if Usable(mapped) then
          var step := LegacyBasic.Add(old(own.Snapshot()), mapped.value, now).value;
          own.Snapshot() == step.store && own.log == old(own.log) + step.events
        else own.Snapshot() == old(own.Snapshot()) && own.log == old(own.log)
    {
      var mapped := mapper(service);
      if mapped.Some? && mapped.value.id != "" {
        var _ := own.AddService(mapped.value, now);
      }
    }

    /** The `unavailable` handler: map the service again and remove the mapped identifier when usable. */
    method HandleUnavailable(service: Service)
      requires Valid()
      modifies own`registrations, own`order, own`log
      ensures Valid()
      ensures var mapped := mapper(service);
        if Usable(mapped) then
          var step := LegacyBasic.Remove(old(own.Snapshot()), mapped.value.id);
          own.Snapshot() == step.store && own.log == old(own.log) + step.events
        else own.Snapshot() == old(own.Snapshot()) && own.log == old(own.log)
    {
      var mapped := mapper(service);
      if mapped.Some? && mapped.value.id != "" {
        own.RemoveService(ById(mapped.value.id));
      }
    }

    /**
     * `start`: nothing when the parent is already active; otherwise the
     * handlers are subscribed, the parent started and the view marked active.
     */
    method Start()
      requires Valid()
      modifies this`subscribed, parent`active, own`active
      ensures parent.active
      ensures old(parent.active) ==> subscribed == old(subscribed) && own.active == old(own.active)
      ensures !old(parent.active) ==> subscribed && own.active
    {
      if parent.active {
        return;
      }
      subscribed := true;
      parent.Start();
      own.Start();
    }

    /** `stop`: the parent is stopped, the handlers unsubscribed and the view marked inactive. */
    method Stop()
      modifies this`subscribed, parent`active, own`active
      ensures !parent.active && !subscribed && !own.active
    {
      parent.Stop();
      subscribed := false;
      own.Stop();
    }
  }

  /**
   * The replay loop of the constructor: each service is mapped, and each
   * usable result added to the registry.
   */
  method Replay(registry: LegacyBasic.LegacyBasicDiscovery, services: seq<Service>,
                mapper: Service -> Option<Service>, now: real)
    requires registry.Valid()
    modifies registry`registrations, registry`order, registry`log
    ensures registry.Valid()
    ensures var b := LegacyBasic.AddAll(old(registry.Snapshot()), MapUsable(mapper, services), now);
      registry.Snapshot() == b.store && registry.log == old(registry.log) + b.events
  {
    ghost var target := LegacyBasic.AddAll(registry.Snapshot(), MapUsable(mapper, services), now);
    var i := 0;
    while i < |services|
      invariant 0 <= i <= |services|
      invariant registry.Valid()
      invariant Replayed(registry, services, mapper, now, i, target, old(registry.log))
    {
      ReplayNext(registry, services, mapper, now, i, target, old(registry.log));
      i := i + 1;
    }
  }

  /**
   * Replaying `services[i..]` into the registry as it now is ends with the
   * registrations and events of `target`, given the log `log0` it started from.
   */
  ghost predicate Replayed(registry: LegacyBasic.LegacyBasicDiscovery, services: seq<Service>,
                           mapper: Service -> Option<Service>, now: real, i: int,
                           target: LegacyBasic.Batch, log0: seq<Event>)
    reads registry
    requires 0 <= i <= |services|
  {
    var rest := LegacyBasic.AddAll(registry.Snapshot(), MapUsable(mapper, services[i..]), now);
    rest.store == target.store && registry.log + rest.events == log0 + target.events
  }

  /** One turn of the replay loop: map `services[i]` and add it when usable. */
  method ReplayNext(registry: LegacyBasic.LegacyBasicDiscovery, services: seq<Service>,
                    mapper: Service -> Option<Service>, now: real, i: int,
                    ghost target: LegacyBasic.Batch, ghost log0: seq<Event>)
    requires registry.Valid() && 0 <= i < |services|
    requires Replayed(registry, services, mapper, now, i, target, log0)
    modifies registry`registrations, registry`order, registry`log
    ensures registry.Valid()
    ensures Replayed(registry, services, mapper, now, i + 1, target, log0)
  {
    MapUsableStep(mapper, services, i);
    var mapped := mapper(services[i]);
    if mapped.Some? && mapped.value.id != "" {
      ghost var before := registry.Snapshot();
      var _ := registry.AddService(mapped.value, now);
      ghost var step := LegacyBasic.Add(before, mapped.value, now).value;
      ghost var tail := MapUsable(mapper, services[i + 1..]);
      LegacyBasic.AddAllCons(before, mapped.value, tail, now);
      assert registry.Snapshot() == step.store && registry.log == old(registry.log) + step.events;
      assert MapUsable(mapper, services[i..]) == [mapped.value] + tail;
      ghost var rest := LegacyBasic.AddAll(step.store, tail, now);
      assert rest.store == target.store;
      ConcatAssoc(old(registry.log), step.events, rest.events);
    } else {
      assert MapUsable(mapper, services[i..]) == MapUsable(mapper, services[i + 1..]);
    }
  }

  /** The usable mapped services from position `i` on: that of `services[i]`, if usable, then the rest. */
  lemma MapUsableStep(mapper: Service -> Option<Service>, services: seq<Service>, i: int)
    requires 0 <= i < |services|
    ensures MapUsable(mapper, services[i..])
         == (if Usable(mapper(services[i])) then [mapper(services[i]).value] else []) + MapUsable(mapper, services[i + 1..])
  {
    assert services[i..][0] == services[i] && services[i..][1..] == services[i + 1..];
  }

  /**
   * The constructor as written: over an active parent it subscribes the
   * handlers and then iterates `parent._services`, where `parent` is the
   * module's symbol rather than the parent argument, so the property is
   * undefined and the iteration throws a TypeError. Only an inactive parent
   * gives a discovery, and it is empty.
   */
  method CreateAsWritten(parent: LegacyBasic.LegacyBasicDiscovery, mapper: Service -> Option<Service>, now: real)
    returns (r: Result<LegacyMappedDiscovery>)
    requires parent.Valid()
    ensures r.Err? <==> parent.active
    ensures r.Ok? ==> fresh(r.value) && r.value.own.Snapshot() == LegacyBasic.Empty && !r.value.subscribed
  {
    if parent.active {
      return Err("TypeError: undefined is not iterable");
    }
    var d := new LegacyMappedDiscovery(parent, mapper, now);
    return Ok(d);
  }
}

=== FILE: manual_discovery.dfy ===
/**
 * The manual discovery (ManualServiceDiscovery): a registry-backed discovery
 * whose public `add`, `remove` and `set` hand their argument straight to the
 * registry's `updateService`, `removeService` and `setServices`.
 */
module ManualDiscovery {
  import opened Common
  import Registry
  import BasicDiscovery

  class ManualServiceDiscovery {
    /** The registry this discovery inherits. */
    const registry: BasicDiscovery.BasicServiceDiscovery

    ghost predicate Valid()
      reads this, registry
    {
      registry.Valid()
    }

    /** A new manual discovery is empty, has emitted nothing and is not destroyed. */
    constructor ()
      ensures Valid() && fresh(registry)
      ensures registry.Snapshot() == Registry.Empty && registry.log == [] && !registry.destroyed
    {
      registry := new BasicDiscovery.BasicServiceDiscovery();
    }

    /** `add`: returns and emits exactly what `updateService` does. */
    method Add(service: Option<Service>) returns (r: Result<Option<Service>>)
      requires Valid()
      modifies registry
      ensures Valid() && registry.destroyed == old(registry.destroyed)
      ensures match Registry.Upsert(old(registry.Snapshot()), service)
        case Err(e) => r == Err(e) && registry.Snapshot() == old(registry.Snapshot()) && registry.log == old(registry.log)
        case Ok(step) =>
          r == Ok(step.previous) && registry.Snapshot() == step.store && registry.log == old(registry.log) + step.events
    {
      r := registry.UpdateService(service);
    }

    /** `remove`: returns and emits exactly what `removeService` does. */
    method Remove(target: Target) returns (r: Option<Service>)
      requires Valid()
      modifies registry
      ensures Valid() && registry.destroyed == old(registry.destroyed)
      ensures var step := Registry.Remove(old(registry.Snapshot()), target);
        r == step.previous && registry.Snapshot() == step.store && registry.log == old(registry.log) + step.events
    {
      r := registry.RemoveService(target);
    }

    /** `set`: emits exactly what `setServices` does and throws when it throws. */
    method Set(services: seq<Service>) returns (error: Option<string>)
      requires Valid()
      modifies registry
      ensures Valid() && registry.destroyed == old(registry.destroyed)
      ensures var b := Registry.Reconcile(old(registry.Snapshot()), services);
        error == b.error && registry.Snapshot() == b.store && registry.log == old(registry.log) + b.events
    {
      error := registry.SetServices(services);
    }
  }
}

=== FILE: registry.dfy ===
/**
 * The registry and diff engine of a discovery, as functions on a value.
 *
 * A `Store` is the discovery's map from identifier to service together with
 * the map's iteration order (insertion order: re-setting an existing key keeps
 * its place, deleting a key drops it). `Upsert`, `Remove` and `Reconcile` give
 * the new store, the events emitted (in emission order) and the value
 * returned; the class `BasicServiceDiscovery` performs the same steps in place
 * and is proved equal to these functions.
 */
module Registry {
  import opened Common

  datatype Store = Store(entries: map<string, Service>, order: seq<string>)

  /** The result of one mutation: new store, emitted events, returned value. */
  datatype Step = Step(store: Store, events: seq<Event>, previous: Option<Service>)

  /** The result of a batch of mutations that stops at the first error thrown. */
  datatype Batch = Batch(store: Store, events: seq<Event>, error: Option<string>)

  const Empty: Store := Store(map[], [])

  /**
   * The order lists every key exactly once, and every service is filed under
   * its own non-empty identifier.
   */
  ghost predicate Valid(st: Store) {
    && Distinct(st.order)
    && (forall k :: k in st.order <==> k in st.entries)
    && (forall k :: k in st.entries ==> k != "" && st.entries[k].id == k)
  }

  /** The values of `m` at the keys `ks`, in the order of `ks`. */
  function ValuesOf(m: map<string, Service>, ks: seq<string>): (r: seq<Service>)
    requires forall k :: k in ks ==> k in m
    ensures |r| == |ks|
    ensures forall i :: 0 <= i < |ks| ==> r[i] == m[ks[i]]
  {
    if ks == [] then [] else [m[ks[0]]] + ValuesOf(m, ks[1..])
  }

  /** The `services` snapshot: the stored values in map iteration order. */
  function List(st: Store): (r: seq<Service>)
    requires Valid(st)
    ensures |r| == |st.order|
    ensures forall i :: 0 <= i < |r| ==> r[i] == st.entries[st.order[i]]
  {
    ValuesOf(st.entries, st.order)
  }

  /** `get(id)`: the stored value, or none. */
  function Get(st: Store, id: string): Option<Service> {
    if id in st.entries then Some(st.entries[id]) else None
  }

  /** The identifier a removal targets. */
  function TargetId(t: Target): string
    requires !t.Nothing?
  {
    if t.ById? then t.id else t.service.id
  }

  /**
   * `updateService`: rejects a missing service and an empty identifier;
   * otherwise files the service under its identifier. A new identifier emits
   * `Available`; a changed value emits `Updated(new, previous)` and returns the
   * previous value; a structurally equal value changes nothing.
   */
  function Upsert(st: Store, arg: Option<Service>): (r: Result<Step>)
    ensures r.Err? <==> arg.None? || arg.value.id == ""
    ensures r.Ok? ==> r.value.store.entries == st.entries[arg.value.id := arg.value]
    ensures r.Ok? ==>
      r.value.store.order == (if arg.value.id in st.entries then st.order else st.order + [arg.value.id])
    ensures r.Ok? && Valid(st) ==> Valid(r.value.store)
  {
    match arg
    case None => Err("A service object is required")
    case Some(s) =>
      if s.id == "" then Err("Services must have an identifier")
      else if s.id in st.entries then
        var registration := st.entries[s.id];
        if registration == s then Ok(Step(st, [], None))
        else Ok(Step(Store(st.entries[s.id := s], st.order), [Updated(s, registration)], Some(registration)))
      else
        assert Valid(st) ==> Distinct(st.order + [s.id]) by {
          if Valid(st) {
            DistinctAppend(st.order, s.id);
          }
        }
        Ok(Step(Store(st.entries[s.id := s], st.order + [s.id]), [Available(s)], None))
  }

  /**
   * `removeService`: a missing target or an unknown identifier changes
   * nothing; a tracked identifier is deleted, `Unavailable(stored)` is emitted
   * and the stored value is returned.
   */
  function Remove(st: Store, t: Target): (r: Step)
    ensures r.store.entries.Keys <= st.entries.Keys
    ensures Valid(st) ==> Valid(r.store)
  {
    match t
    case Nothing => Step(st, [], None)
    case _ =>
      var id := TargetId(t);
      if id in st.entries then
        Step(Store(st.entries - {id}, Without(st.order, id)), [Unavailable(st.entries[id])], Some(st.entries[id]))
      else
        Step(st, [], None)
  }

  /** The first loop of `setServices`: upsert each service, stopping at a throw. */
  function UpsertAll(st: Store, xs: seq<Service>): (r: Batch)
    ensures r.error.None? <==> Identified(xs)
    ensures Valid(st) ==> Valid(r.store)
    decreases |xs|
  {
    if xs == [] then Batch(st, [], None)
    else
      match Upsert(st, Some(xs[0]))
      case Err(e) => Batch(st, [], Some(e))
      case Ok(step) =>
        var rest := UpsertAll(step.store, xs[1..]);
        Batch(rest.store, step.events + rest.events, rest.error)
  }

  /** The second loop of `setServices`: remove each key of `keys` not in `keep`. */
  function RemoveAbsent(st: Store, keys: seq<string>, keep: set<string>): (r: Batch)
    ensures r.error == None
    ensures Valid(st) ==> Valid(r.store)
    decreases |keys|
  {
    if keys == [] then Batch(st, [], None)
    else if keys[0] in keep then RemoveAbsent(st, keys[1..], keep)
    else
      var step := Remove(st, ById(keys[0]));
      var rest := RemoveAbsent(step.store, keys[1..], keep);
      Batch(rest.store, step.events + rest.events, None)
  }

  /** Removing one more key after `keys`: the batch over `keys`, then the removal of that key unless kept. */
  lemma {:induction false} RemoveAbsentSnoc(st: Store, keys: seq<string>, k: string, keep: set<string>)
    ensures var b := RemoveAbsent(st, keys, keep);
      RemoveAbsent(st, keys + [k], keep) ==
        if k in keep then b
        else
          var step := Remove(b.store, ById(k));
          Batch(step.store, b.events + step.events, None)
    decreases |keys|
  {
    if keys == [] {
      assert keys + [k] == [k] && [k][1..] == [];
      assert [] + Remove(st, ById(k)).events == Remove(st, ById(k)).events + [];
    } else {
      assert (keys + [k])[0] == keys[0] && (keys + [k])[1..] == keys[1..] + [k];
      if keys[0] in keep {
        RemoveAbsentSnoc(st, keys[1..], k, keep);
      } else {
        var step := Remove(st, ById(keys[0]));
        RemoveAbsentSnoc(step.store, keys[1..], k, keep);
        var b := RemoveAbsent(step.store, keys[1..], keep);
        ConcatAssoc(step.events, b.events, Remove(b.store, ById(k)).events);
      }
    }
  }

  /**
   * `setServices`: upsert every service, then remove every tracked identifier
   * that the input does not mention. A throw in the first loop ends the call
   * with the upserts made so far.
   */
  function Reconcile(st: Store, xs: seq<Service>): Batch {
    var added := UpsertAll(st, xs);
    if added.error.Some? then added
    else
      var removed := RemoveAbsent(added.store, added.store.order, Ids(xs));
      Batch(removed.store, added.events + removed.events, None)
  }

  // ---------------------------------------------------------------------
  // Properties of the registry
  // ---------------------------------------------------------------------

  /** `get` finds exactly the service that the `services` snapshot lists under that id. */
  lemma GetAgreesWithList(st: Store, id: string, s: Service)
    requires Valid(st)
    ensures Get(st, id) == Some(s) <==> s in List(st) && s.id == id
  {
    if Get(st, id) == Some(s) {
      var i :| 0 <= i < |st.order| && st.order[i] == id;
      assert List(st)[i] == s;
    }
  }

  /** A new identifier is appended to the snapshot and announced once. */
  lemma UpsertNew(st: Store, s: Service)
    requires Valid(st) && s.id != "" && s.id !in st.entries
    ensures Upsert(st, Some(s)).Ok?
    ensures var step := Upsert(st, Some(s)).value;
      && step.events == [Available(s)]
      && step.previous == None
      && List(step.store) == List(st) + [s]
  {
    var step := Upsert(st, Some(s)).value;
    var before, after := List(st), List(step.store);
    forall i | 0 <= i < |before|
      ensures after[i] == before[i]
    {
      assert st.order[i] != s.id;
    }
    assert after == before + [s];
  }

  /** A structurally equal value changes nothing and emits nothing. */
  lemma UpsertUnchanged(st: Store, s: Service)
    requires Valid(st) && s.id in st.entries && st.entries[s.id] == s
    ensures Upsert(st, Some(s)) == Ok(Step(st, [], None))
  {
  }

  /**
   * A changed value replaces the stored one in its place in the snapshot,
   * emits one `Updated(new, previous)` and returns the previous value.
   */
  lemma UpsertChanged(st: Store, s: Service)
    requires Valid(st) && s.id in st.entries && st.entries[s.id] != s
    ensures Upsert(st, Some(s)).Ok?
    ensures var step := Upsert(st, Some(s)).value;
      && step.events == [Updated(s, st.entries[s.id])]
      && step.previous == Some(st.entries[s.id])
      && |List(step.store)| == |List(st)|
      && forall i :: 0 <= i < |List(st)| ==>
           List(step.store)[i] == if List(st)[i].id == s.id then s else List(st)[i]
  {
  }

  /** Removing nothing or an unknown identifier changes nothing and emits nothing. */
  lemma RemoveUnknown(st: Store, t: Target)
    requires t.Nothing? || TargetId(t) !in st.entries
    ensures Remove(st, t) == Step(st, [], None)
  {
  }

  /** Whether or not the identifier is tracked, a removal leaves exactly the other entries. */
  lemma RemoveEntries(st: Store, t: Target)
    requires !t.Nothing?
    ensures Remove(st, t).store.entries == st.entries - {TargetId(t)}
  {
    if TargetId(t) !in st.entries {
      assert st.entries - {TargetId(t)} == st.entries;
    }
  }

  /** Dropping a key from the order drops its value from the snapshot, keeping the rest in order. */
  lemma {:induction false} ValuesOfWithout(m: map<string, Service>, ks: seq<string>, id: string)
    requires forall k :: k in ks ==> k in m && m[k].id == k
    ensures forall k :: k in Without(ks, id) ==> k in m - {id}
    ensures ValuesOf(m - {id}, Without(ks, id)) == Filter((s: Service) => s.id != id, ValuesOf(m, ks))
  {
    if ks != [] {
      ValuesOfWithout(m, ks[1..], id);
      assert ValuesOf(m, ks) == [m[ks[0]]] + ValuesOf(m, ks[1..]);
      assert Without(ks, id) == (if ks[0] == id then [] else [ks[0]]) + Without(ks[1..], id);
      if ks[0] != id {
        assert ValuesOf(m - {id}, Without(ks, id))
            == [m[ks[0]]] + ValuesOf(m - {id}, Without(ks[1..], id));
      }
    }
  }

  /**
   * Removing a tracked identifier (given as a string or as a service) deletes
   * only that key, emits `Unavailable` with the STORED value, returns it, and
   * leaves the rest of the snapshot in order.
   */
  lemma RemoveKnown(st: Store, t: Target)
    requires Valid(st) && !t.Nothing? && TargetId(t) in st.entries
    ensures var id := TargetId(t); var stored := st.entries[id]; var step := Remove(st, t);
      && step.events == [Unavailable(stored)]
      && step.previous == Some(stored)
      && step.store.entries == st.entries - {id}
      && List(step.store) == Filter((s: Service) => s.id != id, List(st))
  {
    ValuesOfWithout(st.entries, st.order, TargetId(t));
  }

  /** After the first loop, the tracked keys are the old ones and the input identifiers. */
  lemma {:induction false} UpsertAllKeys(st: Store, xs: seq<Service>)
    requires forall i :: 0 <= i < |xs| ==> xs[i].id != ""
    ensures UpsertAll(st, xs).store.entries.Keys == st.entries.Keys + Ids(xs)
    decreases |xs|
  {
    if xs != [] {
      var step := Upsert(st, Some(xs[0])).value;
      assert forall i :: 0 <= i < |xs| - 1 ==> xs[1..][i] == xs[i + 1];
      UpsertAllKeys(step.store, xs[1..]);
    }
  }

  /** The first loop leaves alone every tracked identifier that the input does not mention. */
  lemma {:induction false} UpsertAllOthers(st: Store, xs: seq<Service>, id: string)
    requires id in st.entries && id !in Ids(xs)
    ensures id in UpsertAll(st, xs).store.entries
    ensures UpsertAll(st, xs).store.entries[id] == st.entries[id]
    decreases |xs|
  {
    if xs != [] {
      match Upsert(st, Some(xs[0]))
      case Err(_) =>
      case Ok(step) => UpsertAllOthers(step.store, xs[1..], id);
    }
  }

  /** After the first loop, every input identifier holds its LAST value in the input. */
  lemma {:induction false} UpsertAllLast(st: Store, xs: seq<Service>, id: string)
    requires forall i :: 0 <= i < |xs| ==> xs[i].id != ""
    requires id in Ids(xs)
    ensures id in UpsertAll(st, xs).store.entries
    ensures UpsertAll(st, xs).store.entries[id] == LastWithId(xs, id).value
    decreases |xs|
  {
    var step := Upsert(st, Some(xs[0])).value;
    var tail := xs[1..];
    assert forall i :: 0 <= i < |tail| ==> tail[i] == xs[i + 1];
    assert UpsertAll(st, xs).store == UpsertAll(step.store, tail).store;
    assert Ids(xs) == {xs[0].id} + Ids(tail);
    if id in Ids(tail) {
      UpsertAllLast(step.store, tail, id);
    } else {
      assert id == xs[0].id && id in step.store.entries;
      UpsertAllOthers(step.store, tail, id);
      assert LastWithId(xs, id) == Some(xs[0]);
    }
  }

  /**
   * After the second loop over `keys`, exactly the keys listed in `keys` and
   * not kept are gone; kept keys never receive an `Unavailable`.
   */
  lemma {:induction false} RemoveAbsentContents(st: Store, keys: seq<string>, keep: set<string>)
    requires Valid(st)
    ensures var r := RemoveAbsent(st, keys, keep);
      && r.store.entries == (map k | k in st.entries && (k !in keys || k in keep) :: st.entries[k])
      && forall e :: e in r.events ==> e.Unavailable? && e.service.id !in keep && e.service.id in keys
    decreases |keys|
  {
    if keys != [] {
      var tail := keys[1..];
      if keys[0] in keep {
        RemoveAbsentContents(st, tail, keep);
      } else {
        var step := Remove(st, ById(keys[0]));
        RemoveAbsentContents(step.store, tail, keep);
      }
    }
  }

  /**
   * `setServices` over services that all have identifiers: the tracked keys
   * become exactly the input identifiers, each holding its last value in the
   * input, and no identifier of the input is ever announced unavailable.
   */
  lemma {:induction false} ReconcileContents(st: Store, xs: seq<Service>)
    requires Valid(st)
    requires forall i :: 0 <= i < |xs| ==> xs[i].id != ""
    ensures var r := Reconcile(st, xs);
      && r.error == None
      && Valid(r.store)
      && r.store.entries.Keys == Ids(xs)
      && (forall id :: id in Ids(xs) ==> r.store.entries[id] == LastWithId(xs, id).value)
      && (forall e :: e in r.events && e.Unavailable? ==> e.service.id !in Ids(xs))
  {
    IdentifiedEverywhere(xs);
    var added := UpsertAll(st, xs);
    UpsertAllKeys(st, xs);
    forall id | id in Ids(xs)
      ensures added.store.entries[id] == LastWithId(xs, id).value
    {
      UpsertAllLast(st, xs, id);
    }
    UpsertAllNoRemoval(st, xs);
    assert added.error == None;
    var removed := RemoveAbsent(added.store, added.store.order, Ids(xs));
    RemoveAbsentContents(added.store, added.store.order, Ids(xs));
    assert Reconcile(st, xs) == Batch(removed.store, added.events + removed.events, None);
  }

  /**
   * `setServices` with a service lacking an identifier throws, and the
   * removal loop never runs: nothing is announced unavailable.
   */
  lemma {:induction false} ReconcileThrows(st: Store, xs: seq<Service>, i: nat)
    requires i < |xs| && xs[i].id == ""
    ensures Reconcile(st, xs).error.Some?
    ensures forall e :: e in Reconcile(st, xs).events ==> !e.Unavailable?
  {
    IdentifiedEverywhere(xs);
    UpsertAllNoRemoval(st, xs);
  }

  /** The first loop of `setServices` never emits `Unavailable`. */
  lemma {:induction false} UpsertAllNoRemoval(st: Store, xs: seq<Service>)
    ensures forall e :: e in UpsertAll(st, xs).events ==> !e.Unavailable?
    decreases |xs|
  {
    if xs != [] {
      match Upsert(st, Some(xs[0]))
      case Err(_) =>
      case Ok(step) => UpsertAllNoRemoval(step.store, xs[1..]);
    }
  }
}

=== FILE: timed_discovery.dfy ===
/**
 * The option handling of a timed discovery (TimedDiscovery): an expiring
 * discovery that searches at an interval. Either option may be left out and
 * is then derived from the other: services go stale after three search
 * intervals, and the search runs three times per stale period but never more
 * often than every 100 milliseconds.
 */
module TimedDiscovery {
  import opened Common
  import ExpiringDiscovery

  /** The options object; each field is present only when it is a number. */
  datatype TimedOptions = TimedOptions(maxStaleTime: Option<real>, searchTime: Option<real>)

  const SearchTimeNotPositive := "searchTime must be more than zero milliseconds, or maxStaleTime must be specified"
  const MaxStaleTimeNotPositive := "maxStaleTime must be more than zero milliseconds, or searchTime must be specified"
  const NeitherGiven := "searchTime or maxStaleTime are required"

  /**
   * `resolveMaxStaleTime`: a given `maxStaleTime` is taken as it is, with no
   * sign check; otherwise three search intervals, when `searchTime` is given
   * and positive.
   */
  function ResolveMaxStaleTime(options: TimedOptions): (r: Result<real>)
    ensures options.maxStaleTime.Some? ==> r == Ok(options.maxStaleTime.value)
    ensures r.Ok? <==> options.maxStaleTime.Some? || (options.searchTime.Some? && options.searchTime.value > 0.0)
    ensures r.Ok? && options.maxStaleTime.None? ==> r.value == 3.0 * options.searchTime.value && r.value > 0.0
    ensures r.Err? ==> r.error == (if options.searchTime.Some? then SearchTimeNotPositive else NeitherGiven)
  {
    match options.maxStaleTime
    case Some(m) => Ok(m)
    case None =>
      match options.searchTime
      case Some(s) => if s <= 0.0 then Err(SearchTimeNotPositive) else Ok(s * 3.0)
      case None => Err(NeitherGiven)
  }

  /**
   * `resolveSearchTime`: a given `searchTime` must be positive and is taken
   * as it is; otherwise a third of `maxStaleTime`, but at least 100, when
   * `maxStaleTime` is given and positive.
   */
  function ResolveSearchTime(options: TimedOptions): (r: Result<real>)
    ensures r.Ok? <==>
      if options.searchTime.Some? then options.searchTime.value > 0.0
      else options.maxStaleTime.Some? && options.maxStaleTime.value > 0.0
    ensures r.Ok? ==> r.value > 0.0
    ensures r.Ok? && options.searchTime.Some? ==> r.value == options.searchTime.value
    ensures r.Ok? && options.searchTime.None? ==>
      r.value >= 100.0 && r.value * 3.0 >= options.maxStaleTime.value
    ensures r.Err? ==>
      r.error == (if options.searchTime.Some? then SearchTimeNotPositive
                  else if options.maxStaleTime.Some? then MaxStaleTimeNotPositive
                  else NeitherGiven)
  {
    match options.searchTime
    case Some(s) => if s <= 0.0 then Err(SearchTimeNotPositive) else Ok(s)
    case None =>
      match options.maxStaleTime
      case Some(m) => if m <= 0.0 then Err(MaxStaleTimeNotPositive) else Ok(Max(100.0, m / 3.0))
      case None => Err(NeitherGiven)
  }

  /** What the constructor settles on: the stale time it hands to the expiring discovery and the search interval. */
  datatype Timing = Timing(maxStaleTime: real, searchTime: real)

  /**
   * The constructor's checks, in the order it makes them: the options must
   * be given; the stale time is resolved and then checked by the expiring
   * discovery's constructor; then the search interval is resolved.
   */
  function Construct(options: Option<TimedOptions>): (r: Result<Timing>)
    ensures options.None? ==> r == Err("options are required")
    ensures r.Ok? ==> r.value.maxStaleTime > 0.0 && r.value.searchTime > 0.0
  {
    match options
    case None => Err("options are required")
    case Some(o) =>
      match ResolveMaxStaleTime(o)
      case Err(e) => Err(e)
      case Ok(m) =>
        match ExpiringDiscovery.CheckOptions(Some(ExpiringDiscovery.ExpiringOptions(Some(m))))
        case Some(e) => Err(e)
        case None =>
          match ResolveSearchTime(o)
          case Err(e) => Err(e)
          case Ok(s) => Ok(Timing(m, s))
  }

  /**
   * The constructor accepts exactly the options with at least one field
   * given, every given field positive.
   */
  lemma ConstructAccepts(options: Option<TimedOptions>)
    ensures Construct(options).Ok? <==>
      && options.Some?
      && (options.value.maxStaleTime.Some? || options.value.searchTime.Some?)
      && (options.value.maxStaleTime.Some? ==> options.value.maxStaleTime.value > 0.0)
      && (options.value.searchTime.Some? ==> options.value.searchTime.value > 0.0)
  {
    if options.Some? {
      var o := options.value;
      var m := ResolveMaxStaleTime(o);
      if m.Ok? {
        var check := ExpiringDiscovery.CheckOptions(Some(ExpiringDiscovery.ExpiringOptions(Some(m.value))));
        assert check.None? <==> m.value > 0.0;
      }
    }
  }

  /**
   * A given stale time that is zero or negative passes its own resolution
   * and is refused by the expiring discovery's check, with that check's message.
   */
  lemma NonPositiveStaleTimeRefusedDownstream(o: TimedOptions)
    requires o.maxStaleTime.Some? && o.maxStaleTime.value <= 0.0
    ensures ResolveMaxStaleTime(o).Ok?
    ensures Construct(Some(o)) == Err("maxStaleTime option is required and needs to be a positive number")
  {
  }

  /**
   * With both fields left out of the derivation, the two timings keep their
   * ratio: a stale period derived from the search interval is three
   * intervals, and a search interval derived from the stale period fits three
   * times in it unless the 100 millisecond floor applies.
   */
  lemma DerivedTimings(o: TimedOptions)
    requires Construct(Some(o)).Ok?
    ensures var t := Construct(Some(o)).value;
      && (o.maxStaleTime.None? ==> t.maxStaleTime == 3.0 * t.searchTime)
      && (o.searchTime.None? ==> t.searchTime >= 100.0 && (t.searchTime > 100.0 ==> 3.0 * t.searchTime == t.maxStaleTime))
  {
  }
}
